=== FILE: README.md ===
# aioazstorage in Dafny

A model of the request plumbing of aioazstorage, a small asyncio client for the Azure
Table, Blob and Queue storage REST services. The model covers four clients:

- `TableClient` in `aioazstorage/tables.py`.
- Its older copy `StorageClient` in `aioazstorage/__init__.py`. It is the same code without
  the `Connection` header and with fewer operations, and is modelled as
  `Tables.TableClient(client, keepAlive := false)`.
- `BlobClient` in `aioazstorage/blobs.py`.
- `QueueClient` in `aioazstorage/queues.py`.

The model covers:

- SharedKeyLite signing, in both of its schemes. The table scheme signs
  `date + "\n" + resource`. The blob/queue scheme signs
  `verb\n\ncontent-type\n\n<x-ms headers>\nresource`.
- How each client's default headers are assembled, and the `Authorization` and
  `Content-Length` headers placed in front of them.
- The EDM type annotation that `_annotate_payload` writes into an entity dict in place, and
  the parsing that `_parse_payload` undoes it with in place.
- The `while True` continuation loops of `getTables` and `queryEntities`. They mutate the
  caller's `query` dict.
- Resource paths, `If-Match`, and the `$batch` multipart body with its headers.
- The container requests and the shaping of `listBlobs` records.
- The queue requests, the message envelope, and the query `putMessage` builds.

Python dicts are modelled as insertion-ordered association lists (`Dicts.Dict`). The order
matters here: it fixes the canonical header block, the query string and the JSON text. A
dict that the code mutates in place is a `Dicts.PyDict` object.

The following are parameters:

- the clock: `HttpDate`, `Tables.Stamp`, and `now` for the datetime formatter;
- `uuid1()`: the `requestId` of a `Stamp`, and the batch and changeset ids;
- the signature primitive, base64 of HMAC-SHA256: the uninterpreted `SharedKey.Mac` carried
  by the client;
- the service's replies.

Modules, one per file:

- `Wrappers`, `Text`, `Dicts`, `Uuids`, `Urls` and `Json`: the Python library behaviour the
  clients rely on. That is `str`/`int`, dict assignment, `{**a, **b}`, `str(UUID)`/`UUID(s)`,
  `urlencode` and `json.dumps`.
- `Edm` and `EdmProperties`: the annotation functions and their properties.
- `SharedKey`: the signing shared by all clients.
- `Tables`: table requests, `If-Match` and `$batch`.
- `Paging`: the listing loops.
- `Blobs` and `Queues`: the two other clients.

## Model

| member | source | states |
|---|---|---|
| Text.IntRoundTrip | aioazstorage/tables.py:26 | `int(str(i)) == i` for every integer, so the Int64 formatter and parser are inverse |
| Text.PyInt | aioazstorage/tables.py:32 | `int(s)` accepts surrounding ASCII white space (tab, line feed, vertical tab, form feed, carriage return, space), a sign and underscores between digits; whatever it accepts holds at least one digit |
| Text.PyIntRejectsSeparator | aioazstorage/tables.py:32 | example: `int("\x1c5")` raises, because an information separator is not white space to `int()` |
| Text.PyIntSpacedSigned | aioazstorage/tables.py:32 | example: `int(" -1_0\n")` is -10 |
| Text.PyIntHexPrefix | aioazstorage/tables.py:33 | example: the base-16 `int` inside `UUID()` reads `+0x_fF` as 255 |
| Text.PyIntRejectsDoubled | aioazstorage/tables.py:32 | example: two underscores in a row are a ValueError |
| Text.PyIntRejectsLeading | aioazstorage/tables.py:32 | example: a leading underscore is a ValueError |
| Text.PyIntRejectsBarePrefix | aioazstorage/tables.py:33 | example: a `0x` prefix without digits is a ValueError |
| Text.ParseIntCapital | aioazstorage/tables.py:32 | text that starts with a capital letter is never an integer, whatever follows it |
| Uuids.UuidRoundTrip | aioazstorage/tables.py:27 | `UUID(str(u)) == u`: the Guid formatter and parser are inverse |
| Uuids.ParseUuidShort | aioazstorage/tables.py:33 | a string shorter than 32 characters is never accepted as a UUID |
| Uuids.HexStringValue | aioazstorage/tables.py:33 | `int(h, 16)` of the 32 digits of `str(u)` is `int(u)`, which lies in the 128-bit range and gives back `u` |
| Uuids.NibblesRoundTrip | aioazstorage/tables.py:33 | at a fixed width, turning digits into a number and back gives the digits |
| Edm.EdmParse | aioazstorage/tables.py:30-34 | the registered parsers only ever produce integers or UUIDs; the datetime parser always raises NameError |
| Edm.AnnotatePayload | aioazstorage/tables.py:121-128 | the in-place loop over the key snapshot leaves exactly `Annotated(old payload)`; the same holds for the older client in `aioazstorage/__init__.py`, lines 120-127 |
| Edm.AnnotateOne | aioazstorage/tables.py:123-127 | one pass for key `k`, in place, writes exactly what the reference `AnnotateKey` says: the tag slot for a typed value, the text for a formatted one |
| Edm.ConvertKey | aioazstorage/tables.py:132-134 | converting one property never adds or removes a key |
| Edm.ConvertKeysStops | aioazstorage/tables.py:131-134 | after an exception the first loop visits no later key |
| Edm.ConvertOne | aioazstorage/tables.py:132-134 | one pass of the first loop, in place, ends with the dict and exception of the reference `ConvertKey` |
| Edm.ConvertInPlace | aioazstorage/tables.py:131-134 | the first loop, in place, ends with the dict and exception of the reference `ConvertKeys` |
| Edm.StripInPlace | aioazstorage/tables.py:136-138 | the deleting loop, in place, ends with the dict of the reference `StripKeys` |
| Edm.StripOne | aioazstorage/tables.py:137-138 | one pass of the deleting loop removes the key exactly when it contains `@odata.type`, and the keys still to visit stay present |
| Edm.ParsePayloadInPlace | aioazstorage/tables.py:130-139 | `_parse_payload` in place equals the reference `ParsePayload`; the same holds for the older client in `aioazstorage/__init__.py`, lines 129-138 |
| EdmProperties.AnnotateEffect | aioazstorage/tables.py:121-128 | for an entity with no int, UUID or datetime under a key ending in `@odata.type`: each int, UUID and datetime property becomes its text, with its EDM type under `k@odata.type`; every other key keeps its value; the original keys keep their order and a well-formed dict stays well-formed; the same holds for the older client in `aioazstorage/__init__.py`, lines 120-127 |
| EdmProperties.AnnotatedUntyped | aioazstorage/tables.py:121-128 | after annotation no value is an int, a UUID or a datetime |
| EdmProperties.AnnotateIdempotent | aioazstorage/tables.py:121-128 | annotating twice equals annotating once, whatever time the second pass reads |
| EdmProperties.AnnotatedAt | aioazstorage/tables.py:18-28 | in a plain entity, a key gets a known tag exactly when its value is typed (bool is not), the tag is that type's name, and only tag slots are added |
| EdmProperties.AnnotatedTail | aioazstorage/tables.py:121-128 | for every well-formed entity, annotated before or not: the keys annotation adds come after the original keys and all contain `@odata.type` |
| EdmProperties.AnnotateKeysNew | aioazstorage/tables.py:121-128 | whatever the dict held before, every key the loop adds contains `@odata.type` |
| EdmProperties.KnownTagsDoNotParse | aioazstorage/tables.py:30-34 | no type name parses as a value of a known type |
| EdmProperties.ConvertPrefix | aioazstorage/tables.py:131-134 | after the first `n` keys the loop has raised exactly when some visited annotated value fails to parse; otherwise visited keys hold their parsed values and the others are untouched |
| EdmProperties.ConvertAll | aioazstorage/tables.py:131-134 | the first loop raises exactly when some annotated value fails to parse; otherwise every key holds its converted value |
| EdmProperties.StripAll | aioazstorage/tables.py:136-138 | the second loop deletes exactly the keys that contain `@odata.type` and keeps the rest in order |
| EdmProperties.ParseEffect | aioazstorage/tables.py:130-139 | `_parse_payload` raises exactly when some annotated value fails to parse; otherwise annotated values are parsed, other values kept, and no key with `@odata.type` remains; the same holds for the older client in `aioazstorage/__init__.py`, lines 129-138 |
| EdmProperties.ParsePlain | aioazstorage/tables.py:130-139 | a dict without annotation keys is returned unchanged |
| EdmProperties.ParseIdempotent | aioazstorage/tables.py:130-139 | parsing the result of a successful parse changes nothing |
| EdmProperties.ParseFailsAt | aioazstorage/tables.py:131-134 | one property whose parse raises makes the whole parse raise |
| EdmProperties.RecordRoundTrip | aioazstorage/tables.py:121-139 | parsing an annotated entity gives back the original one, provided no key contains `@odata.type` and no value is a datetime |
| EdmProperties.DateTimeFails | aioazstorage/tables.py:25-31 | an entity with a datetime never survives annotation then parsing, because the datetime parser raises |
| Json.EncodeValue | aioazstorage/tables.py:171 | `json.dumps` raises TypeError exactly on UUIDs and datetimes |
| Json.EscapeRoundTrip | aioazstorage/tables.py:171 | decoding the string literal the encoder wrote gives back the string |
| Json.DumpsOk | aioazstorage/tables.py:171 | `dumps` of an entity succeeds exactly when no value is a UUID or datetime, and otherwise raises TypeError |
| Json.DumpsSingle | aioazstorage/tables.py:110 | `dumps({"TableName": name})` is `{"TableName": <quoted name>}` |
| Json.DumpsOneLine | aioazstorage/tables.py:238 | a serialised entity is printable ASCII without a line break, so it takes exactly one line of the `$batch` body |
| Json.AnnotatedSerialisable | aioazstorage/tables.py:171 | every annotated entity serialises |
| Urls.QuotePlusAlphabet | aioazstorage/tables.py:90 | escaped text holds only unreserved characters, `+` and `%` escapes |
| Urls.QuotePlusUnreserved | aioazstorage/tables.py:90 | unreserved text is left as it is |
| Urls.WithQueryMark | aioazstorage/tables.py:89-92 | the URI has a `?` exactly when the query has keys, and then the `?` separates the base from `urlencode(query)` |
| SharedKey.ContentLength | aioazstorage/tables.py:78 | `Content-Length` reads back as the payload's length |
| SharedKey.WithSignatureShape | aioazstorage/tables.py:75-80 | `{Authorization, Content-Length, **defaults}` is the two signed headers followed by the defaults, unchanged and in order |
| SharedKey.WithSignatureGet | aioazstorage/tables.py:75-80 | looking up a signed header finds the signature or the length, and any other name finds the default |
| SharedKey.ServiceStringShape | aioazstorage/blobs.py:53 | the blob/queue string to sign is `verb\n\ncontent-type\n\n<headers>\nresource` |
| SharedKey.CanonicalDateVersion | aioazstorage/blobs.py:51-52 | for defaults that start with date and version and have no other `x-ms` name, the header block is exactly `x-ms-date:<date>\nx-ms-version:<version>`, unsorted and in dict order |
| SharedKey.ServiceSignedText | aioazstorage/queues.py:70-72 | the string to sign for such defaults written out |
| SharedKey.SignForServiceShape | aioazstorage/blobs.py:48-59 | the service headers are the `Authorization` over that string, then `Content-Length`, then the defaults with the date that was signed |
| Tables.DefaultHeadersShape | aioazstorage/tables.py:54-67 | the default table headers are a well-formed dict with the seven names in order; the older client in `aioazstorage/__init__.py`, lines 54-66, has the six names without `Connection` |
| Tables.TableStringShape | aioazstorage/tables.py:74 | the table string to sign is `date + "\n" + resource` |
| Tables.SignForTablesKeys | aioazstorage/tables.py:70-80 | the signed table headers are `Authorization`, `Content-Length` and the defaults, each once; the same holds for the older client in `aioazstorage/__init__.py`, lines 69-79, with eight names in all |
| Tables.SignForTablesEffect | aioazstorage/tables.py:70-80 | `Authorization` is `SharedKeyLite account:mac(key, date\nresource)`; the same date is sent as `x-ms-date`; `Content-Length` is the payload length; `Connection` is sent only by `TableClient`; the same holds for the older client in `aioazstorage/__init__.py`, lines 72-78 |
| Tables.ConnectionNamed | aioazstorage/tables.py:66 | only the `TableClient` defaults name `Connection` |
| Tables.EntityPathInjective | aioazstorage/tables.py:177-178 | entity paths of keys without quotes name one entity: equal paths mean equal keys |
| Tables.EntityKeys | aioazstorage/tables.py:177 | reading the keys fails with KeyError on the first missing key, and otherwise returns both keys as text |
| Tables.IfMatch | aioazstorage/tables.py:189 | `If-Match` is `*` exactly when the etag is missing, empty or `*`, and otherwise the etag itself |
| Tables.WithIfMatchShape | aioazstorage/tables.py:188-191 | `If-Match` comes first and the signed headers follow unchanged |
| Tables.CreateTable | aioazstorage/tables.py:106-111 | a POST to `https://{account}.table.core.windows.net/Tables` whose body is `{"TableName": <name>}`, with headers signed over `/{account}/Tables` and that body and a `Content-Length` of the body; the same holds for the older client in `aioazstorage/__init__.py`, lines 105-110 |
| Tables.DeleteTable | aioazstorage/tables.py:114-118 | an empty DELETE of `/Tables('name')`, with `Authorization` over the date and `/{account}/Tables('name')`, `Content-Length` 0 and the default headers; the headers are exactly `_sign_for_tables` over that resource and an empty body; the same holds for the older client in `aioazstorage/__init__.py`, lines 113-117 |
| Tables.InsertEntity | aioazstorage/tables.py:167-172 | the caller's entity is annotated in place, always serialises, and its JSON is POSTed with headers signed over it; the same holds for the older client in `aioazstorage/__init__.py`, lines 141-146 |
| Tables.PutEntity | aioazstorage/tables.py:175-192 | a missing key raises before the entity is touched; otherwise the annotated entity is PUT to its key path, with `If-Match` first for `updateEntity` |
| Tables.DeleteEntity | aioazstorage/tables.py:204-212 | raises exactly the KeyError of the first missing key; otherwise an empty DELETE of the entity's key path, with `If-Match` first and then the headers signed over `/{account}` and that path |
| Tables.EntityBlock | aioazstorage/tables.py:229-240 | each entity contributes ten lines, its JSON ninth and the changeset boundary last |
| Tables.BlocksAt | aioazstorage/tables.py:228-240 | line `10i + j` of the blocks is line `j` of entity `i`'s block |
| Tables.BatchLinesShape | aioazstorage/tables.py:222-242 | the body has `5 + 10n` lines, starts and ends with the batch boundary, its fourth line is the changeset boundary, and entity `i` sits at line `12 + 10i` |
| Tables.MergeBatchExtras | aioazstorage/tables.py:243-248 | merging the three batch headers overrides `Content-Type` and `Content-Length` in place and appends `Accept-Charset` |
| Tables.SignedBatchKeys | aioazstorage/tables.py:244 | the signed `$batch` headers already carry `Content-Type` and `Content-Length` |
| Tables.BatchHeadersKeys | aioazstorage/tables.py:243-248 | the `$batch` headers are the signed ones plus `Accept-Charset` at the end |
| Tables.BatchHeadersValues | aioazstorage/tables.py:245-247 | `Content-Length` is the real body length, and `Content-Type` is the multipart type with the batch boundary without its leading `--` |
| Tables.BatchHeadersSigned | aioazstorage/tables.py:244 | the `$batch` signature is that of `_sign_for_tables` for the `$batch` resource |
| Tables.AnnotateEntity | aioazstorage/tables.py:229-239 | the entity ends annotated, whether or not it was annotated before; its JSON serialises and its block is appended after the earlier ones |
| Tables.BatchStep | aioazstorage/tables.py:228-240 | one loop pass annotates entity `i` in place and appends its block; the entities already visited stay annotated once, even when the same dict appears twice |
| Tables.BatchBody | aioazstorage/tables.py:222-240 | every entity is annotated in place, in order, and its JSON is one block after the batch head |
| Tables.BatchUpdate | aioazstorage/tables.py:215-249 | one POST to `$batch` whose body is the head, the blocks and the closing boundary joined by newlines |
| Paging.YieldAll | aioazstorage/tables.py:95-96 | the items of a page are yielded in order |
| Paging.Follow | aioazstorage/tables.py:97-162 | the loop stops exactly when there is no continuation, and otherwise merges it into the query: `NextTableName` at lines 97-101, the two entity markers at lines 158-162 |
| Paging.Pass | aioazstorage/tables.py:150-162 | one pass sends the GET for the current query, yields a 200's items and follows its continuation |
| Paging.PaginateStep | aioazstorage/tables.py:89-103 | one pass sends the GET for the current query; the listing so far is a prefix of the reference `Run`, and when the pass ends the loop the result is exactly `Run` |
| Paging.Paginate | aioazstorage/tables.py:88-103 | the loop yields, ends and leaves the query exactly as the reference `Run` says, and sends one request per reply consumed, each for the query as it stood |
| Paging.GetTables | aioazstorage/tables.py:82-103 | `getTables` is the loop over `/Tables` following `NextTableName`; the same holds for the older client in `aioazstorage/__init__.py`, lines 81-102 |
| Paging.QueryEntities | aioazstorage/tables.py:143-164 | `queryEntities` is the loop over `/{table}()` following both entity markers |
| Paging.RunItems | aioazstorage/tables.py:94-96 | the items are the `value` lists of the consumed 200 replies, in order, and no more replies are consumed than exist |
| Paging.RunConts | aioazstorage/tables.py:97-101 | the merged continuations are those of the first replies, each of which continued |
| Paging.RunEnds | aioazstorage/tables.py:94-103 | the listing runs out of replies exactly when every reply continued, having then followed one continuation per reply |
| Paging.RunHalts | aioazstorage/tables.py:94-103 | otherwise it ends at the first reply that does not continue: refused when that reply is not a 200, finished when it is a 200 without continuation |
| Paging.ContinuationEffect | aioazstorage/tables.py:101 | following a continuation writes only the marker keys, keeps every other entry such as `$filter`, and keeps the key order |
| Paging.FoldQuery | aioazstorage/tables.py:101 | across the whole listing, keys are never lost and non-marker entries never change |
| Paging.FoldLast | aioazstorage/tables.py:162 | after a continuation the query holds the markers of the last reply that continued |
| Paging.SentUris | aioazstorage/tables.py:89-92 | the first URI has a `?` exactly when the starting query is non-empty, and every later URI has one |
| Paging.EmptyTableMarker | aioazstorage/tables.py:98 | an empty `NextTableName` ends `getTables` |
| Paging.EmptyEntityMarker | aioazstorage/tables.py:158-162 | an empty `NextPartitionKey` continues `queryEntities`, and the missing `NextRowKey` is written as None |
| Paging.NoneSpelled | aioazstorage/tables.py:151 | a None in the query is sent as the text `None` |
| Paging.SharedQueryResumes | aioazstorage/tables.py:82 | after a listing that continued, the shared default query makes the next listing start with a query |
| Blobs.BlobHeadersShape | aioazstorage/blobs.py:35-45 | the blob defaults are a well-formed dict: date, version, `Content-Type`, `Connection` |
| Blobs.SignForBlobsShape | aioazstorage/blobs.py:48-59 | the blob headers are `Authorization` over verb, content type, date/version block and resource, then `Content-Length`, then the defaults |
| Blobs.SignForBlobsGets | aioazstorage/blobs.py:54-58 | the server reads that signature and the payload length |
| Blobs.ContainerSigned | aioazstorage/blobs.py:61-75 | a container request has no body, `Content-Length` `0`, and is signed over `/{account}/{name}` without the URI's query |
| Blobs.CreateContainerSigned | aioazstorage/blobs.py:61-65 | `createContainer` PUTs `?restype=container` and is signed as above |
| Blobs.DeleteContainerSigned | aioazstorage/blobs.py:67-70 | `deleteContainer` DELETEs `?restype=container` and is signed as above |
| Blobs.ListBlobsRequestSigned | aioazstorage/blobs.py:72-75 | `listBlobs` GETs `?restype=container&comp=list` and is signed as above |
| Blobs.RecordValid | aioazstorage/blobs.py:78 | a record never holds a tag twice |
| Blobs.RecordHas | aioazstorage/blobs.py:78 | a record has a key exactly for the tags that occur |
| Blobs.RecordLast | aioazstorage/blobs.py:78 | under a tag the record holds the text of the last child with that tag |
| Blobs.RecordOrder | aioazstorage/blobs.py:78 | the record lists its tags in the order of their first occurrence; with Blobs.RecordValid and Blobs.RecordHas this fixes its keys exactly |
| Blobs.DuplicateTag | aioazstorage/blobs.py:78 | example: of two children with the same tag, the record keeps one entry with the later text |
| Blobs.ListBlobsRecords | aioazstorage/blobs.py:76-78 | a non-200 reply yields nothing, and a 200 yields one record per top-level element |
| Blobs.YieldRecords | aioazstorage/blobs.py:77-78 | the generator loop yields those records in document order |
| Blobs.ListBlobs | aioazstorage/blobs.py:72-78 | `listBlobs` sends the container listing request and yields those records |
| Queues.QueueHeadersShape | aioazstorage/queues.py:54-64 | the queue defaults are a well-formed dict: date, version, `Content-Type`, `Accept` |
| Queues.SignForQueuesShape | aioazstorage/queues.py:67-78 | the queue headers are `Authorization` over verb, content type, date/version block and resource, then `Content-Length`, then the defaults |
| Queues.SignForQueuesGets | aioazstorage/queues.py:73-77 | the server reads that signature and the payload length |
| Queues.QueueRequestSigned | aioazstorage/queues.py:80-90 | a queue request has no body, `Content-Length` `0`, and is signed over `/{account}/{name}` |
| Queues.QueueRequestsSigned | aioazstorage/queues.py:80-90 | `createQueue` PUTs and `deleteQueue` DELETEs the queue URL, signed as above |
| Queues.AnnotateUnwrap | aioazstorage/queues.py:93-94 | the envelope adds 56 characters and unwrapping it gives the payload back |
| Queues.UnwrapAnnotate | aioazstorage/queues.py:93-94 | whatever unwraps is exactly the envelope around what it unwraps to |
| Queues.MessageQueryMeaning | aioazstorage/queues.py:103-107 | the query has a key for each truthy argument only, the values read back as the arguments, and it is empty exactly when neither argument is truthy |
| Queues.BuildQuery | aioazstorage/queues.py:103-107 | the conditional in-place insertions build exactly that query |
| Queues.PutMessage | aioazstorage/queues.py:99-113 | a POST whose URI adds the query only when it is non-empty and whose body is the enveloped payload, signed over `/{account}/{queue}/messages` |
| Queues.PutMessageSigned | aioazstorage/queues.py:101-113 | `Content-Length` is 56 more than the raw payload's length, the signature is over POST and the messages resource, and the URI has a `?` exactly when an optional argument is truthy |

## Left out

- Signing uses HMAC-SHA256 and base64, and the account key is decoded with `b64decode`. The model does not compute these. `SharedKey.Mac` is an uninterpreted function of the decoded key bytes and the signed string. The UTF-8 encoding before hashing is folded into it.
- Non-deterministic inputs are parameters, never computed:
  - `formatdate` gives the `HttpDate` and `Tables.Stamp`;
  - `uuid1()` gives the `requestId`, the batch id and the changeset id;
  - `datetime.utcnow()` gives `now`.
- The aiohttp session, `async`/`await`, `close` and generators are not modelled.
  - Requests are returned as `SharedKey.Request` values.
  - A listing consumes a given sequence of replies.
  - Its end `OutOfReplies` belongs to the model only; the client would simply wait for the next reply.
- Reply bodies are given already decoded. `resp.json()` arrives as a `value` sequence, and the result of `cElementTree.fromstring` as a `Blobs.Element` tree. The JSON and XML parsers are not modelled.
- `json.dumps` is modelled with the standard library's settings. When ujson is installed the clients use it instead, and it writes no spaces after `:` and `,` and escapes `/`. That variant is not modelled.
- Floats are kept as their `repr` text. Float arithmetic and repr itself are not modelled.
- Edm.EdmParse: `int()` and `UUID()` accept only ASCII here. Python first maps Unicode decimal digits and non-ASCII Unicode white space to ASCII, so it also accepts, say, Arabic-Indic digits.
- EdmProperties.AnnotateEffect: the per-key effect is stated only for entities with no int, UUID or datetime under a key ending in `@odata.type`. Otherwise the tag of the base property overwrites such a value: annotating `{"x": 1, "x@odata.type": 2}` leaves `"Edm.Int64"` under `x@odata.type`. Whether `x@odata.type@odata.type` is also added depends on the key order. EdmProperties.AnnotatedUntyped and EdmProperties.AnnotatedTail still hold for every entity.
- Edm.EdmFormat: one `now` serves every datetime of a call. Python calls `utcnow()` once per datetime value (`aioazstorage/tables.py`, line 25), so two datetimes in one payload or batch may get different texts. Tables.BatchBody and EdmProperties.AnnotateEffect inherit this.
- Edm.EdmParse: `int()` of a float under an `Edm.Int64` tag is reported as the fault `Unmodelled` rather than truncated.
- Edm.EdmParse: the datetime parser calls an undefined `parse` and is modelled as raising NameError. The datetime formatter renders the current time, not its argument. So datetimes have no round trip; `EdmProperties.DateTimeFails` states this.
- Json: a JSON string with an unpaired surrogate escape is refused by `Unescape`. Python would keep the lone surrogate, which a Dafny string cannot hold.
- Response header lookup is exact-case here. aiohttp's `resp.headers` ignores case.
- `Content-Length` is `str(len(payload))`, the number of characters. It is not the number of UTF-8 bytes sent, and the model keeps the code's count. For non-ASCII payloads it is smaller than the body's encoded size.
- The `x-ms` header block is not sorted by name. It follows the dict's insertion order, as the code does, which for all default headers is date then version.
- The methods that take a `PyDict` require it to be well-formed (`Dicts.Valid`, no key twice). Every Python dict meets this.
- Entity keys are not escaped in paths. Tables.EntityPathInjective holds only for keys without a quote.
- `mergeEntity` and `insertOrMergeEntity` only raise NotImplementedError and are not modelled.
- `BlobClient.putBlob` refers to undefined names (`queue`, `visibilitytimeout`, `messagettl`) and always raises NameError, so it is not modelled.
- `QueueClient._parse_payload` is an empty stub returning None. `Queues.Unwrap` is the inverse the envelope admits, not code from the client.
- Queues.PutMessage: `visibilitytimeout` and `messagettl` are integers or None here. Python accepts any value with a truth value and a `str`.
- Blobs.ListBlobs: only the grandchildren of the listing's root element become record entries. Their own children and attributes are dropped, as in the code.

=== FILE: blobs.dfy ===
/** The blob client, `BlobClient` in aioazstorage/blobs.py: its default headers, the
    blob/queue signing scheme applied to them, the container requests and the shaping of
    the `listBlobs` reply into one record per listed element. */
module Blobs {
  import opened Wrappers
  import opened Text
  import opened Dicts
  import opened SharedKey

  const BlobContentType := "text/plain; charset=UTF-8"

  /** `_headers(date)` of the blob client. */
  function BlobHeaders(date: HttpDate): Headers {
    [("x-ms-date", date), ("x-ms-version", ApiVersion), ("Content-Type", BlobContentType), ("Connection", "Keep-Alive")]
  }

  /** The blob defaults are a well-formed dict: the date and version, then the two
      headers that are not signed lines. */
  lemma BlobHeadersShape(date: HttpDate)
    ensures Keys(BlobHeaders(date)) == ["x-ms-date", "x-ms-version", "Content-Type", "Connection"]
    ensures ServiceDefaults(BlobHeaders(date), date, BlobContentType)
  {
    BlobHeadersKeys(date);
    BlobHeadersDateVersion(date);
    BlobHeadersUnsigned(date);
  }

  lemma BlobHeadersUnsigned(date: HttpDate)
    ensures "Authorization" !in Keys(BlobHeaders(date)) && "Content-Length" !in Keys(BlobHeaders(date))
  {
    BlobHeadersKeys(date);
    assert "Content-Length"[8] != "Content-Type"[8];
  }

  lemma BlobHeadersKeys(date: HttpDate)
    ensures Keys(BlobHeaders(date)) == ["x-ms-date", "x-ms-version", "Content-Type", "Connection"]
    ensures Valid(BlobHeaders(date))
    ensures Get(BlobHeaders(date), "Content-Type") == Some(BlobContentType)
  {
    var h := BlobHeaders(date);
    KeysFour(h);
    assert "x-ms-version"[0] != "Content-Type"[0];
    DistinctValid(h);
    GetAt(h, 2);
  }

  lemma BlobHeadersDateVersion(date: HttpDate)
    ensures DateVersionFirst(BlobHeaders(date), date)
  {
    var h := BlobHeaders(date);
    forall i | 2 <= i < |h| ensures !Contains(h[i].0, "x-ms") {
      LacksFirstChar(h[i].0, "x-ms");
    }
  }

  /** `_sign_for_blobs(verb, canonicalized, payload)`, with the date the clock gave. */
  function SignForBlobs(c: Client, date: HttpDate, verb: string, canonicalized: string, payload: string): Headers {
    BlobHeadersShape(date);
    SignForService(c, BlobHeaders(date), verb, canonicalized, payload)
  }

  /** The blob headers: `Authorization` over the verb, the content type, the date and
      version lines and the resource (neither `Content-Type` nor `Connection` is a signed
      header line), `Content-Length`, then the defaults with the date that was signed. */
  lemma SignForBlobsShape(c: Client, date: HttpDate, verb: string, canonicalized: string, payload: string)
    ensures SignForBlobs(c, date, verb, canonicalized, payload)
      == [("Authorization", Authorization(c, ServiceSigned(verb, BlobContentType, date, canonicalized))),
          ("Content-Length", ContentLength(payload))]
         + BlobHeaders(date)
  {
    BlobHeadersShape(date);
    SignForServiceShape(c, BlobHeaders(date), date, BlobContentType, verb, canonicalized, payload);
  }

  /** What the server reads from the blob headers: the signature and the payload length. */
  lemma SignForBlobsGets(c: Client, date: HttpDate, verb: string, canonicalized: string, payload: string)
    ensures var h := SignForBlobs(c, date, verb, canonicalized, payload);
      Get(h, "Authorization") == Some(Authorization(c, ServiceSigned(verb, BlobContentType, date, canonicalized)))
      && Get(h, "Content-Length") == Some(ContentLength(payload))
  {
    SignForBlobsShape(c, date, verb, canonicalized, payload);
  }

  // ---------------------------------------------------------------- containers

  function BlobHost(account: string): string {
    "https://" + account + ".blob.core.windows.net"
  }

  /** `/{account}/{name}`: the resource every container request signs. */
  function ContainerResource(account: string, name: string): string {
    "/" + account + "/" + name
  }

  /** A body-less container request: the URI carries `query`, the signature does not. */
  function ContainerRequest(c: Client, date: HttpDate, verb: string, name: string, query: string): Request {
    Request(verb, BlobHost(c.account) + "/" + name + query,
            SignForBlobs(c, date, verb, ContainerResource(c.account, name), ""), "")
  }

  /** `createContainer(name)`. */
  function CreateContainer(c: Client, date: HttpDate, name: string): Request {
    ContainerRequest(c, date, "PUT", name, "?restype=container")
  }

  /** `deleteContainer(name)`. */
  function DeleteContainer(c: Client, date: HttpDate, name: string): Request {
    ContainerRequest(c, date, "DELETE", name, "?restype=container")
  }

  /** The request `listBlobs(name)` sends. */
  function ListBlobsRequest(c: Client, date: HttpDate, name: string): Request {
    ContainerRequest(c, date, "GET", name, "?restype=container&comp=list")
  }

  /** A container request for `name`: aimed at the container's URL, no body,
      `Content-Length` `0`, and signed over the bare `/{account}/{name}` with its own verb. */
  predicate SignedForContainer(c: Client, date: HttpDate, name: string, r: Request) {
    StartsWith(r.uri, BlobHost(c.account) + "/" + name + "?restype=container")
    && r.body == "" && Get(r.headers, "Content-Length") == Some("0")
    && Get(r.headers, "Authorization")
       == Some(Authorization(c, ServiceSigned(r.verb, BlobContentType, date, "/" + c.account + "/" + name)))
  }

  /** The signature leaves the URI's query out, and no body means `Content-Length` `0`. */
  lemma ContainerSigned(c: Client, date: HttpDate, verb: string, name: string, query: string)
    requires StartsWith(query, "?restype=container")
    ensures SignedForContainer(c, date, name, ContainerRequest(c, date, verb, name, query))
  {
    ContainerHeaders(c, date, verb, name, query);
    ContainerUri(c.account, name, query);
  }

  lemma ContainerHeaders(c: Client, date: HttpDate, verb: string, name: string, query: string)
    ensures var h := ContainerRequest(c, date, verb, name, query).headers;
      Get(h, "Content-Length") == Some("0")
      && Get(h, "Authorization")
         == Some(Authorization(c, ServiceSigned(verb, BlobContentType, date, "/" + c.account + "/" + name)))
  {
    SignForBlobsGets(c, date, verb, ContainerResource(c.account, name), "");
    assert ContentLength("") == "0";
  }

  lemma ContainerUri(account: string, name: string, query: string)
    requires StartsWith(query, "?restype=container")
    ensures StartsWith(BlobHost(account) + "/" + name + query, BlobHost(account) + "/" + name + "?restype=container")
  {
    var u := BlobHost(account) + "/" + name;
    var p := "?restype=container";
    assert u + query == (u + p) + query[|p|..] by {
      assert query == p + query[|p|..];
    }
  }

  /** `createContainer` PUTs `?restype=container`. */
  lemma CreateContainerSigned(c: Client, date: HttpDate, name: string)
    ensures CreateContainer(c, date, name).verb == "PUT"
    ensures SignedForContainer(c, date, name, CreateContainer(c, date, name))
  {
    var p := "?restype=container";
    assert p[..|p|] == p;
    ContainerSigned(c, date, "PUT", name, p);
  }

  /** `deleteContainer` DELETEs `?restype=container`. */
  lemma DeleteContainerSigned(c: Client, date: HttpDate, name: string)
    ensures DeleteContainer(c, date, name).verb == "DELETE"
    ensures SignedForContainer(c, date, name, DeleteContainer(c, date, name))
  {
    var p := "?restype=container";
    assert p[..|p|] == p;
    ContainerSigned(c, date, "DELETE", name, p);
  }

  /** `listBlobs` GETs `?restype=container&comp=list`. */
  lemma ListBlobsRequestSigned(c: Client, date: HttpDate, name: string)
    ensures ListBlobsRequest(c, date, name).verb == "GET"
    ensures SignedForContainer(c, date, name, ListBlobsRequest(c, date, name))
  {
    var p := "?restype=container";
    var q := "?restype=container&comp=list";
    assert q == p + "&comp=list";
    assert q[..|p|] == p;
    ContainerSigned(c, date, "GET", name, q);
  }

  // ---------------------------------------------------------------- listing

  /** A parsed XML element: tag, text (None when it has none) and children. */
  datatype Element = Element(tag: string, text: Option<string>, children: seq<Element>)

  /** `{m.tag: m.text for m in msg}` over the children `ms`, in document order. */
  function Record(ms: seq<Element>): Dict<Option<string>>
    decreases |ms|
  {
    if ms == [] then [] else Put(Record(ms[..|ms| - 1]), ms[|ms| - 1].tag, ms[|ms| - 1].text)
  }

  /** A record is a well-formed dict: no tag twice. */
  lemma {:induction false} RecordValid(ms: seq<Element>)
    ensures Valid(Record(ms))
    decreases |ms|
  {
    if ms != [] {
      var n := |ms| - 1;
      RecordValid(ms[..n]);
      PutValid(Record(ms[..n]), ms[n].tag, ms[n].text);
    }
  }

  /** Some child of `ms` has tag `k`. */
  predicate Occurs(ms: seq<Element>, k: string) {
    exists i :: 0 <= i < |ms| && ms[i].tag == k
  }

  lemma OccursSnoc(ms: seq<Element>, k: string)
    requires ms != []
    ensures Occurs(ms, k) <==> Occurs(ms[..|ms| - 1], k) || ms[|ms| - 1].tag == k
  {
    var init := ms[..|ms| - 1];
    if Occurs(ms, k) && ms[|ms| - 1].tag != k {
      var i :| 0 <= i < |ms| && ms[i].tag == k;
      assert init[i] == ms[i];
    }
    if Occurs(init, k) {
      var i :| 0 <= i < |init| && init[i].tag == k;
      assert ms[i] == init[i];
    }
  }

  /** A record has a key exactly for the tags that occur. */
  lemma {:induction false} RecordHas(ms: seq<Element>, k: string)
    ensures Get(Record(ms), k).Some? <==> Occurs(ms, k)
    decreases |ms|
  {
    if ms != [] {
      RecordHas(ms[..|ms| - 1], k);
      OccursSnoc(ms, k);
    }
  }

  /** The last child's tag is looked up in the last assignment, any other in the rest. */
  lemma RecordStep(ms: seq<Element>, k: string)
    requires ms != []
    ensures Get(Record(ms), k) ==
      if ms[|ms| - 1].tag == k then Some(ms[|ms| - 1].text) else Get(Record(ms[..|ms| - 1]), k)
  {
  }

  /** The text of the last child of `ms` with tag `k`, read from the end. */
  function LastText(ms: seq<Element>, k: string): Option<Option<string>>
    decreases |ms|
  {
    if ms == [] then None
    else if ms[|ms| - 1].tag == k then Some(ms[|ms| - 1].text)
    else LastText(ms[..|ms| - 1], k)
  }

  /** A record looks a tag up as the last child with that tag. */
  lemma {:induction false} RecordGet(ms: seq<Element>, k: string)
    ensures Get(Record(ms), k) == LastText(ms, k)
    decreases |ms|
  {
    if ms != [] {
      RecordStep(ms, k);
      RecordGet(ms[..|ms| - 1], k);
    }
  }

  /** The last child with a tag is the one no later child shares its tag with. */
  lemma {:induction false} LastTextAt(ms: seq<Element>, i: nat)
    requires i < |ms|
    requires forall j :: i < j < |ms| ==> ms[j].tag != ms[i].tag
    ensures LastText(ms, ms[i].tag) == Some(ms[i].text)
    decreases |ms|
  {
    var n := |ms| - 1;
    if i < n {
      var init := ms[..n];
      assert init[i] == ms[i];
      assert forall j :: i < j < |init| ==> init[j].tag != init[i].tag by {
        forall j | i < j < |init| ensures init[j].tag != init[i].tag {
          assert init[j] == ms[j];
        }
      }
      LastTextAt(init, i);
    }
  }

  /** Under a tag the record holds the text of the last child with that tag. */
  lemma RecordLast(ms: seq<Element>, i: nat)
    requires i < |ms|
    requires forall j :: i < j < |ms| ==> ms[j].tag != ms[i].tag
    ensures Get(Record(ms), ms[i].tag) == Some(ms[i].text)
  {
    RecordGet(ms, ms[i].tag);
    LastTextAt(ms, i);
  }

  /** The index of the first child of `ms` with tag `k`. */
  function FirstIndex(ms: seq<Element>, k: string): (i: nat)
    requires Occurs(ms, k)
    ensures i < |ms| && ms[i].tag == k && forall j :: 0 <= j < i ==> ms[j].tag != k
    decreases |ms|
  {
    if ms[0].tag == k then 0
    else
      assert Occurs(ms[1..], k) by {
        var i :| 0 <= i < |ms| && ms[i].tag == k;
        assert ms[1..][i - 1] == ms[i];
      }
      1 + FirstIndex(ms[1..], k)
  }

  /** A tag already among the earlier children keeps its first index; a new one gets the last. */
  lemma FirstIndexSnoc(ms: seq<Element>, k: string)
    requires ms != [] && Occurs(ms, k)
    ensures var init := ms[..|ms| - 1];
      if Occurs(init, k) then FirstIndex(ms, k) == FirstIndex(init, k) else FirstIndex(ms, k) == |ms| - 1
  {
    var init := ms[..|ms| - 1];
    var a := FirstIndex(ms, k);
    if Occurs(init, k) {
      var b := FirstIndex(init, k);
      assert ms[b] == init[b];
    }
  }

  /** A record lists its tags in the order of their first occurrence: a duplicate tag keeps
      the place of its first child. */
  lemma {:induction false} RecordOrder(ms: seq<Element>, p: nat, q: nat)
    requires p < q < |Record(ms)|
    ensures var ks := Keys(Record(ms));
      Occurs(ms, ks[p]) && Occurs(ms, ks[q]) && FirstIndex(ms, ks[p]) < FirstIndex(ms, ks[q])
    decreases |ms|
  {
    var n := |ms| - 1;
    var init := ms[..n];
    var ks := Keys(Record(ms));
    var ks0 := Keys(Record(init));
    assert ks[..|ks0|] == ks0;
    RecordKeysOccur(ms, p);
    RecordKeysOccur(ms, q);
    FirstIndexSnoc(ms, ks[p]);
    FirstIndexSnoc(ms, ks[q]);
    assert ks[p] == ks0[p];
    RecordKeysOccur(init, p);
    if q < |ks0| {
      assert ks[q] == ks0[q];
      RecordOrder(init, p, q);
    } else {
      RecordHas(init, ks[q]);
    }
  }

  /** Every key of a record is the tag of some child. */
  lemma RecordKeysOccur(ms: seq<Element>, p: nat)
    requires p < |Record(ms)|
    ensures Occurs(ms, Keys(Record(ms))[p])
  {
    var k := Keys(Record(ms))[p];
    assert k in Keys(Record(ms));
    RecordHas(ms, k);
  }

  /** One record per element of `es`, in document order. */
  function Records(es: seq<Element>): (rs: seq<Dict<Option<string>>>)
    ensures |rs| == |es|
    ensures forall i :: 0 <= i < |rs| ==> rs[i] == Record(es[i].children)
    decreases |es|
  {
    if es == [] then []
    else
      var init := es[..|es| - 1];
      assert forall i :: 0 <= i < |init| ==> init[i] == es[i];
      Records(init) + [Record(es[|es| - 1].children)]
  }

  lemma RecordsSnoc(es: seq<Element>, n: nat)
    requires n < |es|
    ensures Records(es[..n + 1]) == Records(es[..n]) + [Record(es[n].children)]
  {
    assert es[..n + 1][..n] == es[..n];
  }

  /** What `listBlobs` yields for a reply: nothing unless it is a 200, else one record per
      top-level element of the body. */
  function ListBlobsRecords(status: int, root: Element): (rs: seq<Dict<Option<string>>>)
    ensures status != 200 ==> rs == []
    ensures status == 200 ==> |rs| == |root.children|
    ensures forall i :: 0 <= i < |rs| ==> rs[i] == Record(root.children[i].children)
  {
    if status == 200 then Records(root.children) else []
  }

  /** `listBlobs(name)`: the request, then, given the reply's status and parsed body, the
      records the generator yields. */
  method ListBlobs(c: Client, date: HttpDate, name: string, status: int, root: Element)
    returns (req: Request, records: seq<Dict<Option<string>>>)
    ensures req == ListBlobsRequest(c, date, name)
    ensures records == ListBlobsRecords(status, root)
  {
    req := ListBlobsRequest(c, date, name);
    records := [];
    if status == 200 {
      records := YieldRecords(root.children);
    }
  }

  /** The generator's loop: one record per element, in document order. */
  method YieldRecords(es: seq<Element>) returns (records: seq<Dict<Option<string>>>)
    ensures records == Records(es)
  {
    records := [];
    for n := 0 to |es|
      invariant records == Records(es[..n])
    {
      RecordsSnoc(es, n);
      records := records + [Record(es[n].children)];
    }
    assert es[..|es|] == es;
  }

  /** A later duplicate tag overwrites an earlier one and keeps the earlier one's place. */
  lemma DuplicateTag(a: Option<string>, b: Option<string>)
    ensures Record([Element("Name", a, []), Element("Name", b, [])]) == [("Name", b)]
  {
    var ms := [Element("Name", a, []), Element("Name", b, [])];
    assert ms[..1] == [Element("Name", a, [])];
    assert ms[..1][..0] == [];
    assert Record(ms[..1]) == [("Name", a)];
    assert Put([("Name", a)], "Name", b) == [("Name", b)] by {
      var d := [("Name", a)];
      assert d[0].0 == "Name" && d[1..] == [];
    }
  }
}

=== FILE: dicts.dfy ===
/** Python dicts with string keys. A dict remembers insertion order: assigning to a
    key that is present keeps its position, assigning to a new key appends it, and
    `{**a, **b}` is `a` followed by assignments of `b`'s entries in order. The order
    matters here because canonical headers, query strings and JSON bodies are all
    produced by iterating a dict. */
module Dicts {
  import opened Wrappers

  /** Entries in insertion order. */
  type Dict<V> = seq<(string, V)>

  function Keys<V>(d: Dict<V>): (ks: seq<string>)
    ensures |ks| == |d|
    decreases |d|
  {
    if d == [] then [] else [d[0].0] + Keys(d[1..])
  }

  /** A dict as Python builds it: no key twice. */
  predicate Valid<V>(d: Dict<V>)
    decreases |d|
  {
    d == [] || (d[0].0 !in Keys(d[1..]) && Valid(d[1..]))
  }

  /** `d.get(k, None)`. */
  function Get<V>(d: Dict<V>, k: string): (r: Option<V>)
    ensures r.Some? <==> k in Keys(d)
    decreases |d|
  {
    if d == [] then None
    else if d[0].0 == k then Some(d[0].1)
    else Get(d[1..], k)
  }

  lemma {:induction false} KeysAt<V>(d: Dict<V>, i: nat)
    requires i < |d|
    ensures Keys(d)[i] == d[i].0
    decreases |d|
  {
    if i > 0 {
      KeysAt(d[1..], i - 1);
    }
  }

  lemma {:induction false} GetAt<V>(d: Dict<V>, i: nat)
    requires Valid(d) && i < |d|
    ensures Get(d, d[i].0) == Some(d[i].1)
    decreases |d|
  {
    if i > 0 {
      GetAt(d[1..], i - 1);
      KeysAt(d[1..], i - 1);
    }
  }

  /** The keys of a well-formed dict are pairwise distinct. */
  lemma {:induction false} KeysDistinct<V>(d: Dict<V>, i: nat, j: nat)
    requires Valid(d) && i < j < |d|
    ensures Keys(d)[i] != Keys(d)[j]
    decreases |d|
  {
    if i > 0 {
      KeysDistinct(d[1..], i - 1, j - 1);
    } else {
      assert Keys(d)[j] == Keys(d[1..])[j - 1];
    }
  }

  /** Pairwise distinct keys make a well-formed dict. */
  lemma {:induction false} DistinctValid<V>(d: Dict<V>)
    requires forall i, j :: 0 <= i < j < |d| ==> d[i].0 != d[j].0
    ensures Valid(d)
    decreases |d|
  {
    if d != [] {
      var t := d[1..];
      assert forall i, j :: 0 <= i < j < |t| ==> t[i].0 != t[j].0 by {
        forall i, j | 0 <= i < j < |t| ensures t[i].0 != t[j].0 {
          assert t[i] == d[i + 1] && t[j] == d[j + 1];
        }
      }
      DistinctValid(t);
      if d[0].0 in Keys(t) {
        var k :| 0 <= k < |Keys(t)| && Keys(t)[k] == d[0].0;
        KeysAt(t, k);
      }
    }
  }

  /** The keys of a four-entry dict, in order. */
  lemma KeysFour<V>(d: Dict<V>)
    requires |d| == 4
    ensures Keys(d) == [d[0].0, d[1].0, d[2].0, d[3].0]
  {
    KeysAt(d, 0);
    KeysAt(d, 1);
    KeysAt(d, 2);
    KeysAt(d, 3);
  }

  /** `d[k] = v`: replaces the value in place when `k` is present, appends otherwise. */
  function Put<V>(d: Dict<V>, k: string, v: V): (r: Dict<V>)
    ensures Get(r, k) == Some(v)
    ensures forall j :: j != k ==> Get(r, j) == Get(d, j)
    ensures Keys(r) == if k in Keys(d) then Keys(d) else Keys(d) + [k]
    decreases |d|
  {
    if d == [] then [(k, v)]
    else if d[0].0 == k then
      var r := [(k, v)] + d[1..];
      assert r[1..] == d[1..];
      r
    else
      var r := [d[0]] + Put(d[1..], k, v);
      assert r[1..] == Put(d[1..], k, v);
      r
  }

  /** Assigning a key leaves the first `n` keys where they were. */
  lemma PutKeepsPrefix<V>(d: Dict<V>, k: string, v: V, n: nat)
    requires n <= |d|
    ensures |Put(d, k, v)| >= n && Keys(Put(d, k, v))[..n] == Keys(d)[..n]
  {
    var ks := Keys(d);
    if k !in ks {
      assert (ks + [k])[..n] == ks[..n];
    }
  }

  lemma {:induction false} PutValid<V>(d: Dict<V>, k: string, v: V)
    requires Valid(d)
    ensures Valid(Put(d, k, v))
    decreases |d|
  {
    if d != [] && d[0].0 != k {
      PutValid(d[1..], k, v);
      var r := Put(d, k, v);
      assert r[1..] == Put(d[1..], k, v);
    } else if d != [] {
      var r := Put(d, k, v);
      assert r[1..] == d[1..];
    }
  }

  /** Keys of `ks` other than `k`, in order. */
  function Without(ks: seq<string>, k: string): seq<string>
    decreases |ks|
  {
    if ks == [] then [] else (if ks[0] == k then [] else [ks[0]]) + Without(ks[1..], k)
  }

  /** `del d[k]` (every entry under `k`; a valid dict has at most one). */
  function Delete<V>(d: Dict<V>, k: string): (r: Dict<V>)
    ensures Get(r, k) == None
    ensures forall j :: j != k ==> Get(r, j) == Get(d, j)
    ensures Keys(r) == Without(Keys(d), k)
    ensures forall j :: j in Keys(r) ==> j in Keys(d)
    decreases |d|
  {
    if d == [] then []
    else
      var rest := Delete(d[1..], k);
      if d[0].0 == k then rest
      else
        var r := [d[0]] + rest;
        assert r[1..] == rest;
        r
  }

  lemma {:induction false} DeleteValid<V>(d: Dict<V>, k: string)
    requires Valid(d)
    ensures Valid(Delete(d, k))
    decreases |d|
  {
    if d != [] {
      DeleteValid(d[1..], k);
      if d[0].0 != k {
        var r := Delete(d, k);
        assert r[1..] == Delete(d[1..], k);
      }
    }
  }

  /** `{**a, **b}`: the entries of `b` assigned, in order, onto `a`. */
  function Merge<V>(a: Dict<V>, b: Dict<V>): (r: Dict<V>)
    decreases |b|
  {
    if b == [] then a else Merge(Put(a, b[0].0, b[0].1), b[1..])
  }

  /** `{**a, k: v}` and `{**a, k1: v1, k2: v2}` are one and two assignments. */
  lemma MergeShort<V>(a: Dict<V>, k1: string, v1: V, k2: string, v2: V)
    ensures Merge(a, [(k1, v1)]) == Put(a, k1, v1)
    ensures Merge(a, [(k1, v1), (k2, v2)]) == Put(Put(a, k1, v1), k2, v2)
  {
    MergeOne(a, k1, v1);
    MergeOne(Put(a, k1, v1), k2, v2);
    var two := [(k1, v1), (k2, v2)];
    assert two[1..] == [(k2, v2)];
  }

  lemma MergeOne<V>(a: Dict<V>, k: string, v: V)
    ensures Merge(a, [(k, v)]) == Put(a, k, v)
  {
    var one := [(k, v)];
    assert one[1..] == [];
  }

  /** When no key of `b` is a key of `a`, merging is concatenation. */
  lemma {:induction false} MergeDisjoint<V>(a: Dict<V>, b: Dict<V>)
    requires Valid(b)
    requires forall k :: k in Keys(b) ==> k !in Keys(a)
    ensures Merge(a, b) == a + b
    decreases |b|
  {
    if b != [] {
      PutAppends(a, b[0].0, b[0].1);
      DisjointTail(a, b);
      MergeDisjoint(a + [b[0]], b[1..]);
      SplitFirst(a, b);
    }
  }

  /** Moving the first entry of a valid `b` onto `a` keeps the two disjoint. */
  lemma DisjointTail<V>(a: Dict<V>, b: Dict<V>)
    requires b != [] && Valid(b)
    requires forall k :: k in Keys(b) ==> k !in Keys(a)
    ensures forall k :: k in Keys(b[1..]) ==> k !in Keys(a + [b[0]])
  {
    KeysAppend(a, b[0]);
    forall k | k in Keys(b[1..]) ensures k !in Keys(a + [b[0]]) {
      assert k in Keys(b);
    }
  }

  lemma SplitFirst<V>(a: Dict<V>, b: Dict<V>)
    requires b != []
    ensures (a + [b[0]]) + b[1..] == a + b
  {
    assert [b[0]] + b[1..] == b;
    AppendAssoc(a, b[0], b[1..]);
  }

  lemma {:induction false} MergeValid<V>(a: Dict<V>, b: Dict<V>)
    requires Valid(a)
    ensures Valid(Merge(a, b))
    decreases |b|
  {
    if b != [] {
      PutValid(a, b[0].0, b[0].1);
      MergeValid(Put(a, b[0].0, b[0].1), b[1..]);
    }
  }

  /** Looking up a key in two dicts laid end to end finds the first one's entry first. */
  lemma {:induction false} GetConcat<V>(a: Dict<V>, b: Dict<V>, k: string)
    ensures Get(a + b, k) == if k in Keys(a) then Get(a, k) else Get(b, k)
    decreases |a|
  {
    if a == [] {
      assert a + b == b;
    } else {
      assert (a + b)[1..] == a[1..] + b;
      GetConcat(a[1..], b, k);
    }
  }

  lemma {:induction false} KeysConcat<V>(a: Dict<V>, b: Dict<V>)
    ensures Keys(a + b) == Keys(a) + Keys(b)
    decreases |a|
  {
    if a == [] {
      assert a + b == b;
    } else {
      assert (a + b)[1..] == a[1..] + b;
      KeysConcat(a[1..], b);
    }
  }

  lemma AppendAssoc<V>(a: Dict<V>, x: (string, V), r: Dict<V>)
    ensures (a + [x]) + r == a + ([x] + r)
  {
  }

  lemma {:induction false} KeysAppend<V>(d: Dict<V>, x: (string, V))
    ensures Keys(d + [x]) == Keys(d) + [x.0]
    decreases |d|
  {
    if d != [] {
      assert (d + [x])[1..] == d[1..] + [x];
      KeysAppend(d[1..], x);
    }
  }

  /** Assigning a fresh key appends exactly one entry. */
  lemma {:induction false} PutAppends<V>(d: Dict<V>, k: string, v: V)
    requires k !in Keys(d)
    ensures Put(d, k, v) == d + [(k, v)]
    decreases |d|
  {
    if d != [] {
      assert d[0].0 != k;
      PutAppends(d[1..], k, v);
      ConsSnoc(d, (k, v));
    }
  }

  lemma ConsSnoc<V>(d: Dict<V>, x: (string, V))
    requires d != []
    ensures [d[0]] + (d[1..] + [x]) == d + [x]
  {
    assert [d[0]] + d[1..] == d;
  }

  /** Two well-formed dicts with the same key order and the same lookups are the same dict. */
  lemma DictExt<V>(a: Dict<V>, b: Dict<V>)
    requires Valid(a) && Valid(b)
    requires Keys(a) == Keys(b)
    requires forall k :: Get(a, k) == Get(b, k)
    ensures a == b
  {
    forall i | 0 <= i < |a| ensures a[i] == b[i] {
      KeysAt(a, i);
      KeysAt(b, i);
      GetAt(a, i);
      GetAt(b, i);
    }
  }

  /** A dict object that the modelled code updates in place. */
  class PyDict<V> {
    var entries: Dict<V>

    constructor (init: Dict<V>)
      ensures entries == init
    {
      entries := init;
    }

    /** `self[k] = v` */
    method Set(k: string, v: V)
      modifies this
      ensures entries == Put(old(entries), k, v)
    {
      entries := Put(entries, k, v);
    }

    /** `del self[k]`; Python raises KeyError when `k` is absent, which no caller here allows. */
    method Remove(k: string)
      requires k in Keys(entries)
      modifies this
      ensures entries == Delete(old(entries), k)
    {
      entries := Delete(entries, k);
    }
  }
}

=== FILE: edm.dfy ===
/** The EDM type annotations of the table service: `_edm_types`, `_edm_formatters`,
    `_edm_parsers`, `_annotate_payload` and `_parse_payload`, which the table client
    (aioazstorage/tables.py) and the older combined client (aioazstorage/__init__.py)
    define identically. */
module Edm {
  import opened Wrappers
  import opened Text
  import opened Dicts
  import opened Uuids

  /** A datetime, known here only by its `str()` rendering; no date arithmetic is modelled. */
  datatype Timestamp = Timestamp(text: string)

  /** The property values an entity can carry. A float is kept as its `repr`. */
  datatype Value =
    | Str(s: string)
    | Int(i: int)
    | Guid(u: Uuid)
    | DateTime(t: Timestamp)
    | Bool(b: bool)
    | Float(repr: string)

  /** The name of the sibling property that carries a property's type tag. */
  const Suffix := "@odata.type"

  /** `_edm_types`, looked up by exact type: bool is a subclass of int but has no entry. */
  function EdmType(v: Value): Option<string> {
    match v
    case Int(_) => Some("Edm.Int64")
    case Guid(_) => Some("Edm.Guid")
    case DateTime(_) => Some("Edm.DateTime")
    case _ => None
  }

  /** `_edm_formatters`. The datetime formatter ignores its argument and renders the
      current UTC time instead, which arrives here as `now`. */
  function EdmFormat(v: Value, now: string): Option<string> {
    match v
    case Int(i) => Some(IntToString(i))
    case Guid(u) => Some(FormatUuid(u))
    case DateTime(_) => Some(now)
    case _ => None
  }

  /** The values that `_edm_types` (and `_edm_formatters`) know. */
  predicate Typed(v: Value) {
    v.Int? || v.Guid? || v.DateTime?
  }

  /** The keys of `_edm_parsers`. */
  predicate KnownTag(tag: string) {
    tag == "Edm.DateTime" || tag == "Edm.Int64" || tag == "Edm.Guid"
  }

  /** Applying the parser registered for `tag`. The datetime parser calls `parse`,
      a name the module never imports, so it always raises NameError. `int(v)` and
      `UUID(v)` are Python's, including their failures on values of the wrong kind. */
  function EdmParse(tag: string, v: Value): (r: Result<Value, Fault>)
    requires KnownTag(tag)
    ensures r.Ok? ==> r.value.Int? || r.value.Guid?
  {
    if tag == "Edm.DateTime" then Err(NameError("parse"))
    else if tag == "Edm.Int64" then
      match v
      case Str(s) => (match ParseInt(s) case Some(n) => Ok(Int(n)) case None => Err(ValueError))
      case Int(n) => Ok(Int(n))
      case Bool(b) => Ok(Int(if b then 1 else 0))
      case Guid(u) => Ok(Int(UuidValue(u)))
      case DateTime(_) => Err(TypeError)
      case Float(_) => Err(Unmodelled)
    else
      match v
      case Str(s) => (match ParseUuid(s) case Ok(u) => Ok(Guid(u)) case Err(e) => Err(e))
      case DateTime(_) => Err(TypeError)
      case _ => Err(AttributeError)
  }

  // ---------------------------------------------------------------- annotation

  /** One iteration of `_annotate_payload` for key `k`: a typed value gets its tag
      under `k + "@odata.type"` and is replaced by its string form. */
  function AnnotateKey(d: Dict<Value>, k: string, now: string): Dict<Value> {
    match Get(d, k)
    case None => d  // not reached: every key of the snapshot stays present
    case Some(v) =>
      var d1 := if EdmType(v).Some? then Put(d, k + Suffix, Str(EdmType(v).value)) else d;
      if EdmFormat(v, now).Some? then Put(d1, k, Str(EdmFormat(v, now).value)) else d1
  }

  /** The loop of `_annotate_payload` after visiting the keys `ks`, in order. */
  function AnnotateKeys(d: Dict<Value>, ks: seq<string>, now: string): Dict<Value>
    decreases |ks|
  {
    if ks == [] then d else AnnotateKey(AnnotateKeys(d, ks[..|ks| - 1], now), ks[|ks| - 1], now)
  }

  /** What `_annotate_payload` leaves in the dict: the loop over a snapshot of its keys. */
  function Annotated(d: Dict<Value>, now: string): Dict<Value> {
    AnnotateKeys(d, Keys(d), now)
  }

  lemma {:induction false} AnnotateKeysKeepsKeys(d: Dict<Value>, ks: seq<string>, now: string)
    ensures forall k :: k in Keys(d) ==> k in Keys(AnnotateKeys(d, ks, now))
    decreases |ks|
  {
    if ks != [] {
      AnnotateKeysKeepsKeys(d, ks[..|ks| - 1], now);
    }
  }

  /** `_annotate_payload(payload)`: rewrites the caller's dict in place. */
  method AnnotatePayload(payload: PyDict<Value>, now: string)
    modifies payload
    ensures payload.entries == Annotated(old(payload.entries), now)
  {
    ghost var d0 := payload.entries;
    var ks := Keys(payload.entries);
    for i := 0 to |ks|
      invariant payload.entries == AnnotateKeys(d0, ks[..i], now)
    {
      AnnotateKeysKeepsKeys(d0, ks[..i], now);
      AnnotateKeysStep(d0, ks, i, now);
      AnnotateOne(payload, ks[i], now);
    }
    assert ks[..|ks|] == ks;
  }

  /** The loop after `i + 1` keys is one more iteration after `i` keys. */
  lemma AnnotateKeysStep(d: Dict<Value>, ks: seq<string>, i: nat, now: string)
    requires i < |ks|
    ensures AnnotateKeys(d, ks[..i + 1], now) == AnnotateKey(AnnotateKeys(d, ks[..i], now), ks[i], now)
  {
    assert ks[..i + 1][..i] == ks[..i];
  }

  /** The body of `_annotate_payload`'s loop for a key the dict holds. */
  method AnnotateOne(payload: PyDict<Value>, k: string, now: string)
    requires k in Keys(payload.entries)
    modifies payload
    ensures payload.entries == AnnotateKey(old(payload.entries), k, now)
  {
    var v := Get(payload.entries, k).value;
    var t := EdmType(v);
    if t.Some? {
      payload.Set(k + Suffix, Str(t.value));
    }
    var f := EdmFormat(v, now);
    if f.Some? {
      payload.Set(k, Str(f.value));
    }
  }

  // ---------------------------------------------------------------- parsing

  /** A dict after `_parse_payload` ran, with the exception it raised, if any; on an
      exception the dict keeps the conversions made before it. */
  datatype Parsed = Parsed(entries: Dict<Value>, fault: Option<Fault>)

  /** One iteration of the first loop of `_parse_payload`: a value whose sibling holds
      a known tag is replaced by the parsed value. */
  function ConvertKey(d: Dict<Value>, k: string): (r: Parsed)
    ensures Keys(r.entries) == Keys(d)
  {
    var edm := Get(d, k + Suffix);
    if edm.Some? && edm.value.Str? && KnownTag(edm.value.s) then
      match Get(d, k)
      case None => Parsed(d, Some(KeyError(k)))
      case Some(v) =>
        match EdmParse(edm.value.s, v)
        case Ok(w) => Parsed(Put(d, k, w), None)
        case Err(e) => Parsed(d, Some(e))
    else Parsed(d, None)
  }

  /** The first loop after visiting `ks`; it stops at the first exception. */
  function ConvertKeys(d: Dict<Value>, ks: seq<string>): Parsed
    decreases |ks|
  {
    if ks == [] then Parsed(d, None)
    else
      var p := ConvertKeys(d, ks[..|ks| - 1]);
      if p.fault.Some? then p else ConvertKey(p.entries, ks[|ks| - 1])
  }

  /** The second loop after visiting `ks`: every key containing "@odata.type" is deleted. */
  function StripKeys(d: Dict<Value>, ks: seq<string>): Dict<Value>
    decreases |ks|
  {
    if ks == [] then d
    else
      var r := StripKeys(d, ks[..|ks| - 1]);
      var k := ks[|ks| - 1];
      if Contains(k, Suffix) then Delete(r, k) else r
  }

  /** `_parse_payload(payload)`: both loops, each over a fresh snapshot of the keys. */
  function ParsePayload(d: Dict<Value>): Parsed {
    var c := ConvertKeys(d, Keys(d));
    if c.fault.Some? then c else Parsed(StripKeys(c.entries, Keys(c.entries)), None)
  }

  lemma {:induction false} ConvertKeysKeepsKeys(d: Dict<Value>, ks: seq<string>)
    ensures Keys(ConvertKeys(d, ks).entries) == Keys(d)
    decreases |ks|
  {
    if ks != [] {
      ConvertKeysKeepsKeys(d, ks[..|ks| - 1]);
    }
  }

  /** Once an exception is raised, the later keys are not visited. */
  lemma {:induction false} ConvertKeysStops(d: Dict<Value>, ks: seq<string>, n: nat)
    requires n <= |ks| && ConvertKeys(d, ks[..n]).fault.Some?
    ensures ConvertKeys(d, ks) == ConvertKeys(d, ks[..n])
    decreases |ks|
  {
    if n == |ks| {
      assert ks[..n] == ks;
    } else {
      var ks' := ks[..|ks| - 1];
      assert ks'[..n] == ks[..n];
      ConvertKeysStops(d, ks', n);
    }
  }

  lemma {:induction false} ConvertKeysValid(d: Dict<Value>, ks: seq<string>)
    requires Valid(d)
    ensures Valid(ConvertKeys(d, ks).entries)
    decreases |ks|
  {
    if ks != [] {
      ConvertKeysValid(d, ks[..|ks| - 1]);
      var p := ConvertKeys(d, ks[..|ks| - 1]);
      if p.fault.None? {
        ConvertKeyValid(p.entries, ks[|ks| - 1]);
      }
    }
  }

  lemma ConvertKeyValid(d: Dict<Value>, k: string)
    requires Valid(d)
    ensures Valid(ConvertKey(d, k).entries)
  {
    var edm := Get(d, k + Suffix);
    if edm.Some? && edm.value.Str? && KnownTag(edm.value.s) && Get(d, k).Some? {
      var r := EdmParse(edm.value.s, Get(d, k).value);
      if r.Ok? {
        PutValid(d, k, r.value);
      }
    }
  }

  /** One more key of the first loop: its conversion, and the whole loop's result when
      that key raises. */
  lemma ConvertKeysStep(d: Dict<Value>, ks: seq<string>, i: nat, e: Dict<Value>, p: Parsed)
    requires i < |ks| && ConvertKeys(d, ks[..i]) == Parsed(e, None)
    requires p == ConvertKey(e, ks[i])
    ensures ConvertKeys(d, ks[..i + 1]) == p
    ensures p.fault.Some? ==> ConvertKeys(d, ks) == p
  {
    assert ks[..i + 1][..i] == ks[..i];
    if p.fault.Some? {
      ConvertKeysStops(d, ks, i + 1);
    }
  }

  /** The first loop of `_parse_payload`, in place; it stops at the first exception. */
  method ConvertInPlace(payload: PyDict<Value>) returns (fault: Option<Fault>)
    modifies payload
    ensures Parsed(payload.entries, fault) == ConvertKeys(old(payload.entries), Keys(old(payload.entries)))
  {
    ghost var d0 := payload.entries;
    var ks := Keys(payload.entries);
    for i := 0 to |ks|
      invariant ConvertKeys(d0, ks[..i]) == Parsed(payload.entries, None)
    {
      ghost var e := payload.entries;
      fault := ConvertOne(payload, ks[i]);
      ConvertKeysStep(d0, ks, i, e, Parsed(payload.entries, fault));
      if fault.Some? {
        return;
      }
    }
    assert ks[..|ks|] == ks;
    fault := None;
  }

  /** One iteration of the first loop of `_parse_payload`, in place. */
  method ConvertOne(payload: PyDict<Value>, k: string) returns (fault: Option<Fault>)
    modifies payload
    ensures Parsed(payload.entries, fault) == ConvertKey(old(payload.entries), k)
  {
    var edm := Get(payload.entries, k + Suffix);
    fault := None;
    if edm.Some? && edm.value.Str? && KnownTag(edm.value.s) {
      var cur := Get(payload.entries, k);
      if cur.None? {
        return Some(KeyError(k));
      }
      var parsed := EdmParse(edm.value.s, cur.value);
      if parsed.Err? {
        return Some(parsed.error);
      }
      payload.Set(k, parsed.value);
    }
  }

  /** The second loop of `_parse_payload`, in place. */
  method StripInPlace(payload: PyDict<Value>)
    requires Valid(payload.entries)
    modifies payload
    ensures payload.entries == StripKeys(old(payload.entries), Keys(old(payload.entries)))
  {
    ghost var d1 := payload.entries;
    var ks := Keys(payload.entries);
    for i := 0 to |ks|
      invariant payload.entries == StripKeys(d1, ks[..i])
      invariant forall j :: i <= j < |ks| ==> ks[j] in Keys(payload.entries)
    {
      StripOne(payload, d1, ks, i);
    }
    assert ks[..|ks|] == ks;
  }

  /** One pass of the second loop: the key `ks[i]` is deleted when it contains
      "@odata.type"; the keys still to visit stay present. */
  method StripOne(payload: PyDict<Value>, ghost d1: Dict<Value>, ks: seq<string>, i: nat)
    requires Valid(d1) && ks == Keys(d1) && i < |ks|
    requires payload.entries == StripKeys(d1, ks[..i])
    requires forall j :: i <= j < |ks| ==> ks[j] in Keys(payload.entries)
    modifies payload
    ensures payload.entries == StripKeys(d1, ks[..i + 1])
    ensures forall j :: i < j < |ks| ==> ks[j] in Keys(payload.entries)
  {
    var k := ks[i];
    assert ks[..i + 1][..i] == ks[..i];
    if Contains(k, Suffix) {
      ghost var before := payload.entries;
      payload.Remove(k);
      forall j | i < j < |ks| ensures ks[j] in Keys(payload.entries) {
        KeysDistinct(d1, i, j);
        assert Get(payload.entries, ks[j]) == Get(before, ks[j]);
      }
    }
  }

  /** `_parse_payload(payload)` in place; an exception is returned instead of raised. */
  method ParsePayloadInPlace(payload: PyDict<Value>) returns (fault: Option<Fault>)
    requires Valid(payload.entries)
    modifies payload
    ensures Parsed(payload.entries, fault) == ParsePayload(old(payload.entries))
  {
    ConvertKeysValid(payload.entries, Keys(payload.entries));
    fault := ConvertInPlace(payload);
    if fault.None? {
      StripInPlace(payload);
    }
  }
}

=== FILE: edm_properties.dfy ===
/** What annotating and parsing do to a whole entity, and how the two fit together. */
module EdmProperties {
  import opened Wrappers
  import opened Text
  import opened Dicts
  import opened Uuids
  import opened Edm

  /** Key `k` holds a value that `_edm_types` knows. */
  predicate TypedAt(d: Dict<Value>, k: string) {
    Get(d, k).Some? && Typed(Get(d, k).value)
  }

  /** No value is an int, a UUID or a datetime. */
  ghost predicate Untyped(d: Dict<Value>) {
    forall k :: !TypedAt(d, k)
  }

  predicate EndsWithSuffix(k: string) {
    |k| >= |Suffix| && k[|k| - |Suffix|..] == Suffix
  }

  /** The property that `k` is the annotation slot of. */
  function BaseOf(k: string): string
    requires EndsWithSuffix(k)
  {
    k[..|k| - |Suffix|]
  }

  lemma SlotOf(j: string)
    ensures EndsWithSuffix(j + Suffix) && BaseOf(j + Suffix) == j
  {
    assert (j + Suffix)[|j|..] == Suffix;
    assert (j + Suffix)[..|j|] == j;
  }

  lemma SlotBase(k: string)
    requires EndsWithSuffix(k)
    ensures k == BaseOf(k) + Suffix
  {
    assert k == k[..|k| - |Suffix|] + k[|k| - |Suffix|..];
  }

  /** `k` is the annotation slot of a typed property. */
  predicate TypedSlot(d: Dict<Value>, k: string) {
    EndsWithSuffix(k) && TypedAt(d, BaseOf(k))
  }

  /** No typed value sits under a key ending in "@odata.type"; otherwise the tag written
      for its base property would overwrite it. */
  ghost predicate SlotsUntyped(d: Dict<Value>) {
    forall k :: TypedAt(d, k) ==> !EndsWithSuffix(k)
  }

  // ---------------------------------------------------------------- annotation leaves nothing typed

  lemma {:induction false} AnnotateKeysTyped(d: Dict<Value>, ks: seq<string>, now: string)
    ensures forall k :: TypedAt(AnnotateKeys(d, ks, now), k) ==> k !in ks && k in Keys(d)
    decreases |ks|
  {
    if ks != [] {
      var ks' := ks[..|ks| - 1];
      var k0 := ks[|ks| - 1];
      assert ks == ks' + [k0];
      AnnotateKeysTyped(d, ks', now);
      var r := AnnotateKeys(d, ks', now);
      forall k | TypedAt(AnnotateKey(r, k0, now), k) ensures k !in ks && k in Keys(d) {
        AnnotateKeyTypedAt(r, k0, now, k);
      }
    }
  }

  /** A value still typed after annotating `k0` was typed before, and is not at `k0`. */
  lemma AnnotateKeyTypedAt(r: Dict<Value>, k0: string, now: string, k: string)
    requires TypedAt(AnnotateKey(r, k0, now), k)
    ensures k != k0 && TypedAt(r, k)
  {
    if TypedAt(r, k0) {
      var v := Get(r, k0).value;
      var tag := Str(EdmType(v).value);
      var text := Str(EdmFormat(v, now).value);
      AnnotateKeyTyped(r, k0, now);
      PutsSet(r, k0, tag, text);
      assert k != k0 && k != k0 + Suffix;
      PutsOther(r, k0, k, tag, text);
    } else {
      AnnotateKeyPlain(r, k0, now);
    }
  }

  /** Annotating a key whose value is not typed changes nothing. */
  lemma AnnotateKeyPlain(r: Dict<Value>, k0: string, now: string)
    requires !TypedAt(r, k0)
    ensures AnnotateKey(r, k0, now) == r
  {
  }

  /** Writing the tag and then the text of `k0` leaves every other key alone. */
  lemma PutsOther(r: Dict<Value>, k0: string, k: string, tag: Value, text: Value)
    requires k != k0 && k != k0 + Suffix
    ensures Get(Put(Put(r, k0 + Suffix, tag), k0, text), k) == Get(r, k)
  {
  }

  /** After `_annotate_payload` no value is an int, a UUID or a datetime: each was turned into text. */
  lemma AnnotatedUntyped(d: Dict<Value>, now: string)
    ensures Untyped(Annotated(d, now))
  {
    AnnotateKeysTyped(d, Keys(d), now);
  }

  lemma {:induction false} AnnotateKeysUntyped(d: Dict<Value>, ks: seq<string>, now: string)
    requires Untyped(d)
    ensures AnnotateKeys(d, ks, now) == d
    decreases |ks|
  {
    if ks != [] {
      AnnotateKeysUntyped(d, ks[..|ks| - 1], now);
      assert !TypedAt(d, ks[|ks| - 1]);
    }
  }

  /** Annotating twice is annotating once, whatever time the second pass sees. */
  lemma AnnotateIdempotent(d: Dict<Value>, now: string, later: string)
    ensures Annotated(Annotated(d, now), later) == Annotated(d, now)
  {
    var a := Annotated(d, now);
    AnnotatedUntyped(d, now);
    AnnotateKeysUntyped(a, Keys(a), later);
  }

  // ---------------------------------------------------------------- the effect of annotating

  lemma {:induction false} AnnotateKeysValid(d: Dict<Value>, ks: seq<string>, now: string)
    requires Valid(d)
    ensures Valid(AnnotateKeys(d, ks, now))
    decreases |ks|
  {
    if ks != [] {
      AnnotateKeysValid(d, ks[..|ks| - 1], now);
      var r := AnnotateKeys(d, ks[..|ks| - 1], now);
      var k0 := ks[|ks| - 1];
      if Get(r, k0).Some? {
        var v := Get(r, k0).value;
        var r1 := if EdmType(v).Some? then Put(r, k0 + Suffix, Str(EdmType(v).value)) else r;
        if EdmType(v).Some? {
          PutValid(r, k0 + Suffix, Str(EdmType(v).value));
        }
        if EdmFormat(v, now).Some? {
          PutValid(r1, k0, Str(EdmFormat(v, now).value));
        }
      }
    }
  }

  /** Annotation only appends keys: the original keys keep their positions. */
  lemma {:induction false} AnnotateKeysPrefix(d: Dict<Value>, ks: seq<string>, now: string)
    ensures |AnnotateKeys(d, ks, now)| >= |d|
    ensures Keys(AnnotateKeys(d, ks, now))[..|d|] == Keys(d)
    decreases |ks|
  {
    if ks == [] {
      assert Keys(d)[..|d|] == Keys(d);
    } else {
      AnnotateKeysPrefix(d, ks[..|ks| - 1], now);
      AnnotateKeyPrefix(AnnotateKeys(d, ks[..|ks| - 1], now), ks[|ks| - 1], now, |d|);
    }
  }

  /** One pass of the annotation loop leaves the first `n` keys where they were. */
  lemma AnnotateKeyPrefix(r: Dict<Value>, k0: string, now: string, n: nat)
    requires n <= |r|
    ensures |AnnotateKey(r, k0, now)| >= n && Keys(AnnotateKey(r, k0, now))[..n] == Keys(r)[..n]
  {
    if Get(r, k0).Some? {
      var v := Get(r, k0).value;
      var r1 := if EdmType(v).Some? then Put(r, k0 + Suffix, Str(EdmType(v).value)) else r;
      if EdmType(v).Some? {
        PutKeepsPrefix(r, k0 + Suffix, Str(EdmType(v).value), n);
      }
      if EdmFormat(v, now).Some? {
        PutKeepsPrefix(r1, k0, Str(EdmFormat(v, now).value), n);
      }
    }
  }

  /** The invariant of the annotation loop after visiting `ks`: each visited typed
      property holds its text and its slot holds its tag; everything else is as it was. */
  ghost predicate AnnotatedUpTo(d: Dict<Value>, r: Dict<Value>, ks: seq<string>, now: string) {
    TypedDone(d, r, ks, now) && PlainKept(d, r, ks)
  }

  ghost predicate TypedDone(d: Dict<Value>, r: Dict<Value>, ks: seq<string>, now: string) {
    forall k :: k in ks && TypedAt(d, k) ==> KeyAnnotated(d, r, k, now)
  }

  /** The typed property `k` of `d` holds its text in `r`, and its slot holds its tag. */
  ghost predicate KeyAnnotated(d: Dict<Value>, r: Dict<Value>, k: string, now: string) {
    TypedAt(d, k) &&
    Get(r, k) == Some(Str(EdmFormat(Get(d, k).value, now).value)) &&
    Get(r, k + Suffix) == Some(Str(EdmType(Get(d, k).value).value))
  }

  ghost predicate PlainKept(d: Dict<Value>, r: Dict<Value>, ks: seq<string>) {
    forall k :: !(k in ks && TypedAt(d, k)) && !(EndsWithSuffix(k) && BaseOf(k) in ks && TypedAt(d, BaseOf(k))) ==>
      Get(r, k) == Get(d, k)
  }

  lemma AnnotateStepTyped(d: Dict<Value>, r: Dict<Value>, ks: seq<string>, k0: string, now: string)
    requires SlotsUntyped(d) && AnnotatedUpTo(d, r, ks, now)
    requires TypedAt(d, k0) && k0 !in ks
    ensures AnnotatedUpTo(d, AnnotateKey(r, k0, now), ks + [k0], now)
  {
    var v := Get(d, k0).value;
    assert Typed(v) && EdmType(v).Some? && EdmFormat(v, now).Some?;
    var tag, text := Str(EdmType(v).value), Str(EdmFormat(v, now).value);
    assert Get(r, k0) == Get(d, k0);
    AnnotateKeyTyped(r, k0, now);
    StepTypedDone(d, r, ks, k0, tag, text, now);
    StepTypedRest(d, r, ks, k0, tag, text);
  }

  lemma AnnotateKeyTyped(r: Dict<Value>, k: string, now: string)
    requires TypedAt(r, k)
    ensures var v := Get(r, k).value;
      AnnotateKey(r, k, now) == Put(Put(r, k + Suffix, Str(EdmType(v).value)), k, Str(EdmFormat(v, now).value))
  {
    var v := Get(r, k).value;
    var tag := EdmType(v).value;
    var text := EdmFormat(v, now).value;
    assert EdmType(v) == Some(tag) && EdmFormat(v, now) == Some(text);
  }

  /** After a typed `k0` gets its tag and text, every visited typed key, `k0` included,
      holds its text and its tag. */
  lemma StepTypedDone(d: Dict<Value>, r: Dict<Value>, ks: seq<string>, k0: string, tag: Value, text: Value, now: string)
    requires SlotsUntyped(d) && TypedDone(d, r, ks, now) && TypedAt(d, k0)
    requires tag == Str(EdmType(Get(d, k0).value).value) && text == Str(EdmFormat(Get(d, k0).value, now).value)
    ensures TypedDone(d, Put(Put(r, k0 + Suffix, tag), k0, text), ks + [k0], now)
  {
    forall k | k in ks + [k0] && TypedAt(d, k)
      ensures KeyAnnotated(d, Put(Put(r, k0 + Suffix, tag), k0, text), k, now)
    {
      StepTypedAt(d, r, k0, tag, text, now, k);
    }
  }

  lemma StepTypedAt(d: Dict<Value>, r: Dict<Value>, k0: string, tag: Value, text: Value, now: string, k: string)
    requires SlotsUntyped(d) && TypedAt(d, k0) && TypedAt(d, k)
    requires tag == Str(EdmType(Get(d, k0).value).value) && text == Str(EdmFormat(Get(d, k0).value, now).value)
    requires k == k0 || KeyAnnotated(d, r, k, now)
    ensures KeyAnnotated(d, Put(Put(r, k0 + Suffix, tag), k0, text), k, now)
  {
    if k == k0 {
      PutsSet(r, k0, tag, text);
    } else {
      PutsKeep(r, k0, k, tag, text);
    }
  }

  /** Writing the tag and then the text of `k0` sets both. */
  lemma PutsSet(r: Dict<Value>, k0: string, tag: Value, text: Value)
    ensures var r' := Put(Put(r, k0 + Suffix, tag), k0, text);
      Get(r', k0) == Some(text) && Get(r', k0 + Suffix) == Some(tag)
  {
    assert |k0 + Suffix| != |k0|;
  }

  /** Writing the tag and then the text of `k0` leaves another plain key and its slot alone. */
  lemma PutsKeep(r: Dict<Value>, k0: string, k: string, tag: Value, text: Value)
    requires k != k0 && !EndsWithSuffix(k) && !EndsWithSuffix(k0)
    ensures var r' := Put(Put(r, k0 + Suffix, tag), k0, text);
      Get(r', k) == Get(r, k) && Get(r', k + Suffix) == Get(r, k + Suffix)
  {
    SlotOf(k0);
    SlotOf(k);
    assert k != k0 + Suffix;
    assert k + Suffix != k0;
    assert k + Suffix != k0 + Suffix by {
      assert (k + Suffix)[..|k|] == k;
      assert (k0 + Suffix)[..|k0|] == k0;
    }
  }

  /** After a typed `k0` gets its tag and text, every key outside the visited typed keys
      and their slots is as it was. */
  lemma StepTypedRest(d: Dict<Value>, r: Dict<Value>, ks: seq<string>, k0: string, tag: Value, text: Value)
    requires PlainKept(d, r, ks) && TypedAt(d, k0)
    ensures PlainKept(d, Put(Put(r, k0 + Suffix, tag), k0, text), ks + [k0])
  {
    var r' := Put(Put(r, k0 + Suffix, tag), k0, text);
    var ks' := ks + [k0];
    SlotOf(k0);
    forall k | !(k in ks' && TypedAt(d, k)) && !(EndsWithSuffix(k) && BaseOf(k) in ks' && TypedAt(d, BaseOf(k)))
      ensures Get(r', k) == Get(d, k)
    {
      assert k != k0;
      assert k != k0 + Suffix;
    }
  }

  lemma AnnotateStepPlain(d: Dict<Value>, r: Dict<Value>, ks: seq<string>, k0: string, now: string)
    requires SlotsUntyped(d) && AnnotatedUpTo(d, r, ks, now)
    requires !TypedAt(d, k0) || k0 in ks
    ensures AnnotateKey(r, k0, now) == r
    ensures AnnotatedUpTo(d, r, ks + [k0], now)
  {
    var ks' := ks + [k0];
    if EndsWithSuffix(k0) && BaseOf(k0) in ks && TypedAt(d, BaseOf(k0)) {
      SlotBase(k0);
    }
    assert !TypedAt(r, k0);
    forall k | !(k in ks' && TypedAt(d, k)) && !(EndsWithSuffix(k) && BaseOf(k) in ks' && TypedAt(d, BaseOf(k)))
      ensures Get(r, k) == Get(d, k)
    {
    }
  }

  lemma {:induction false} AnnotateKeysEffect(d: Dict<Value>, ks: seq<string>, now: string)
    requires SlotsUntyped(d)
    ensures AnnotatedUpTo(d, AnnotateKeys(d, ks, now), ks, now)
    decreases |ks|
  {
    if ks == [] {
    } else {
      var ks' := ks[..|ks| - 1];
      var k0 := ks[|ks| - 1];
      assert ks == ks' + [k0];
      AnnotateKeysEffect(d, ks', now);
      if TypedAt(d, k0) && k0 !in ks' {
        AnnotateStepTyped(d, AnnotateKeys(d, ks', now), ks', k0, now);
      } else {
        AnnotateStepPlain(d, AnnotateKeys(d, ks', now), ks', k0, now);
      }
    }
  }

  /** `_annotate_payload`: every int, UUID and datetime property becomes its text, with
      its EDM type name in the sibling property `k + "@odata.type"`; every other property
      keeps its value; the original properties keep their order and the new ones follow. */
  lemma AnnotateEffect(d: Dict<Value>, now: string)
    requires SlotsUntyped(d)
    ensures var r := Annotated(d, now);
      (forall k :: TypedAt(d, k) ==>
        Get(r, k) == Some(Str(EdmFormat(Get(d, k).value, now).value)) &&
        Get(r, k + Suffix) == Some(Str(EdmType(Get(d, k).value).value)))
      && (forall k :: !TypedAt(d, k) && !TypedSlot(d, k) ==> Get(r, k) == Get(d, k))
      && |r| >= |d| && Keys(r)[..|d|] == Keys(d)
      && (Valid(d) ==> Valid(r))
  {
    AnnotateKeysEffect(d, Keys(d), now);
    AnnotateKeysPrefix(d, Keys(d), now);
    if Valid(d) {
      AnnotateKeysValid(d, Keys(d), now);
    }
  }

  // ---------------------------------------------------------------- parsing

  /** The sibling `k + "@odata.type"` holds the name of a registered parser. */
  predicate TagKnown(d: Dict<Value>, k: string) {
    var t := Get(d, k + Suffix);
    t.Some? && t.value.Str? && KnownTag(t.value.s)
  }

  function TagOf(d: Dict<Value>, k: string): string
    requires TagKnown(d, k)
  {
    Get(d, k + Suffix).value.s
  }

  /** The parse `_parse_payload` attempts at `k`, if any, succeeds. */
  predicate ParsesAt(d: Dict<Value>, k: string) {
    TagKnown(d, k) && Get(d, k).Some? ==> EdmParse(TagOf(d, k), Get(d, k).value).Ok?
  }

  /** Every annotated property of `d` parses. */
  ghost predicate AllParse(d: Dict<Value>) {
    forall k :: k in Keys(d) ==> ParsesAt(d, k)
  }

  /** What `k` holds after the first loop: the parsed value where a known tag names one. */
  function Converted(d: Dict<Value>, k: string): Option<Value> {
    if TagKnown(d, k) && Get(d, k).Some? && EdmParse(TagOf(d, k), Get(d, k).value).Ok? then
      Some(EdmParse(TagOf(d, k), Get(d, k).value).value)
    else Get(d, k)
  }

  /** The keys that do not contain "@odata.type", in order. */
  function PlainKeys(ks: seq<string>): seq<string>
    decreases |ks|
  {
    if ks == [] then [] else (if Contains(ks[0], Suffix) then [] else [ks[0]]) + PlainKeys(ks[1..])
  }

  /** A type name is never itself a well-formed value of a type. */
  lemma KnownTagsDoNotParse(tag: string, other: string)
    requires KnownTag(tag) && KnownTag(other)
    ensures EdmParse(tag, Str(other)).Err?
  {
    if tag == "Edm.Guid" {
      ParseUuidShort(other);
    } else if tag == "Edm.Int64" {
      assert other[0] == 'E';
      ParseIntCapital(other);
    }
  }

  /** What the first loop promises after visiting `ks`: it has raised unless every visited
      annotated property parsed, and if it has not, the visited properties hold their parsed
      values and the rest are untouched. */
  ghost predicate ConvertedUpTo(d: Dict<Value>, ks: seq<string>, c: Parsed) {
    (c.fault.None? <==> forall k :: k in ks ==> ParsesAt(d, k))
    && (c.fault.None? ==> forall k :: Get(c.entries, k) == if k in ks then Converted(d, k) else Get(d, k))
  }

  /** The first loop after `n` keys. */
  lemma {:induction false} ConvertPrefix(d: Dict<Value>, n: nat)
    requires Valid(d) && n <= |d|
    ensures ConvertedUpTo(d, Keys(d)[..n], ConvertKeys(d, Keys(d)[..n]))
    decreases n
  {
    if n > 0 {
      ConvertPrefix(d, n - 1);
      NextKeyFresh(d, n - 1);
      ConvertStep(d, Keys(d)[..n - 1], Keys(d)[n - 1]);
    } else {
      assert Keys(d)[..n] == [];
    }
  }

  /** In a well-formed dict, key `i` is not among the keys before it. */
  lemma NextKeyFresh<V>(d: Dict<V>, i: nat)
    requires Valid(d) && i < |d|
    ensures Keys(d)[i] in Keys(d) && Keys(d)[i] !in Keys(d)[..i]
    ensures Keys(d)[..i + 1] == Keys(d)[..i] + [Keys(d)[i]]
  {
    KeyNotBefore(d, i);
    PrefixSnoc(Keys(d), i);
  }

  lemma KeyNotBefore<V>(d: Dict<V>, i: nat)
    requires Valid(d) && i < |d|
    ensures Keys(d)[i] !in Keys(d)[..i]
  {
    forall j | 0 <= j < i ensures Keys(d)[j] != Keys(d)[i] {
      KeysDistinct(d, j, i);
    }
  }

  lemma PrefixSnoc(ks: seq<string>, i: nat)
    requires i < |ks|
    ensures ks[..i + 1] == ks[..i] + [ks[i]]
  {
  }

  /** One more key, not visited before, visited by the first loop. */
  lemma ConvertStep(d: Dict<Value>, ks: seq<string>, k0: string)
    requires k0 in Keys(d) && k0 !in ks
    requires ConvertedUpTo(d, ks, ConvertKeys(d, ks))
    ensures ConvertedUpTo(d, ks + [k0], ConvertKeys(d, ks + [k0]))
  {
    assert (ks + [k0])[..|ks|] == ks;
    var c := ConvertKeys(d, ks);
    assert ConvertKeys(d, ks + [k0]) == if c.fault.Some? then c else ConvertKey(c.entries, k0);
    if c.fault.None? {
      SeesOriginal(d, ks, c.entries, k0);
      ConvertKeyAt(d, c.entries, k0);
    }
  }

  /** Converting other keys leaves `k0` and its tag as they were: a parsed tag sibling is
      never a string naming a known tag. */
  lemma SeesOriginal(d: Dict<Value>, ks: seq<string>, p: Dict<Value>, k0: string)
    requires k0 !in ks
    requires forall k :: Get(p, k) == if k in ks then Converted(d, k) else Get(d, k)
    ensures Get(p, k0) == Get(d, k0)
    ensures TagKnown(p, k0) == TagKnown(d, k0) && (TagKnown(d, k0) ==> TagOf(p, k0) == TagOf(d, k0))
  {
    var s := k0 + Suffix;
    if s in ks && Converted(d, s) != Get(d, s) {
      if TagKnown(d, k0) {
        KnownTagsDoNotParse(TagOf(d, s), TagOf(d, k0));
      }
    }
  }

  /** One iteration raises exactly when the parse it attempts fails, and otherwise puts the
      parsed value at `k0`. */
  lemma ConvertKeyAt(d: Dict<Value>, p: Dict<Value>, k0: string)
    requires k0 in Keys(d) && Get(p, k0) == Get(d, k0)
    requires TagKnown(p, k0) == TagKnown(d, k0) && (TagKnown(d, k0) ==> TagOf(p, k0) == TagOf(d, k0))
    ensures var q := ConvertKey(p, k0);
      (q.fault.None? <==> ParsesAt(d, k0))
      && (q.fault.None? ==> forall k :: Get(q.entries, k) == if k == k0 then Converted(d, k0) else Get(p, k))
  {
    if TagKnown(d, k0) {
      var res := EdmParse(TagOf(d, k0), Get(d, k0).value);
      if res.Ok? {
        assert ConvertKey(p, k0) == Parsed(Put(p, k0, res.value), None);
      } else {
        assert ConvertKey(p, k0).fault.Some? && !ParsesAt(d, k0);
      }
    } else {
      assert ConvertKey(p, k0) == Parsed(p, None);
    }
  }

  /** The first loop over all keys. */
  lemma ConvertAll(d: Dict<Value>)
    requires Valid(d)
    ensures var c := ConvertKeys(d, Keys(d));
      (c.fault.None? <==> AllParse(d))
      && (c.fault.None? ==> forall k :: Get(c.entries, k) == Converted(d, k))
  {
    ConvertPrefix(d, |d|);
    assert Keys(d)[..|d|] == Keys(d);
  }

  /** The keys of `xs` left once the keys of `ks` that contain "@odata.type" are deleted. */
  function KeepOut(xs: seq<string>, ks: seq<string>): seq<string>
    decreases |xs|
  {
    if xs == [] then [] else (if xs[0] in ks && Contains(xs[0], Suffix) then [] else [xs[0]]) + KeepOut(xs[1..], ks)
  }

  lemma {:induction false} WithoutKeepOut(xs: seq<string>, ks: seq<string>, k0: string)
    requires Contains(k0, Suffix)
    ensures Without(KeepOut(xs, ks), k0) == KeepOut(xs, ks + [k0])
    decreases |xs|
  {
    if xs != [] {
      WithoutKeepOut(xs[1..], ks, k0);
      var head := if xs[0] in ks && Contains(xs[0], Suffix) then [] else [xs[0]];
      var rest := KeepOut(xs[1..], ks);
      if head == [] {
        assert KeepOut(xs, ks) == rest;
      } else {
        assert (head + rest)[0] == xs[0];
        assert (head + rest)[1..] == rest;
      }
    }
  }

  lemma {:induction false} KeepOutAll(xs: seq<string>, ks: seq<string>)
    requires forall x :: x in xs ==> x in ks
    ensures KeepOut(xs, ks) == PlainKeys(xs)
    decreases |xs|
  {
    if xs != [] {
      KeepOutAll(xs[1..], ks);
    }
  }

  lemma {:induction false} StripPrefix(c: Dict<Value>, n: nat)
    requires Valid(c) && n <= |c|
    ensures var r := StripKeys(c, Keys(c)[..n]);
      Valid(r) && Keys(r) == KeepOut(Keys(c), Keys(c)[..n])
      && forall k :: Get(r, k) == if k in Keys(c)[..n] && Contains(k, Suffix) then None else Get(c, k)
    decreases n
  {
    var ks := Keys(c)[..n];
    if n == 0 {
      assert ks == [];
      KeepOutNone(Keys(c));
    } else {
      var ks' := Keys(c)[..n - 1];
      var k0 := Keys(c)[n - 1];
      assert ks == ks' + [k0];
      assert ks[..n - 1] == ks';
      StripPrefix(c, n - 1);
      var r := StripKeys(c, ks');
      if Contains(k0, Suffix) {
        DeleteValid(r, k0);
        WithoutKeepOut(Keys(c), ks', k0);
      } else {
        KeepOutSame(Keys(c), ks', k0);
      }
    }
  }

  lemma {:induction false} KeepOutNone(xs: seq<string>)
    ensures KeepOut(xs, []) == xs
    decreases |xs|
  {
    if xs != [] {
      KeepOutNone(xs[1..]);
    }
  }

  lemma {:induction false} KeepOutSame(xs: seq<string>, ks: seq<string>, k0: string)
    requires !Contains(k0, Suffix)
    ensures KeepOut(xs, ks + [k0]) == KeepOut(xs, ks)
    decreases |xs|
  {
    if xs != [] {
      KeepOutSame(xs[1..], ks, k0);
    }
  }

  /** The second loop: exactly the keys containing "@odata.type" go, the rest keep their order. */
  lemma StripAll(c: Dict<Value>)
    requires Valid(c)
    ensures var r := StripKeys(c, Keys(c));
      Valid(r) && Keys(r) == PlainKeys(Keys(c))
      && forall k :: Get(r, k) == if Contains(k, Suffix) then None else Get(c, k)
  {
    StripPrefix(c, |c|);
    assert Keys(c)[..|c|] == Keys(c);
    KeepOutAll(Keys(c), Keys(c));
  }

  /** `_parse_payload`: it raises exactly when some annotated property fails to parse;
      otherwise every annotated property holds its parsed value, every other property
      keeps its value, and every key containing "@odata.type" is gone. */
  lemma ParseEffect(d: Dict<Value>)
    requires Valid(d)
    ensures ParsePayload(d).fault.None? <==> AllParse(d)
    ensures var r := ParsePayload(d).entries;
      ParsePayload(d).fault.None? ==>
        Valid(r) && Keys(r) == PlainKeys(Keys(d))
        && forall k :: Get(r, k) == if Contains(k, Suffix) then None else Converted(d, k)
  {
    ConvertAll(d);
    var c := ConvertKeys(d, Keys(d));
    if c.fault.None? {
      ConvertKeysValid(d, Keys(d));
      ConvertKeysKeepsKeys(d, Keys(d));
      StripAll(c.entries);
    }
  }

  lemma {:induction false} PlainKeysAllPlain(xs: seq<string>)
    requires forall x :: x in xs ==> !Contains(x, Suffix)
    ensures PlainKeys(xs) == xs
    decreases |xs|
  {
    if xs != [] {
      PlainKeysAllPlain(xs[1..]);
    }
  }

  lemma {:induction false} PlainKeysArePlain(xs: seq<string>)
    ensures forall x :: x in PlainKeys(xs) ==> !Contains(x, Suffix)
    decreases |xs|
  {
    if xs != [] {
      PlainKeysArePlain(xs[1..]);
    }
  }

  lemma {:induction false} PlainKeysAppend(xs: seq<string>, ys: seq<string>)
    ensures PlainKeys(xs + ys) == PlainKeys(xs) + PlainKeys(ys)
    decreases |xs|
  {
    if xs == [] {
      assert xs + ys == ys;
    } else {
      assert (xs + ys)[1..] == xs[1..] + ys;
      PlainKeysAppend(xs[1..], ys);
    }
  }

  lemma {:induction false} PlainKeysNone(xs: seq<string>)
    requires forall x :: x in xs ==> Contains(x, Suffix)
    ensures PlainKeys(xs) == []
    decreases |xs|
  {
    if xs != [] {
      PlainKeysNone(xs[1..]);
    }
  }

  /** A dict with no key containing "@odata.type". */
  predicate NoAnnotationKeys(d: Dict<Value>) {
    forall k :: k in Keys(d) ==> !Contains(k, Suffix)
  }

  /** Parsing a dict that carries no annotations changes nothing and raises nothing. */
  lemma ParsePlain(d: Dict<Value>)
    requires Valid(d) && NoAnnotationKeys(d)
    ensures ParsePayload(d) == Parsed(d, None)
  {
    forall k ensures !TagKnown(d, k) {
      ContainsSuffix(k, Suffix);
    }
    ParseEffect(d);
    PlainKeysAllPlain(Keys(d));
    DictExt(ParsePayload(d).entries, d);
  }

  /** Parsing what a successful parse returned changes nothing. */
  lemma ParseIdempotent(d: Dict<Value>)
    requires Valid(d) && ParsePayload(d).fault.None?
    ensures ParsePayload(ParsePayload(d).entries) == ParsePayload(d)
  {
    ParseEffect(d);
    PlainKeysArePlain(Keys(d));
    ParsePlain(ParsePayload(d).entries);
  }

  // ---------------------------------------------------------------- round trip

  lemma EndsWithContains(k: string)
    requires EndsWithSuffix(k)
    ensures Contains(k, Suffix)
  {
    SlotBase(k);
    ContainsSuffix(BaseOf(k), Suffix);
  }

  lemma NoAnnotationSlots(d: Dict<Value>)
    requires NoAnnotationKeys(d)
    ensures SlotsUntyped(d)
  {
    forall k | TypedAt(d, k) ensures !EndsWithSuffix(k) {
      if EndsWithSuffix(k) {
        EndsWithContains(k);
      }
    }
  }

  /** On an entity whose property names carry no "@odata.type", the annotated dict has a
      known tag at `k` exactly when `k` is typed, and then `k` holds its text; any other
      property name without "@odata.type" keeps its value, and the only new keys are slots. */
  lemma AnnotatedAt(d: Dict<Value>, now: string, k: string)
    requires NoAnnotationKeys(d)
    ensures var a := Annotated(d, now);
      (TagKnown(a, k) <==> TypedAt(d, k))
      && (TypedAt(d, k) ==>
            TagOf(a, k) == EdmType(Get(d, k).value).value
            && Get(a, k) == Some(Str(EdmFormat(Get(d, k).value, now).value)))
      && (!Contains(k, Suffix) && !TypedAt(d, k) ==> Get(a, k) == Get(d, k))
      && (Get(a, k).Some? && k !in Keys(d) ==> Contains(k, Suffix))
  {
    NoAnnotationSlots(d);
    AnnotatedTagAt(d, now, k);
    AnnotatedPlainAt(d, now, k);
  }

  lemma AnnotatedTagAt(d: Dict<Value>, now: string, k: string)
    requires NoAnnotationKeys(d) && SlotsUntyped(d)
    ensures var a := Annotated(d, now);
      (TagKnown(a, k) <==> TypedAt(d, k))
      && (TypedAt(d, k) ==>
            TagOf(a, k) == EdmType(Get(d, k).value).value
            && Get(a, k) == Some(Str(EdmFormat(Get(d, k).value, now).value)))
  {
    var a := Annotated(d, now);
    SlotOf(k);
    if TypedAt(d, k) {
      AnnotatedTypedKey(d, now, k);
      assert KnownTag(EdmType(Get(d, k).value).value);
    } else {
      assert !TypedAt(d, k + Suffix) && !TypedSlot(d, k + Suffix);
      AnnotatedUntouched(d, now, k + Suffix);
      ContainsSuffix(k, Suffix);
      assert Get(d, k + Suffix) == None;
    }
  }

  /** `AnnotateEffect` at one typed key. */
  lemma AnnotatedTypedKey(d: Dict<Value>, now: string, k: string)
    requires SlotsUntyped(d) && TypedAt(d, k)
    ensures Get(Annotated(d, now), k) == Some(Str(EdmFormat(Get(d, k).value, now).value))
    ensures Get(Annotated(d, now), k + Suffix) == Some(Str(EdmType(Get(d, k).value).value))
  {
    AnnotateEffect(d, now);
  }

  /** `AnnotateEffect` at one key that is neither typed nor the slot of a typed key. */
  lemma AnnotatedUntouched(d: Dict<Value>, now: string, k: string)
    requires SlotsUntyped(d) && !TypedAt(d, k) && !TypedSlot(d, k)
    ensures Get(Annotated(d, now), k) == Get(d, k)
  {
    AnnotateEffect(d, now);
  }

  lemma AnnotatedPlainAt(d: Dict<Value>, now: string, k: string)
    requires NoAnnotationKeys(d) && SlotsUntyped(d)
    ensures var a := Annotated(d, now);
      (!Contains(k, Suffix) && !TypedAt(d, k) ==> Get(a, k) == Get(d, k))
      && (Get(a, k).Some? && k !in Keys(d) ==> Contains(k, Suffix))
  {
    AnnotateEffect(d, now);
    if EndsWithSuffix(k) {
      EndsWithContains(k);
    }
  }

  /** Every key the annotation adds contains "@odata.type". */
  lemma AnnotatedTail(d: Dict<Value>, now: string)
    requires Valid(d)
    ensures var a := Annotated(d, now);
      |a| >= |d| && Keys(a) == Keys(d) + Keys(a)[|d|..]
      && forall x :: x in Keys(a)[|d|..] ==> Contains(x, Suffix)
  {
    AnnotateKeysPrefix(d, Keys(d), now);
    AnnotateKeysValid(d, Keys(d), now);
    KeysSplit(Keys(Annotated(d, now)), Keys(d));
    AnnotatedTailAll(d, now);
  }

  lemma KeysSplit(ks: seq<string>, head: seq<string>)
    requires |ks| >= |head| && ks[..|head|] == head
    ensures ks == head + ks[|head|..]
  {
    assert ks == ks[..|head|] + ks[|head|..];
  }

  lemma AnnotatedTailAll(d: Dict<Value>, now: string)
    requires Valid(Annotated(d, now)) && |Annotated(d, now)| >= |d|
    requires Keys(Annotated(d, now))[..|d|] == Keys(d)
    ensures forall x :: x in Keys(Annotated(d, now))[|d|..] ==> Contains(x, Suffix)
  {
    var ks := Keys(Annotated(d, now));
    forall x | x in ks[|d|..] ensures Contains(x, Suffix) {
      var i :| |d| <= i < |ks| && ks[i] == x;
      AnnotatedTailAt(d, now, i);
    }
  }

  /** A key the annotation appended after the original ones is a type annotation. */
  lemma AnnotatedTailAt(d: Dict<Value>, now: string, i: nat)
    requires Valid(Annotated(d, now)) && |d| <= i < |Annotated(d, now)|
    requires Keys(Annotated(d, now))[..|d|] == Keys(d)
    ensures Contains(Keys(Annotated(d, now))[i], Suffix)
  {
    var a := Annotated(d, now);
    var x := Keys(a)[i];
    forall j | 0 <= j < |d| ensures Keys(d)[j] != x {
      KeysDistinct(a, j, i);
      assert Keys(a)[..|d|][j] == Keys(a)[j];
    }
    AnnotateKeysNew(d, Keys(d), now);
  }

  /** The only key one pass can add is the slot of the visited key. */
  lemma AnnotateKeyNew(d: Dict<Value>, k: string, now: string)
    ensures forall x :: x in Keys(AnnotateKey(d, k, now)) ==> x in Keys(d) || x == k + Suffix
  {
  }

  /** Every key the loop adds, whatever the dict held before, contains "@odata.type". */
  lemma {:induction false} AnnotateKeysNew(d: Dict<Value>, ks: seq<string>, now: string)
    ensures forall x :: x in Keys(AnnotateKeys(d, ks, now)) && x !in Keys(d) ==> Contains(x, Suffix)
    decreases |ks|
  {
    if ks != [] {
      var k := ks[|ks| - 1];
      AnnotateKeysNew(d, ks[..|ks| - 1], now);
      AnnotateKeyNew(AnnotateKeys(d, ks[..|ks| - 1], now), k, now);
      ContainsSuffix(k, Suffix);
    }
  }

  /** Writing an entity and reading it back: parsing the annotated dict gives back the
      original properties, provided no property name contains "@odata.type" and no value
      is a datetime. */
  lemma RecordRoundTrip(d: Dict<Value>, now: string)
    requires Valid(d) && NoAnnotationKeys(d)
    requires forall k :: k in Keys(d) ==> !Get(d, k).value.DateTime?
    ensures ParsePayload(Annotated(d, now)) == Parsed(d, None)
  {
    var a := Annotated(d, now);
    AnnotatedTail(d, now);
    AnnotateKeysValid(d, Keys(d), now);
    forall k ensures ParsesAt(a, k) && Converted(a, k) == (if TypedAt(d, k) then Get(d, k) else Get(a, k)) {
      RoundTripAt(d, now, k);
    }
    RoundTripKeys(d, now);
  }

  /** One property of the annotated entity parses back to its original value. */
  lemma RoundTripAt(d: Dict<Value>, now: string, k: string)
    requires NoAnnotationKeys(d)
    requires forall k :: k in Keys(d) ==> !Get(d, k).value.DateTime?
    ensures var a := Annotated(d, now);
      ParsesAt(a, k) && Converted(a, k) == (if TypedAt(d, k) then Get(d, k) else Get(a, k))
  {
    AnnotatedAt(d, now, k);
    if TypedAt(d, k) {
      match Get(d, k).value
      case Int(i) => IntRoundTrip(i);
      case Guid(u) => UuidRoundTrip(u);
    }
  }

  /** Once every property parses back, the parse returns the original entity. */
  lemma RoundTripKeys(d: Dict<Value>, now: string)
    requires Valid(d) && NoAnnotationKeys(d)
    requires var a := Annotated(d, now);
      Valid(a) && |a| >= |d| && Keys(a) == Keys(d) + Keys(a)[|d|..]
      && (forall x :: x in Keys(a)[|d|..] ==> Contains(x, Suffix))
      && forall k :: ParsesAt(a, k) && Converted(a, k) == (if TypedAt(d, k) then Get(d, k) else Get(a, k))
    ensures ParsePayload(Annotated(d, now)) == Parsed(d, None)
  {
    var a := Annotated(d, now);
    ParseEffect(a);
    var r := ParsePayload(a).entries;
    PlainKeysAppend(Keys(d), Keys(a)[|d|..]);
    PlainKeysAllPlain(Keys(d));
    PlainKeysNone(Keys(a)[|d|..]);
    forall k ensures Get(r, k) == Get(d, k) {
      AnnotatedAt(d, now, k);
    }
    DictExt(r, d);
  }

  /** A datetime never survives the round trip: its tag names a parser that raises. */
  lemma DateTimeFails(d: Dict<Value>, now: string, k: string)
    requires Valid(d) && NoAnnotationKeys(d)
    requires k in Keys(d) && Get(d, k).value.DateTime?
    ensures ParsePayload(Annotated(d, now)).fault.Some?
  {
    var a := Annotated(d, now);
    AnnotatedAt(d, now, k);
    AnnotateKeysValid(d, Keys(d), now);
    assert TypedAt(d, k);
    assert TagKnown(a, k) && TagOf(a, k) == "Edm.DateTime";
    ParseFailsAt(a, k);
  }

  /** One property whose parse raises is enough for the whole parse to raise. */
  lemma ParseFailsAt(d: Dict<Value>, k: string)
    requires Valid(d) && k in Keys(d) && !ParsesAt(d, k)
    ensures ParsePayload(d).fault.Some?
  {
    ParseEffect(d);
  }
}

=== FILE: json.dfy ===
/** `json.dumps` with its default settings (`ensure_ascii=True`, separators `", "` and
    `": "`, `allow_nan=True`), for the dicts of entity values this client serialises. */
module Json {
  import opened Wrappers
  import opened Text
  import opened Dicts
  import opened Edm
  import EdmProperties

  /** Printable ASCII, the only characters an ASCII-only encoding emits. */
  predicate Printable(c: char) {
    ' ' <= c <= '~'
  }

  predicate AllPrintable(s: string) {
    forall i :: 0 <= i < |s| ==> Printable(s[i])
  }

  /** Characters written unchanged inside a string literal. */
  predicate PassThrough(c: char) {
    Printable(c) && c != '"' && c != '\\'
  }

  /** Four lower-case hexadecimal digits, as `'{0:04x}'` prints them. */
  function Hex4(n: nat): (s: string)
    requires n < 0x10000
    ensures |s| == 4 && AllPrintable(s)
  {
    var q1 := n / 16;
    var q2 := q1 / 16;
    var q3 := q2 / 16;
    HexDigitRoundTrip(q3);
    HexDigitRoundTrip(q2 % 16);
    HexDigitRoundTrip(q1 % 16);
    HexDigitRoundTrip(n % 16);
    [HexDigit(q3), HexDigit(q2 % 16), HexDigit(q1 % 16), HexDigit(n % 16)]
  }

  /** One character of a string as the ASCII encoder writes it: a short escape for the
      quote, the backslash and five control characters, `\uXXXX` for everything else
      outside printable ASCII, and a surrogate pair above the Basic Multilingual Plane. */
  function EscapeChar(c: char): (r: string)
    ensures |r| > 0 && AllPrintable(r)
  {
    if PassThrough(c) then [c]
    else if c == '\\' then "\\\\"
    else if c == '"' then "\\\""
    else if c as int == 8 then "\\b"
    else if c as int == 12 then "\\f"
    else if c == '\n' then "\\n"
    else if c == '\r' then "\\r"
    else if c == '\t' then "\\t"
    else if c as int < 0x10000 then "\\u" + Hex4(c as int)
    else
      var n := c as int - 0x10000;
      "\\u" + Hex4(0xD800 + n / 0x400) + "\\u" + Hex4(0xDC00 + n % 0x400)
  }

  /** The characters of a string literal between its quotes. */
  function Escape(s: string): (r: string)
    ensures AllPrintable(r)
    decreases |s|
  {
    if s == [] then "" else EscapeChar(s[0]) + Escape(s[1..])
  }

  /** A string as a JSON string literal. */
  function Quote(s: string): (r: string)
    ensures AllPrintable(r) && |r| >= 2 && r[0] == '"' && r[|r| - 1] == '"'
  {
    "\"" + Escape(s) + "\""
  }

  // ---------------------------------------------------------------- decoding string literals

  /** The value of four hexadecimal digits, either case. */
  function HexValue4(s: string): Option<nat>
    requires |s| == 4
  {
    if IsHexDigit(s[0]) && IsHexDigit(s[1]) && IsHexDigit(s[2]) && IsHexDigit(s[3]) then
      Some(HexValue(s[0]) * 0x1000 + HexValue(s[1]) * 0x100 + HexValue(s[2]) * 16 + HexValue(s[3]))
    else None
  }

  /** The character a one-letter escape stands for. */
  function ShortEscape(c: char): Option<char> {
    if c == '"' then Some('"')
    else if c == '\\' then Some('\\')
    else if c == '/' then Some('/')
    else if c == 'b' then Some(8 as char)
    else if c == 'f' then Some(12 as char)
    else if c == 'n' then Some('\n')
    else if c == 'r' then Some('\r')
    else if c == 't' then Some('\t')
    else None
  }

  function Cons(c: char, rest: Option<string>): Option<string> {
    if rest.None? then None else Some([c] + rest.value)
  }

  /** The text between the quotes of a JSON string literal, decoded as `json.loads` does.
      A bare quote or control character, an unknown escape and an unpaired surrogate
      escape are refused (Python would keep the lone surrogate; a Dafny string cannot). */
  function Unescape(s: string): Option<string>
    decreases |s|
  {
    if s == [] then Some("")
    else if s[0] == '"' || s[0] as int < 0x20 then None
    else if s[0] != '\\' then Cons(s[0], Unescape(s[1..]))
    else if |s| < 2 then None
    else if s[1] != 'u' then
      var e := ShortEscape(s[1]);
      if e.None? then None else Cons(e.value, Unescape(s[2..]))
    else if |s| < 6 || HexValue4(s[2..6]).None? then None
    else
      var hi := HexValue4(s[2..6]).value;
      if hi < 0xD800 || 0xE000 <= hi then Cons(hi as char, Unescape(s[6..]))
      else if 0xDC00 <= hi then None
      else if |s| < 12 || s[6] != '\\' || s[7] != 'u' || HexValue4(s[8..12]).None? then None
      else
        var lo := HexValue4(s[8..12]).value;
        if lo < 0xDC00 || 0xE000 <= lo then None
        else Cons((0x10000 + (hi - 0xD800) * 0x400 + (lo - 0xDC00)) as char, Unescape(s[12..]))
  }

  lemma Hex4RoundTrip(n: nat)
    requires n < 0x10000
    ensures HexValue4(Hex4(n)) == Some(n)
  {
    var q1 := n / 16;
    var q2 := q1 / 16;
    var q3 := q2 / 16;
    HexDigitRoundTrip(q3);
    HexDigitRoundTrip(q2 % 16);
    HexDigitRoundTrip(q1 % 16);
    HexDigitRoundTrip(n % 16);
    assert n == q1 * 16 + n % 16;
    assert q1 == q2 * 16 + q1 % 16;
    assert q2 == q3 * 16 + q2 % 16;
  }

  lemma UnescapePassThrough(c: char, t: string)
    requires PassThrough(c)
    ensures Unescape(EscapeChar(c) + t) == Cons(c, Unescape(t))
  {
    assert (EscapeChar(c) + t)[1..] == t;
  }

  lemma UnescapeShort(c: char, t: string)
    requires !PassThrough(c)
    requires c == '\\' || c == '"' || c as int == 8 || c as int == 12 || c == '\n' || c == '\r' || c == '\t'
    ensures Unescape(EscapeChar(c) + t) == Cons(c, Unescape(t))
  {
    var s := EscapeChar(c) + t;
    assert s[2..] == t;
    assert s[0] == '\\' && s[1] != 'u';
    assert ShortEscape(s[1]) == Some(c);
  }

  lemma UnescapeBmp(c: char, t: string)
    requires !PassThrough(c)
    requires !(c == '\\' || c == '"' || c as int == 8 || c as int == 12 || c == '\n' || c == '\r' || c == '\t')
    requires c as int < 0x10000
    ensures Unescape(EscapeChar(c) + t) == Cons(c, Unescape(t))
  {
    var s := EscapeChar(c) + t;
    assert EscapeChar(c) == "\\u" + Hex4(c as int);
    Hex4RoundTrip(c as int);
    assert s[2..6] == Hex4(c as int);
    assert s[6..] == t;
  }

  /** Where the parts of two `\u` escapes followed by `t` sit. */
  lemma PairLayout(a: string, b: string, t: string)
    requires |a| == 4 && |b| == 4
    ensures var s := "\\u" + a + "\\u" + b + t;
      |s| >= 12 && s[0] == '\\' && s[1] == 'u' && s[6] == '\\' && s[7] == 'u'
      && s[2..6] == a && s[8..12] == b && s[12..] == t
  {
    var s := "\\u" + a + "\\u" + b + t;
    assert s == "\\u" + (a + ("\\u" + (b + t)));
  }

  lemma EscapePairShape(c: char)
    requires c as int >= 0x10000
    ensures var n := c as int - 0x10000;
      EscapeChar(c) == "\\u" + Hex4(0xD800 + n / 0x400) + "\\u" + Hex4(0xDC00 + n % 0x400)
  {
  }

  /** The text of a surrogate pair escape: two `\u` escapes of four hexadecimal digits. */
  lemma PairText(c: char, t: string)
    requires c as int >= 0x10000
    ensures var s := EscapeChar(c) + t; var n := c as int - 0x10000;
      |s| >= 12 && s[0] == '\\' && s[1] == 'u' && s[6] == '\\' && s[7] == 'u' && s[12..] == t
      && HexValue4(s[2..6]) == Some(0xD800 + n / 0x400)
      && HexValue4(s[8..12]) == Some(0xDC00 + n % 0x400)
  {
    var n := c as int - 0x10000;
    var hi := 0xD800 + n / 0x400;
    var lo := 0xDC00 + n % 0x400;
    EscapePairShape(c);
    PairLayout(Hex4(hi), Hex4(lo), t);
    Hex4RoundTrip(hi);
    Hex4RoundTrip(lo);
  }

  lemma UnescapePair(c: char, t: string)
    requires c as int >= 0x10000
    ensures Unescape(EscapeChar(c) + t) == Cons(c, Unescape(t))
  {
    var n := c as int - 0x10000;
    PairText(c, t);
    assert 0x10000 + (n / 0x400) * 0x400 + n % 0x400 == c as int;
  }

  /** Decoding one escaped character then the rest decodes that character then the rest. */
  lemma UnescapeChar(c: char, t: string)
    ensures Unescape(EscapeChar(c) + t) == Cons(c, Unescape(t))
  {
    if PassThrough(c) {
      UnescapePassThrough(c, t);
    } else if c == '\\' || c == '"' || c as int == 8 || c as int == 12 || c == '\n' || c == '\r' || c == '\t' {
      UnescapeShort(c, t);
    } else if c as int < 0x10000 {
      UnescapeBmp(c, t);
    } else {
      UnescapePair(c, t);
    }
  }

  /** Decoding what the encoder wrote gives back the original string. */
  lemma {:induction false} EscapeRoundTrip(s: string)
    ensures Unescape(Escape(s)) == Some(s)
    decreases |s|
  {
    if s != [] {
      EscapeRoundTrip(s[1..]);
      UnescapeChar(s[0], Escape(s[1..]));
      assert [s[0]] + s[1..] == s;
    }
  }

  // ---------------------------------------------------------------- documents

  /** One value: text quoted, booleans as `true`/`false`, integers in decimal, floats by
      their `repr` with `NaN` and the infinities spelled as JavaScript does. UUIDs and
      datetimes are not serialisable and raise TypeError. */
  function EncodeValue(v: Value): (r: Result<string, Fault>)
    ensures r.Err? <==> v.Guid? || v.DateTime?
    ensures r.Err? ==> r.error == TypeError
  {
    match v
    case Str(s) => Ok(Quote(s))
    case Int(i) => Ok(IntToString(i))
    case Bool(b) => Ok(if b then "true" else "false")
    case Float(repr) =>
      Ok(if repr == "nan" then "NaN" else if repr == "inf" then "Infinity"
         else if repr == "-inf" then "-Infinity" else repr)
    case Guid(_) => Err(TypeError)
    case DateTime(_) => Err(TypeError)
  }

  /** `"key": value` for each entry in order, stopping at the first value that raises. */
  function Items(d: Dict<Value>): Result<seq<string>, Fault>
    decreases |d|
  {
    if d == [] then Ok([])
    else
      match EncodeValue(d[0].1)
      case Err(e) => Err(e)
      case Ok(v) =>
        match Items(d[1..])
        case Err(e) => Err(e)
        case Ok(rest) => Ok([Quote(d[0].0) + ": " + v] + rest)
  }

  /** `json.dumps(d)`. */
  function Dumps(d: Dict<Value>): Result<string, Fault> {
    match Items(d)
    case Err(e) => Err(e)
    case Ok(items) => Ok("{" + Join(", ", items) + "}")
  }

  /** A value `json.dumps` cannot write. */
  predicate Unserialisable(v: Value) {
    v.Guid? || v.DateTime?
  }

  lemma {:induction false} ItemsOk(d: Dict<Value>)
    ensures Items(d).Ok? <==> forall i :: 0 <= i < |d| ==> !Unserialisable(d[i].1)
    ensures Items(d).Ok? ==> |Items(d).value| == |d|
    decreases |d|
  {
    if d != [] {
      ItemsOk(d[1..]);
      assert forall i :: 1 <= i < |d| ==> d[i] == d[1..][i - 1];
    }
  }

  /** `json.dumps` succeeds exactly when no value is a UUID or a datetime, and then it
      raises nothing; otherwise it raises TypeError. */
  lemma DumpsOk(d: Dict<Value>)
    ensures Dumps(d).Ok? <==> forall i :: 0 <= i < |d| ==> !Unserialisable(d[i].1)
    ensures Dumps(d).Err? ==> Dumps(d).error == TypeError
  {
    ItemsOk(d);
    if Items(d).Err? {
      ItemsFault(d);
    }
  }

  /** A one-entry dict is written as `{"k": v}`. */
  lemma DumpsSingle(k: string, v: Value)
    requires !Unserialisable(v)
    ensures Dumps([(k, v)]) == Ok("{" + Quote(k) + ": " + EncodeValue(v).value + "}")
  {
    var item := Quote(k) + ": " + EncodeValue(v).value;
    ItemsSingle(k, v);
    assert Join(", ", [item]) == item;
    assert "{" + item + "}" == "{" + Quote(k) + ": " + EncodeValue(v).value + "}";
  }

  lemma ItemsSingle(k: string, v: Value)
    requires !Unserialisable(v)
    ensures Items([(k, v)]) == Ok([Quote(k) + ": " + EncodeValue(v).value])
  {
    var d := [(k, v)];
    assert d != [] && d[1..] == [] && Items(d[1..]) == Ok([]);
    assert d[0].0 == k && EncodeValue(d[0].1) == Ok(EncodeValue(v).value);
    var item := Quote(k) + ": " + EncodeValue(v).value;
    assert Items(d) == Ok([item] + []);
    assert [item] + [] == [item];
  }

  lemma {:induction false} ItemsFault(d: Dict<Value>)
    ensures Items(d).Err? ==> Items(d).error == TypeError
    decreases |d|
  {
    if d != [] {
      ItemsFault(d[1..]);
    }
  }

  /** Float texts that are printable, as every `repr` of a float is. */
  predicate FloatsPrintable(d: Dict<Value>) {
    forall i :: 0 <= i < |d| ==> d[i].1.Float? ==> AllPrintable(d[i].1.repr)
  }

  lemma AllPrintableJoin(sep: string, parts: seq<string>)
    requires AllPrintable(sep)
    requires forall i :: 0 <= i < |parts| ==> AllPrintable(parts[i])
    ensures AllPrintable(Join(sep, parts))
    decreases |parts|
  {
    if |parts| > 1 {
      AllPrintableJoin(sep, parts[1..]);
    }
  }

  lemma EncodePrintable(v: Value)
    requires v.Float? ==> AllPrintable(v.repr)
    ensures EncodeValue(v).Ok? ==> AllPrintable(EncodeValue(v).value)
  {
    if v.Int? {
      var n := NatToString(if v.i < 0 then -v.i else v.i);
      assert forall i :: 0 <= i < |n| ==> Printable(n[i]);
      assert IntToString(v.i) == if v.i < 0 then "-" + n else n;
    }
  }

  lemma {:induction false} ItemsPrintable(d: Dict<Value>)
    requires FloatsPrintable(d)
    ensures Items(d).Ok? ==> forall i :: 0 <= i < |Items(d).value| ==> AllPrintable(Items(d).value[i])
    decreases |d|
  {
    if d != [] {
      assert FloatsPrintable(d[1..]) by {
        assert forall i :: 1 <= i < |d| ==> d[i] == d[1..][i - 1];
      }
      ItemsPrintable(d[1..]);
      EncodePrintable(d[0].1);
      if Items(d).Ok? {
        var rest := Items(d[1..]).value;
        var item := Quote(d[0].0) + ": " + EncodeValue(d[0].1).value;
        assert Items(d).value == [item] + rest;
        PrintableConcat(Quote(d[0].0), ": ", EncodeValue(d[0].1).value);
        forall i | 0 <= i < |Items(d).value| ensures AllPrintable(Items(d).value[i]) {
          if i > 0 {
            assert Items(d).value[i] == rest[i - 1];
          }
        }
      }
    }
  }

  lemma PrintableConcat(a: string, b: string, c: string)
    requires AllPrintable(a) && AllPrintable(b) && AllPrintable(c)
    ensures AllPrintable(a + b + c)
  {
    var s := a + b + c;
    forall i | 0 <= i < |s| ensures Printable(s[i]) {
      if i < |a| {
        assert s[i] == a[i];
      } else if i < |a| + |b| {
        assert s[i] == b[i - |a|];
      } else {
        assert s[i] == c[i - |a| - |b|];
      }
    }
  }

  /** With `ensure_ascii` the document is printable ASCII, so it holds no line break:
      each entity is exactly one line of a `$batch` body. */
  lemma DumpsOneLine(d: Dict<Value>)
    requires FloatsPrintable(d)
    requires Dumps(d).Ok?
    ensures AllPrintable(Dumps(d).value)
    ensures '\n' !in Dumps(d).value
  {
    ItemsPrintable(d);
    AllPrintableJoin(", ", Items(d).value);
    var s := Dumps(d).value;
    assert forall i :: 0 <= i < |s| ==> s[i] != '\n';
  }

  /** Every dict that `_annotate_payload` leaves behind can be serialised. */
  lemma AnnotatedSerialisable(d: Dict<Value>, now: string)
    requires Valid(d)
    ensures Dumps(Annotated(d, now)).Ok?
  {
    var a := Annotated(d, now);
    EdmProperties.AnnotatedUntyped(d, now);
    EdmProperties.AnnotateKeysValid(d, Keys(d), now);
    forall i | 0 <= i < |a| ensures !Unserialisable(a[i].1) {
      GetAt(a, i);
      assert !EdmProperties.TypedAt(a, a[i].0);
    }
    DumpsOk(a);
  }
}

=== FILE: paging.dfy ===
/** The listing loops of the table client: `getTables` (in both clients) and
    `queryEntities`. Each is a `while True` loop that sends a signed GET for the current
    query, yields the `value` list of a 200 reply, and then either stops or writes the
    reply's continuation markers into the caller's `query` dict and asks again. The service
    is modelled as the sequence of replies it gives, one per request, each paired with what
    the clock and `uuid1()` returned when that request was signed. */
module Paging {
  import opened Wrappers
  import opened Dicts
  import opened Text
  import opened Urls
  import opened SharedKey
  import opened Tables

  type Query = Dict<Option<string>>

  /** One reply: its status, the `value` list of its JSON body, its headers. */
  datatype Page<T> = Page(status: int, value: seq<T>, headers: Headers)

  /** One round trip: the stamp the request was signed with and the reply it got. */
  datatype Turn<T> = Turn(stamp: Stamp, reply: Page<T>)

  /** `getTables` follows one marker, `queryEntities` follows two. */
  datatype Rule = TableListing | EntityListing

  /** Why the loop ended: a reply without continuation, a refusal, or (a limit of the
      model, not of the client) no further reply to consume. */
  datatype End = Finished | Refused(status: int) | OutOfReplies

  /** What a listing does, apart from its query: the items yielded, the continuation
      merged into the query after each reply that continued, and why it ended. Which
      replies continue does not depend on the query, so neither does this. */
  datatype Trace<T> = Trace(items: seq<T>, conts: seq<Query>, end: End)

  function Marker(name: string): string {
    "x-ms-continuation-" + name
  }

  /** The query entries the next request carries, or None when the listing is complete.
      `getTables` stops on a missing or empty `NextTableName`; `queryEntities` stops only
      when both of its markers are missing, and otherwise writes both, absent ones as None. */
  function Continuation(rule: Rule, h: Headers): Option<Query> {
    match rule
    case TableListing =>
      var c := Get(h, Marker("NextTableName"));
      if c.None? || c.value == "" then None else Some([("NextTableName", c)])
    case EntityListing =>
      var pk := Get(h, Marker("NextPartitionKey"));
      var rk := Get(h, Marker("NextRowKey"));
      if pk.None? && rk.None? then None else Some([("NextPartitionKey", pk), ("NextRowKey", rk)])
  }

  /** The query keys a rule may write. */
  function MarkerKeys(rule: Rule): seq<string> {
    match rule
    case TableListing => ["NextTableName"]
    case EntityListing => ["NextPartitionKey", "NextRowKey"]
  }

  /** A reply after which the loop asks again. */
  predicate Continues<T>(rule: Rule, turn: Turn<T>) {
    turn.reply.status == 200 && Continuation(rule, turn.reply.headers).Some?
  }

  /** The GET sent for the current query. */
  function ListRequest(t: TableClient, s: Stamp, base: string, canon: string, q: Query): Request {
    Request("GET", WithQuery(base, q), SignForTables(t, s, canon, ""), "")
  }

  /** The listing as a function of the replies: the reference the loop is proved against. */
  function Run<T>(rule: Rule, turns: seq<Turn<T>>): Trace<T>
    decreases |turns|
  {
    if turns == [] then Trace([], [], OutOfReplies)
    else
      var page := turns[0].reply;
      if page.status != 200 then Trace([], [], Refused(page.status))
      else
        match Continuation(rule, page.headers)
        case None => Trace(page.value, [], Finished)
        case Some(u) =>
          var rest := Run(rule, turns[1..]);
          Trace(page.value + rest.items, [u] + rest.conts, rest.end)
  }

  /** How many replies a listing consumes, which is how many requests it sends. */
  function Consumed<T>(o: Trace<T>): nat {
    |o.conts| + if o.end.OutOfReplies? then 0 else 1
  }

  /** The caller's query after the continuations `conts` were merged into it in turn. */
  function Fold(q: Query, conts: seq<Query>): Query
    decreases |conts|
  {
    if conts == [] then q else Fold(Merge(q, conts[0]), conts[1..])
  }

  /** Request `j` is the GET for the query as it stood after `j` continuations, signed
      with turn `j`'s stamp. */
  ghost predicate SentFor<T>(t: TableClient, base: string, canon: string, turns: seq<Turn<T>>,
                             q: Query, conts: seq<Query>, sent: seq<Request>)
  {
    |sent| <= |turns| && |sent| <= |conts| + 1
    && forall j :: 0 <= j < |sent| ==> sent[j] == ListRequest(t, turns[j].stamp, base, canon, Fold(q, conts[..j]))
  }

  /** What is already produced, followed by what the rest of the listing produces. */
  function Then<T>(items: seq<T>, conts: seq<Query>, o: Trace<T>): Trace<T> {
    Trace(items + o.items, conts + o.conts, o.end)
  }

  /** The `value` lists of the 200 replies, in order. */
  function Values<T>(turns: seq<Turn<T>>): seq<T>
    decreases |turns|
  {
    if turns == [] then []
    else (if turns[0].reply.status == 200 then turns[0].reply.value else []) + Values(turns[1..])
  }

  // ---------------------------------------------------------------- the loop

  /** `for item in value: yield item`. */
  method YieldAll<T>(items: seq<T>, value: seq<T>) returns (items': seq<T>)
    ensures items' == items + value
  {
    items' := items;
    for j := 0 to |value|
      invariant items' == items + value[..j]
    {
      items' := items' + [value[j]];
    }
    assert value[..|value|] == value;
  }

  /** The end of one pass over a 200 reply: read its continuation headers and either stop
      or write them into the caller's query. */
  method Follow(rule: Rule, h: Headers, query: PyDict<Option<string>>) returns (more: bool)
    modifies query
    ensures more <==> Continuation(rule, h).Some?
    ensures more ==> query.entries == Merge(old(query.entries), Continuation(rule, h).value)
    ensures !more ==> query.entries == old(query.entries)
  {
    match rule {
      case TableListing =>
        var cont := Get(h, Marker("NextTableName"));
        if cont.None? || cont.value == "" {
          return false;
        }
        MergeShort(query.entries, "NextTableName", cont, "", None);
        query.Set("NextTableName", cont);
      case EntityListing =>
        var pk := Get(h, Marker("NextPartitionKey"));
        var rk := Get(h, Marker("NextRowKey"));
        if pk.None? && rk.None? {
          return false;
        }
        MergeShort(query.entries, "NextPartitionKey", pk, "NextRowKey", rk);
        query.Set("NextPartitionKey", pk);
        query.Set("NextRowKey", rk);
    }
    return true;
  }

  /** One pass of the loop: send the GET for the current query, yield the items of a 200
      reply, and follow its continuation if it has one. */
  method Pass<T>(t: TableClient, rule: Rule, base: string, canon: string,
                 query: PyDict<Option<string>>, turn: Turn<T>, items: seq<T>)
    returns (items': seq<T>, req: Request, more: bool)
    modifies query
    ensures req == ListRequest(t, turn.stamp, base, canon, old(query.entries))
    ensures more <==> Continues(rule, turn)
    ensures items' == items + if turn.reply.status == 200 then turn.reply.value else []
    ensures more ==> query.entries == Merge(old(query.entries), Continuation(rule, turn.reply.headers).value)
    ensures !more ==> query.entries == old(query.entries)
  {
    req := ListRequest(t, turn.stamp, base, canon, query.entries);
    items' := items;
    more := false;
    if turn.reply.status == 200 {
      items' := YieldAll(items, turn.reply.value);
      more := Follow(rule, turn.reply.headers, query);
    }
  }

  /** The shared `while True` loop. `query` is the caller's dict (by default the one dict
      shared by every call) and is updated in place. */
  method Paginate<T>(t: TableClient, rule: Rule, base: string, canon: string,
                     query: PyDict<Option<string>>, turns: seq<Turn<T>>)
    returns (items: seq<T>, sent: seq<Request>, end: End)
    modifies query
    ensures items == Run(rule, turns).items && end == Run(rule, turns).end
    ensures query.entries == Fold(old(query.entries), Run(rule, turns).conts)
    ensures |sent| == Consumed(Run(rule, turns))
    ensures SentFor(t, base, canon, turns, old(query.entries), Run(rule, turns).conts, sent)
  {
    items := [];
    sent := [];
    end := OutOfReplies;
    ghost var conts: seq<Query> := [];
    var i := 0;
    var running := true;
    while running && i < |turns|
      invariant 0 <= i <= |turns| && |sent| == i
      invariant query.entries == Fold(old(query.entries), conts)
      invariant SentFor(t, base, canon, turns, old(query.entries), conts, sent)
      invariant running ==> end == OutOfReplies && |conts| == i
                            && Run(rule, turns) == Then(items, conts, Run(rule, turns[i..]))
      invariant !running ==> |conts| + 1 == i && end != OutOfReplies && Run(rule, turns) == Trace(items, conts, end)
      decreases |turns| - i, running
    {
      var more, stop;
      items, sent, more, stop, conts := PaginateStep(t, rule, base, canon, query, turns, items, sent, conts, old(query.entries));
      if !more {
        end := stop;
        running := false;
      }
      i := i + 1;
    }
    if running {
      assert turns[i..] == [] && items + [] == items && conts + [] == conts;
    }
  }

  /** One pass of the loop: send the GET for the current query, collect the page, and
      either follow the continuation or stop. */
  method PaginateStep<T>(t: TableClient, rule: Rule, base: string, canon: string,
                         query: PyDict<Option<string>>, turns: seq<Turn<T>>,
                         items: seq<T>, sent: seq<Request>, ghost conts: seq<Query>, ghost q0: Query)
    returns (items': seq<T>, sent': seq<Request>, more: bool, end: End, ghost conts': seq<Query>)
    requires |sent| == |conts| < |turns|
    requires query.entries == Fold(q0, conts) && SentFor(t, base, canon, turns, q0, conts, sent)
    requires Run(rule, turns) == Then(items, conts, Run(rule, turns[|conts|..]))
    modifies query
    ensures |sent'| == |sent| + 1
    ensures query.entries == Fold(q0, conts') && SentFor(t, base, canon, turns, q0, conts', sent')
    ensures more ==> |conts'| == |sent'| && Run(rule, turns) == Then(items', conts', Run(rule, turns[|sent'|..]))
    ensures !more ==> |conts'| + 1 == |sent'| && end != OutOfReplies && Run(rule, turns) == Trace(items', conts', end)
  {
    var turn := turns[|sent|];
    SentSnoc(t, base, canon, turns, q0, conts, sent);
    var req;
    items', req, more := Pass(t, rule, base, canon, query, turn, items);
    sent' := sent + [req];
    end := OutOfReplies;
    conts' := conts;
    if more {
      var u := Continuation(rule, turn.reply.headers).value;
      Continued(rule, turns, q0, items, conts, u);
      SentExtend(t, base, canon, turns, q0, conts, u, sent');
      conts' := conts + [u];
    } else {
      end := if turn.reply.status == 200 then Finished else Refused(turn.reply.status);
      Stopped(rule, turns, items, conts);
    }
  }

  lemma Continued<T>(rule: Rule, turns: seq<Turn<T>>, q: Query, items: seq<T>, conts: seq<Query>, u: Query)
    requires |conts| < |turns| && Continues(rule, turns[|conts|])
    requires u == Continuation(rule, turns[|conts|].reply.headers).value
    requires Run(rule, turns) == Then(items, conts, Run(rule, turns[|conts|..]))
    ensures Run(rule, turns) == Then(items + turns[|conts|].reply.value, conts + [u], Run(rule, turns[|conts| + 1..]))
    ensures Fold(q, conts + [u]) == Merge(Fold(q, conts), u)
  {
    var i := |conts|;
    FoldSnoc(q, conts, u);
    RunContinues(rule, turns, i, u);
    ThenThen(items, conts, turns[i].reply.value, u, Run(rule, turns[i + 1..]));
  }

  /** The loop's bookkeeping for a reply that ends the listing. */
  lemma Stopped<T>(rule: Rule, turns: seq<Turn<T>>, items: seq<T>, conts: seq<Query>)
    requires |conts| < |turns| && !Continues(rule, turns[|conts|])
    requires Run(rule, turns) == Then(items, conts, Run(rule, turns[|conts|..]))
    ensures var page := turns[|conts|].reply;
      Run(rule, turns)
      == if page.status == 200 then Trace(items + page.value, conts, Finished)
         else Trace(items, conts, Refused(page.status))
  {
    RunStops(rule, turns, |conts|);
    assert conts + [] == conts && items + [] == items;
  }

  /** Sending the request for the current query extends the requests sent. */
  lemma SentSnoc<T>(t: TableClient, base: string, canon: string, turns: seq<Turn<T>>,
                    q: Query, conts: seq<Query>, sent: seq<Request>)
    requires SentFor(t, base, canon, turns, q, conts, sent) && |sent| == |conts| < |turns|
    ensures SentFor(t, base, canon, turns, q, conts, sent + [ListRequest(t, turns[|sent|].stamp, base, canon, Fold(q, conts))])
  {
    var sent' := sent + [ListRequest(t, turns[|sent|].stamp, base, canon, Fold(q, conts))];
    forall j | 0 <= j < |sent'| ensures sent'[j] == ListRequest(t, turns[j].stamp, base, canon, Fold(q, conts[..j])) {
      SentSnocAt(t, base, canon, turns, q, conts, sent, j);
    }
  }

  lemma SentSnocAt<T>(t: TableClient, base: string, canon: string, turns: seq<Turn<T>>,
                      q: Query, conts: seq<Query>, sent: seq<Request>, j: nat)
    requires SentFor(t, base, canon, turns, q, conts, sent) && |sent| == |conts| < |turns| && j <= |sent|
    ensures (sent + [ListRequest(t, turns[|sent|].stamp, base, canon, Fold(q, conts))])[j]
      == ListRequest(t, turns[j].stamp, base, canon, Fold(q, conts[..j]))
  {
    if j == |sent| {
      assert conts[..j] == conts;
    }
  }

  /** Recording one more continuation leaves the requests already sent as they were. */
  lemma SentExtend<T>(t: TableClient, base: string, canon: string, turns: seq<Turn<T>>,
                      q: Query, conts: seq<Query>, u: Query, sent: seq<Request>)
    requires SentFor(t, base, canon, turns, q, conts, sent)
    ensures SentFor(t, base, canon, turns, q, conts + [u], sent)
  {
    forall j | 0 <= j < |sent| ensures sent[j] == ListRequest(t, turns[j].stamp, base, canon, Fold(q, (conts + [u])[..j])) {
      assert (conts + [u])[..j] == conts[..j];
    }
  }

  lemma {:induction false} FoldSnoc(q: Query, conts: seq<Query>, u: Query)
    ensures Fold(q, conts + [u]) == Merge(Fold(q, conts), u)
    decreases |conts|
  {
    if conts == [] {
      assert ([u])[1..] == [];
    } else {
      FoldSnoc(Merge(q, conts[0]), conts[1..], u);
      assert (conts + [u])[1..] == conts[1..] + [u];
    }
  }

  /** A reply that continues the listing contributes its items and its continuation. */
  lemma RunContinues<T>(rule: Rule, turns: seq<Turn<T>>, i: nat, u: Query)
    requires i < |turns| && turns[i].reply.status == 200
    requires Continuation(rule, turns[i].reply.headers) == Some(u)
    ensures Run(rule, turns[i..]) == Then(turns[i].reply.value, [u], Run(rule, turns[i + 1..]))
  {
    assert turns[i..][1..] == turns[i + 1..];
  }

  /** A reply that ends the listing is the last one consumed. */
  lemma RunStops<T>(rule: Rule, turns: seq<Turn<T>>, i: nat)
    requires i < |turns|
    requires !Continues(rule, turns[i])
    ensures var page := turns[i].reply;
      Run(rule, turns[i..])
      == if page.status != 200 then Trace([], [], Refused(page.status)) else Trace(page.value, [], Finished)
  {
  }

  lemma ThenThen<T>(items: seq<T>, conts: seq<Query>, more: seq<T>, u: Query, o: Trace<T>)
    ensures Then(items, conts, Then(more, [u], o)) == Then(items + more, conts + [u], o)
  {
    assert items + (more + o.items) == (items + more) + o.items;
    assert conts + ([u] + o.conts) == (conts + [u]) + o.conts;
  }

  // ---------------------------------------------------------------- the two listings

  function TablesBase(t: TableClient): string { Host(t.client.account) + TablesPath() }

  function EntitiesBase(t: TableClient, table: string): string { Host(t.client.account) + QueryPath(table) }

  /** `getTables(query)`: lists `/Tables`, following `NextTableName`. */
  method GetTables<T>(t: TableClient, query: PyDict<Option<string>>, turns: seq<Turn<T>>)
    returns (items: seq<T>, sent: seq<Request>, end: End)
    modifies query
    ensures items == Run(TableListing, turns).items && end == Run(TableListing, turns).end
    ensures query.entries == Fold(old(query.entries), Run(TableListing, turns).conts)
    ensures |sent| == Consumed(Run(TableListing, turns))
    ensures SentFor(t, TablesBase(t), Canonical(t.client.account, TablesPath()), turns,
                    old(query.entries), Run(TableListing, turns).conts, sent)
  {
    items, sent, end := Paginate(t, TableListing, TablesBase(t), Canonical(t.client.account, TablesPath()), query, turns);
  }

  /** `queryEntities(table, query)`: lists `/{table}()`, following both entity markers. */
  method QueryEntities<T>(t: TableClient, table: string, query: PyDict<Option<string>>, turns: seq<Turn<T>>)
    returns (items: seq<T>, sent: seq<Request>, end: End)
    modifies query
    ensures items == Run(EntityListing, turns).items && end == Run(EntityListing, turns).end
    ensures query.entries == Fold(old(query.entries), Run(EntityListing, turns).conts)
    ensures |sent| == Consumed(Run(EntityListing, turns))
    ensures SentFor(t, EntitiesBase(t, table), Canonical(t.client.account, QueryPath(table)), turns,
                    old(query.entries), Run(EntityListing, turns).conts, sent)
  {
    items, sent, end := Paginate(t, EntityListing, EntitiesBase(t, table), Canonical(t.client.account, QueryPath(table)), query, turns);
  }

  // ---------------------------------------------------------------- properties of a listing

  /** One request per reply consumed; the items yielded are the `value` lists of those
      replies, in order. */
  lemma {:induction false} RunItems<T>(rule: Rule, turns: seq<Turn<T>>)
    ensures Consumed(Run(rule, turns)) <= |turns|
    ensures Run(rule, turns).items == Values(turns[..Consumed(Run(rule, turns))])
    decreases |turns|
  {
    if turns != [] {
      if Continues(rule, turns[0]) {
        var rest := Run(rule, turns[1..]);
        RunItems(rule, turns[1..]);
        var n := Consumed(rest);
        assert Run(rule, turns).items == turns[0].reply.value + rest.items;
        assert Consumed(Run(rule, turns)) == n + 1;
        assert turns[..n + 1][0] == turns[0] && turns[..n + 1][1..] == turns[1..][..n];
      } else {
        assert turns[..1][1..] == [];
      }
    }
  }

  /** The continuations merged are those of the first replies, each of which continued. */
  ghost predicate ContinuationsOf<T>(rule: Rule, turns: seq<Turn<T>>, conts: seq<Query>) {
    |conts| <= |turns|
    && forall j :: 0 <= j < |conts| ==>
         Continues(rule, turns[j]) && conts[j] == Continuation(rule, turns[j].reply.headers).value
  }

  lemma {:induction false} RunConts<T>(rule: Rule, turns: seq<Turn<T>>)
    ensures ContinuationsOf(rule, turns, Run(rule, turns).conts)
    decreases |turns|
  {
    if turns != [] && Continues(rule, turns[0]) {
      var rest := Run(rule, turns[1..]);
      RunConts(rule, turns[1..]);
      var conts := Run(rule, turns).conts;
      forall j | 0 < j < |conts|
        ensures Continues(rule, turns[j]) && conts[j] == Continuation(rule, turns[j].reply.headers).value
      {
        assert turns[j] == turns[1..][j - 1] && conts[j] == rest.conts[j - 1];
      }
    }
  }

  /** The listing runs out of replies only when every reply continued, and then it has
      followed one continuation per reply. */
  lemma {:induction false} RunEnds<T>(rule: Rule, turns: seq<Turn<T>>)
    ensures var o := Run(rule, turns);
      (o.end.OutOfReplies? <==> forall j :: 0 <= j < |turns| ==> Continues(rule, turns[j]))
      && (o.end.OutOfReplies? ==> |o.conts| == |turns|)
    decreases |turns|
  {
    if turns != [] && Continues(rule, turns[0]) {
      RunEnds(rule, turns[1..]);
      assert forall j :: 1 <= j < |turns| ==> turns[j] == turns[1..][j - 1];
    }
  }

  /** Otherwise the listing stops at the first reply that does not continue: refused when
      it is not a 200, finished when it is a 200 without continuation. */
  lemma {:induction false} RunHalts<T>(rule: Rule, turns: seq<Turn<T>>)
    ensures var o := Run(rule, turns);
      var n := |o.conts|;
      (o.end.Refused? ==> n < |turns| && turns[n].reply.status == o.end.status && o.end.status != 200)
      && (o.end.Finished? ==> n < |turns| && turns[n].reply.status == 200
                              && Continuation(rule, turns[n].reply.headers).None?)
    decreases |turns|
  {
    if turns != [] && Continues(rule, turns[0]) {
      RunHalts(rule, turns[1..]);
    }
  }

  /** Following a continuation writes each marker header into the query under the marker's
      name (an absent entity marker as None), leaves every other key alone and keeps the
      existing keys in their order. */
  lemma ContinuationEffect(rule: Rule, h: Headers, q: Query)
    requires Continuation(rule, h).Some?
    ensures var q' := Merge(q, Continuation(rule, h).value);
      (forall k :: k in MarkerKeys(rule) ==> Get(q', k) == Some(Get(h, Marker(k))))
      && (forall k :: k !in MarkerKeys(rule) ==> Get(q', k) == Get(q, k))
      && Keys(q) <= Keys(q')
      && MarkerKeys(rule)[0] in Keys(q')
  {
    match rule {
      case TableListing =>
        var c := Get(h, Marker("NextTableName"));
        MergeOne(q, "NextTableName", c);
        PutEffect(q, "NextTableName", c);
      case EntityListing =>
        var pk := Get(h, Marker("NextPartitionKey"));
        var rk := Get(h, Marker("NextRowKey"));
        MergeShort(q, "NextPartitionKey", pk, "NextRowKey", rk);
        EntityMarkersEffect(q, pk, rk);
    }
  }

  /** An assignment keeps the existing keys in order and adds its own. */
  lemma PutEffect<V>(q: Dict<V>, k: string, v: V)
    ensures Keys(q) <= Keys(Put(q, k, v)) && k in Keys(Put(q, k, v))
  {
  }

  /** Writing both entity markers sets each and leaves every other key alone. */
  lemma EntityMarkersEffect(q: Query, pk: Option<string>, rk: Option<string>)
    ensures var q' := Put(Put(q, "NextPartitionKey", pk), "NextRowKey", rk);
      Get(q', "NextPartitionKey") == Some(pk) && Get(q', "NextRowKey") == Some(rk)
      && (forall k :: k != "NextPartitionKey" && k != "NextRowKey" ==> Get(q', k) == Get(q, k))
      && Keys(q) <= Keys(q') && "NextPartitionKey" in Keys(q')
  {
    assert "NextPartitionKey"[4] != "NextRowKey"[4];
    PutEffect(q, "NextPartitionKey", pk);
    PutEffect(Put(q, "NextPartitionKey", pk), "NextRowKey", rk);
  }

  /** The caller's query keeps its keys in order and its other entries; once a
      continuation has been followed it holds the first marker. */
  lemma {:induction false} FoldQuery<T>(rule: Rule, turns: seq<Turn<T>>, q: Query, conts: seq<Query>)
    requires ContinuationsOf(rule, turns, conts)
    ensures Keys(q) <= Keys(Fold(q, conts))
    ensures forall k :: k !in MarkerKeys(rule) ==> Get(Fold(q, conts), k) == Get(q, k)
    ensures (|conts| > 0 || MarkerKeys(rule)[0] in Keys(q)) ==> MarkerKeys(rule)[0] in Keys(Fold(q, conts))
    decreases |conts|
  {
    if conts != [] {
      ContinuationsTail(rule, turns, conts);
      ContinuationEffect(rule, turns[0].reply.headers, q);
      assert Fold(q, conts) == Fold(Merge(q, conts[0]), conts[1..]);
      FoldQuery(rule, turns[1..], Merge(q, conts[0]), conts[1..]);
    }
  }

  lemma ContinuationsTail<T>(rule: Rule, turns: seq<Turn<T>>, conts: seq<Query>)
    requires ContinuationsOf(rule, turns, conts) && conts != []
    ensures Continues(rule, turns[0]) && conts[0] == Continuation(rule, turns[0].reply.headers).value
    ensures ContinuationsOf(rule, turns[1..], conts[1..])
  {
    forall j | 0 <= j < |conts[1..]|
      ensures Continues(rule, turns[1..][j]) && conts[1..][j] == Continuation(rule, turns[1..][j].reply.headers).value
    {
      assert turns[1..][j] == turns[j + 1];
    }
  }

  /** After a continuation, the markers in the query are those of the last reply that
      continued. */
  lemma FoldLast<T>(rule: Rule, turns: seq<Turn<T>>, q: Query, conts: seq<Query>)
    requires ContinuationsOf(rule, turns, conts) && |conts| > 0
    ensures forall k :: k in MarkerKeys(rule) ==>
      Get(Fold(q, conts), k) == Some(Get(turns[|conts| - 1].reply.headers, Marker(k)))
  {
    var n := |conts| - 1;
    var h := turns[n].reply.headers;
    FoldLastStep(q, conts);
    assert conts[n] == Continuation(rule, h).value;
    ContinuationEffect(rule, h, Fold(q, conts[..n]));
  }

  lemma FoldLastStep(q: Query, conts: seq<Query>)
    requires |conts| > 0
    ensures Fold(q, conts) == Merge(Fold(q, conts[..|conts| - 1]), conts[|conts| - 1])
  {
    var n := |conts| - 1;
    FoldSnoc(q, conts[..n], conts[n]);
    assert conts[..n] + [conts[n]] == conts;
  }

  /** With a base URI free of `?`, the first request carries a `?` exactly when the
      starting query is non-empty, and every later request carries one. */
  lemma SentUris<T>(t: TableClient, rule: Rule, base: string, canon: string, turns: seq<Turn<T>>,
                    q: Query, sent: seq<Request>)
    requires '?' !in base
    requires SentFor(t, base, canon, turns, q, Run(rule, turns).conts, sent)
    ensures forall j :: 0 <= j < |sent| ==> ('?' in sent[j].uri <==> j > 0 || |q| > 0)
  {
    var conts := Run(rule, turns).conts;
    RunConts(rule, turns);
    forall j | 0 <= j < |sent| ensures '?' in sent[j].uri <==> j > 0 || |q| > 0 {
      SentUriAt(t, rule, base, canon, turns, q, conts, sent, j);
    }
  }

  /** Request `j` alone. */
  lemma SentUriAt<T>(t: TableClient, rule: Rule, base: string, canon: string, turns: seq<Turn<T>>,
                     q: Query, conts: seq<Query>, sent: seq<Request>, j: nat)
    requires '?' !in base
    requires ContinuationsOf(rule, turns, conts) && SentFor(t, base, canon, turns, q, conts, sent)
    requires j < |sent|
    ensures '?' in sent[j].uri <==> j > 0 || |q| > 0
  {
    assert ContinuationsOf(rule, turns, conts[..j]);
    FoldQuery(rule, turns, q, conts[..j]);
    if j == 0 {
      assert conts[..j] == [];
    }
    WithQueryMark(base, Fold(q, conts[..j]));
  }

  /** `getTables` treats an empty `NextTableName` as the end. */
  lemma EmptyTableMarker()
    ensures Continuation(TableListing, [(Marker("NextTableName"), "")]).None?
  {
  }

  /** `queryEntities` follows an empty `NextPartitionKey`, writing the missing `NextRowKey`
      as None. */
  lemma EmptyEntityMarker()
    ensures Continuation(EntityListing, [(Marker("NextPartitionKey"), "")])
      == Some([("NextPartitionKey", Some("")), ("NextRowKey", None)])
  {
    var h: Headers := [(Marker("NextPartitionKey"), "")];
    assert Get(h, Marker("NextRowKey")) == None by {
      assert Marker("NextRowKey")[22] != Marker("NextPartitionKey")[22];
    }
  }

  /** A None written into the query is spelled `None` in the next URI. */
  lemma NoneSpelled(k: string)
    ensures UrlEncode([(k, None)]) == QuotePlus(k) + "=None"
  {
    var q: Query := [(k, None)];
    assert q[1..] == [];
    QuotePlusUnreserved("None");
  }

  /** The default `query={}` is one dict shared by every call: once a listing has followed
      a continuation, the next listing started with that dict asks with a query at once. */
  lemma SharedQueryResumes<T>(t: TableClient, rule: Rule, base: string, canon: string,
                              turns: seq<Turn<T>>, q: Query, s: Stamp)
    requires '?' !in base
    requires |Run(rule, turns).conts| > 0
    ensures '?' in ListRequest(t, s, base, canon, Fold(q, Run(rule, turns).conts)).uri
  {
    RunConts(rule, turns);
    FoldQuery(rule, turns, q, Run(rule, turns).conts);
    WithQueryMark(base, Fold(q, Run(rule, turns).conts));
  }
}

=== FILE: queues.dfy ===
/** The queue client, `QueueClient` in aioazstorage/queues.py: its default headers, the
    blob/queue signing scheme applied to them, queue creation and deletion, the XML
    envelope around a message and the request `putMessage` sends. */
module Queues {
  import opened Wrappers
  import opened Text
  import opened Dicts
  import opened Urls
  import opened SharedKey

  const QueueContentType := "text/plain; charset=UTF-8"
  const QueueAccept := "application/json;odata=nometadata"

  /** `_headers(date)` of the queue client. */
  function QueueHeaders(date: HttpDate): Headers {
    [("x-ms-date", date), ("x-ms-version", ApiVersion), ("Content-Type", QueueContentType), ("Accept", QueueAccept)]
  }

  /** The queue defaults are a well-formed dict: the date and version, then the two
      headers that are not signed lines. */
  lemma QueueHeadersShape(date: HttpDate)
    ensures Keys(QueueHeaders(date)) == ["x-ms-date", "x-ms-version", "Content-Type", "Accept"]
    ensures ServiceDefaults(QueueHeaders(date), date, QueueContentType)
  {
    QueueHeadersKeys(date);
    QueueHeadersDateVersion(date);
    QueueHeadersUnsigned(date);
  }

  lemma QueueHeadersUnsigned(date: HttpDate)
    ensures "Authorization" !in Keys(QueueHeaders(date)) && "Content-Length" !in Keys(QueueHeaders(date))
  {
    QueueHeadersKeys(date);
    assert "Content-Length"[8] != "Content-Type"[8];
  }

  lemma QueueHeadersKeys(date: HttpDate)
    ensures Keys(QueueHeaders(date)) == ["x-ms-date", "x-ms-version", "Content-Type", "Accept"]
    ensures Valid(QueueHeaders(date))
    ensures Get(QueueHeaders(date), "Content-Type") == Some(QueueContentType)
  {
    var h := QueueHeaders(date);
    KeysFour(h);
    assert "x-ms-version"[0] != "Content-Type"[0];
    DistinctValid(h);
    GetAt(h, 2);
  }

  lemma QueueHeadersDateVersion(date: HttpDate)
    ensures DateVersionFirst(QueueHeaders(date), date)
  {
    var h := QueueHeaders(date);
    forall i | 2 <= i < |h| ensures !Contains(h[i].0, "x-ms") {
      LacksFirstChar(h[i].0, "x-ms");
    }
  }

  /** `_sign_for_queues(verb, canonicalized, payload)`, with the date the clock gave. */
  function SignForQueues(c: Client, date: HttpDate, verb: string, canonicalized: string, payload: string): Headers {
    QueueHeadersShape(date);
    SignForService(c, QueueHeaders(date), verb, canonicalized, payload)
  }

  /** The queue headers: `Authorization` over the verb, the content type, the date and
      version lines and the resource (`Accept` is not a signed header line),
      `Content-Length`, then the defaults with the date that was signed. */
  lemma SignForQueuesShape(c: Client, date: HttpDate, verb: string, canonicalized: string, payload: string)
    ensures SignForQueues(c, date, verb, canonicalized, payload)
      == [("Authorization", Authorization(c, ServiceSigned(verb, QueueContentType, date, canonicalized))),
          ("Content-Length", ContentLength(payload))]
         + QueueHeaders(date)
  {
    QueueHeadersShape(date);
    SignForServiceShape(c, QueueHeaders(date), date, QueueContentType, verb, canonicalized, payload);
  }

  /** What the server reads from the queue headers: the signature and the payload length. */
  lemma SignForQueuesGets(c: Client, date: HttpDate, verb: string, canonicalized: string, payload: string)
    ensures var h := SignForQueues(c, date, verb, canonicalized, payload);
      Get(h, "Authorization") == Some(Authorization(c, ServiceSigned(verb, QueueContentType, date, canonicalized)))
      && Get(h, "Content-Length") == Some(ContentLength(payload))
  {
    SignForQueuesShape(c, date, verb, canonicalized, payload);
  }

  // ---------------------------------------------------------------- queues

  function QueueHost(account: string): string {
    "https://" + account + ".queue.core.windows.net"
  }

  /** A body-less request on the queue `name`, signed over `/{account}/{name}`. */
  function QueueRequest(c: Client, date: HttpDate, verb: string, name: string): Request {
    Request(verb, QueueHost(c.account) + "/" + name,
            SignForQueues(c, date, verb, "/" + c.account + "/" + name, ""), "")
  }

  /** `createQueue(name)`. */
  function CreateQueue(c: Client, date: HttpDate, name: string): Request {
    QueueRequest(c, date, "PUT", name)
  }

  /** `deleteQueue(name)`. */
  function DeleteQueue(c: Client, date: HttpDate, name: string): Request {
    QueueRequest(c, date, "DELETE", name)
  }

  /** A request on the queue `name`: aimed at the queue's URL, no body, `Content-Length`
      `0`, and signed over `/{account}/{name}` with its own verb. */
  predicate SignedForQueue(c: Client, date: HttpDate, name: string, r: Request) {
    r.uri == QueueHost(c.account) + "/" + name
    && r.body == "" && Get(r.headers, "Content-Length") == Some("0")
    && Get(r.headers, "Authorization")
       == Some(Authorization(c, ServiceSigned(r.verb, QueueContentType, date, "/" + c.account + "/" + name)))
  }

  lemma QueueRequestSigned(c: Client, date: HttpDate, verb: string, name: string)
    ensures QueueRequest(c, date, verb, name).verb == verb
    ensures SignedForQueue(c, date, name, QueueRequest(c, date, verb, name))
  {
    SignForQueuesGets(c, date, verb, "/" + c.account + "/" + name, "");
    assert ContentLength("") == "0";
  }

  /** `createQueue` PUTs and `deleteQueue` DELETEs the queue's URL. */
  lemma QueueRequestsSigned(c: Client, date: HttpDate, name: string)
    ensures CreateQueue(c, date, name).verb == "PUT" && SignedForQueue(c, date, name, CreateQueue(c, date, name))
    ensures DeleteQueue(c, date, name).verb == "DELETE" && SignedForQueue(c, date, name, DeleteQueue(c, date, name))
  {
    QueueRequestSigned(c, date, "PUT", name);
    QueueRequestSigned(c, date, "DELETE", name);
  }

  // ---------------------------------------------------------------- messages

  const MessageOpen := "<QueueMessage><MessageText>"
  const MessageClose := "</MessageText></QueueMessage>"

  /** `_annotate_payload(payload)`: the message text inside its XML envelope, unescaped. */
  function AnnotatePayload(payload: string): string {
    MessageOpen + payload + MessageClose
  }

  /** The text inside an envelope, if `s` is one. */
  function Unwrap(s: string): Option<string> {
    if |s| >= |MessageOpen| + |MessageClose|
       && s[..|MessageOpen|] == MessageOpen && s[|s| - |MessageClose|..] == MessageClose
    then Some(s[|MessageOpen|..|s| - |MessageClose|])
    else None
  }

  /** The envelope adds 56 characters, and unwrapping gives the payload back. */
  lemma AnnotateUnwrap(payload: string)
    ensures |AnnotatePayload(payload)| == |payload| + 56
    ensures Unwrap(AnnotatePayload(payload)) == Some(payload)
  {
    var s := AnnotatePayload(payload);
    assert |MessageOpen| == 27 && |MessageClose| == 29;
    assert s[..|MessageOpen|] == MessageOpen;
    assert s[|s| - |MessageClose|..] == MessageClose;
    assert s[|MessageOpen|..|s| - |MessageClose|] == payload;
  }

  /** Whatever unwraps is exactly the envelope around what it unwraps to. */
  lemma UnwrapAnnotate(s: string)
    requires Unwrap(s).Some?
    ensures AnnotatePayload(Unwrap(s).value) == s
  {
    var p := Unwrap(s).value;
    assert s == s[..|MessageOpen|] + p + s[|s| - |MessageClose|..];
  }

  /** Python's truth value of an optional integer argument: set and non-zero. */
  predicate Truthy(v: Option<int>) {
    v.Some? && v.value != 0
  }

  /** The query `putMessage` builds: `visibilitytimeout`, then `messagettl`, each only when
      truthy, each written with `str`. */
  function MessageQuery(visibilitytimeout: Option<int>, messagettl: Option<int>): Dict<Option<string>> {
    (if Truthy(visibilitytimeout) then [("visibilitytimeout", Some(IntToString(visibilitytimeout.value)))] else [])
    + (if Truthy(messagettl) then [("messagettl", Some(IntToString(messagettl.value)))] else [])
  }

  /** The query has a key for each truthy argument and for nothing else, its value reads
      back as the argument, and it is empty exactly when neither argument is truthy. */
  lemma MessageQueryMeaning(visibilitytimeout: Option<int>, messagettl: Option<int>)
    ensures var q := MessageQuery(visibilitytimeout, messagettl);
      Valid(q)
      && (Get(q, "visibilitytimeout").Some? <==> Truthy(visibilitytimeout))
      && (Get(q, "messagettl").Some? <==> Truthy(messagettl))
      && (forall k :: k in Keys(q) ==> k == "visibilitytimeout" || k == "messagettl")
      && (|q| == 0 <==> !Truthy(visibilitytimeout) && !Truthy(messagettl))
    ensures var q := MessageQuery(visibilitytimeout, messagettl);
      (Truthy(visibilitytimeout) ==>
         Get(q, "visibilitytimeout").value.Some?
         && ParseInt(Get(q, "visibilitytimeout").value.value) == visibilitytimeout)
      && (Truthy(messagettl) ==>
         Get(q, "messagettl").value.Some?
         && ParseInt(Get(q, "messagettl").value.value) == messagettl)
  {
    var q := MessageQuery(visibilitytimeout, messagettl);
    assert "visibilitytimeout"[0] != "messagettl"[0];
    if Truthy(visibilitytimeout) {
      IntRoundTrip(visibilitytimeout.value);
    }
    if Truthy(messagettl) {
      IntRoundTrip(messagettl.value);
    }
    if |q| == 2 {
      KeysAt(q, 0);
      KeysAt(q, 1);
      assert q[1..][1..] == [];
    } else if |q| == 1 {
      assert q[1..] == [];
    }
  }

  /** `/{account}/{queue}/messages`: the resource `putMessage` signs. */
  function MessagesResource(account: string, queue: string): string {
    "/" + account + "/" + queue + "/messages"
  }

  function MessagesBase(account: string, queue: string): string {
    QueueHost(account) + "/" + queue + "/messages"
  }

  /** The dict `putMessage` fills in before encoding it. */
  method BuildQuery(visibilitytimeout: Option<int>, messagettl: Option<int>) returns (query: PyDict<Option<string>>)
    ensures fresh(query)
    ensures query.entries == MessageQuery(visibilitytimeout, messagettl)
  {
    query := new PyDict<Option<string>>([]);
    if Truthy(visibilitytimeout) {
      query.Set("visibilitytimeout", Some(IntToString(visibilitytimeout.value)));
      PutAppends([], "visibilitytimeout", Some(IntToString(visibilitytimeout.value)));
    }
    if Truthy(messagettl) {
      var before := query.entries;
      assert "messagettl" !in Keys(before) by {
        assert "visibilitytimeout"[0] != "messagettl"[0];
      }
      query.Set("messagettl", Some(IntToString(messagettl.value)));
      PutAppends(before, "messagettl", Some(IntToString(messagettl.value)));
    }
  }

  /** `putMessage(queue, payload, visibilitytimeout, messagettl)`: the request it POSTs. */
  method PutMessage(c: Client, date: HttpDate, queue: string, payload: string,
                    visibilitytimeout: Option<int>, messagettl: Option<int>) returns (req: Request)
    ensures req.verb == "POST"
    ensures req.uri == WithQuery(MessagesBase(c.account, queue), MessageQuery(visibilitytimeout, messagettl))
    ensures req.body == AnnotatePayload(payload)
    ensures req.headers == SignForQueues(c, date, "POST", MessagesResource(c.account, queue), AnnotatePayload(payload))
  {
    var canon := MessagesResource(c.account, queue);
    var base := MessagesBase(c.account, queue);
    var query := BuildQuery(visibilitytimeout, messagettl);
    var uri;
    if |query.entries| > 0 {
      uri := base + "?" + UrlEncode(query.entries);
    } else {
      uri := base;
    }
    var body := AnnotatePayload(payload);
    req := Request("POST", uri, SignForQueues(c, date, "POST", canon, body), body);
  }

  /** The message request carries the enveloped payload, announces its length (56 more
      than the payload's), signs POST over `/{account}/{queue}/messages`, and has a `?` in
      its URI exactly when some optional argument is truthy. */
  lemma PutMessageSigned(c: Client, date: HttpDate, queue: string, payload: string,
                         visibilitytimeout: Option<int>, messagettl: Option<int>)
    requires '?' !in MessagesBase(c.account, queue)
    ensures var q := MessageQuery(visibilitytimeout, messagettl);
      var h := SignForQueues(c, date, "POST", MessagesResource(c.account, queue), AnnotatePayload(payload));
      var n := ContentLength(AnnotatePayload(payload));
      Get(h, "Content-Length") == Some(n) && ParseInt(n) == Some(|payload| + 56)
      && Get(h, "Authorization")
         == Some(Authorization(c, ServiceSigned("POST", QueueContentType, date, MessagesResource(c.account, queue))))
      && ('?' in WithQuery(MessagesBase(c.account, queue), q)
          <==> Truthy(visibilitytimeout) || Truthy(messagettl))
  {
    var body := AnnotatePayload(payload);
    SignForQueuesGets(c, date, "POST", MessagesResource(c.account, queue), body);
    AnnotateUnwrap(payload);
    MessageQueryMeaning(visibilitytimeout, messagettl);
    WithQueryMark(MessagesBase(c.account, queue), MessageQuery(visibilitytimeout, messagettl));
  }
}

=== FILE: sharedkey.dfy ===
/** The SharedKeyLite signing shared by the three clients: the `Authorization` and
    `Content-Length` headers, the canonical `x-ms-*` header block and the blob/queue
    string to sign. The signature primitive, base64 of HMAC-SHA256 over the UTF-8 of
    the signed string, is an uninterpreted function carried by the client. */
module SharedKey {
  import opened Wrappers
  import opened Text
  import opened Dicts

  /** base64(HMAC-SHA256(key, utf8(message))), left uninterpreted. */
  type Mac = (seq<Byte>, string) -> string

  /** What `formatdate(usegmt=True)` returns; it is never empty. */
  type HttpDate = s: string | |s| > 0 witness "Thu, 01 Jan 1970 00:00:00 GMT"

  /** A client: the account name, the decoded account key and the signature primitive. */
  datatype Client = Client(account: string, auth: seq<Byte>, mac: Mac)

  type Headers = Dict<string>

  const ApiVersion := "2018-03-28"

  /** One HTTP request as handed to the session. */
  datatype Request = Request(verb: string, uri: string, headers: Headers, body: string)

  /** `'SharedKeyLite {}:{}'.format(account, signature)`. */
  function Authorization(c: Client, signed: string): string {
    "SharedKeyLite " + c.account + ":" + c.mac(c.auth, signed)
  }

  /** `str(len(payload))`: the number of characters, written in decimal. */
  function ContentLength(payload: string): (s: string)
    ensures ParseInt(s) == Some(|payload|)
  {
    IntRoundTrip(|payload|);
    IntToString(|payload|)
  }

  /** The two headers every signing function puts in front of the default headers. */
  function SignedPrefix(c: Client, signed: string, payload: string): Headers {
    [("Authorization", Authorization(c, signed)), ("Content-Length", ContentLength(payload))]
  }

  /** `{'Authorization': ..., 'Content-Length': ..., **headers}`. */
  function WithSignature(c: Client, signed: string, payload: string, headers: Headers): Headers {
    Merge(SignedPrefix(c, signed, payload), headers)
  }

  /** When the default headers are a well-formed dict without either signed header,
      the signed headers come first and the defaults follow unchanged, in order. */
  lemma WithSignatureShape(c: Client, signed: string, payload: string, headers: Headers)
    requires Valid(headers)
    requires "Authorization" !in Keys(headers) && "Content-Length" !in Keys(headers)
    ensures WithSignature(c, signed, payload, headers) == SignedPrefix(c, signed, payload) + headers
    ensures Keys(WithSignature(c, signed, payload, headers)) == ["Authorization", "Content-Length"] + Keys(headers)
    ensures Valid(WithSignature(c, signed, payload, headers))
  {
    var p := SignedPrefix(c, signed, payload);
    assert Keys(p) == ["Authorization", "Content-Length"] by {
      assert p[1..][1..] == [];
    }
    MergeDisjoint(p, headers);
    KeysConcat(p, headers);
    assert Valid(p) by {
      assert Keys(p[1..]) == ["Content-Length"];
    }
    MergeValid(p, headers);
  }

  /** Looking a header up in the signed headers: the two signed headers, else the defaults. */
  lemma WithSignatureGet(c: Client, signed: string, payload: string, headers: Headers, k: string)
    requires Valid(headers)
    requires "Authorization" !in Keys(headers) && "Content-Length" !in Keys(headers)
    ensures Get(WithSignature(c, signed, payload, headers), k)
      == if k == "Authorization" then Some(Authorization(c, signed))
         else if k == "Content-Length" then Some(ContentLength(payload))
         else Get(headers, k)
  {
    var p := SignedPrefix(c, signed, payload);
    WithSignatureShape(c, signed, payload, headers);
    assert Keys(p) == ["Authorization", "Content-Length"] by {
      assert p[1..][1..] == [];
    }
    GetConcat(p, headers, k);
  }

  // ---------------------------------------------------------------- blob and queue scheme

  /** `name:value` for each header whose name contains `x-ms`, in dict order. */
  function SigningLines(h: Headers): seq<string>
    decreases |h|
  {
    if h == [] then []
    else (if Contains(h[0].0, "x-ms") then [h[0].0 + ":" + h[0].1] else []) + SigningLines(h[1..])
  }

  /** The canonical header block; it is not sorted, it follows the dict. */
  function CanonicalHeaders(h: Headers): string {
    Join("\n", SigningLines(h))
  }

  /** `"\n".join([verb, '', content_type, '', canon_headers, canonicalized])`. */
  function ServiceStringToSign(verb: string, contentType: string, h: Headers, canonicalized: string): string {
    Join("\n", [verb, "", contentType, "", CanonicalHeaders(h), canonicalized])
  }

  /** The blob/queue string to sign, written out. */
  lemma ServiceStringShape(verb: string, contentType: string, h: Headers, canonicalized: string)
    ensures ServiceStringToSign(verb, contentType, h, canonicalized)
      == verb + "\n\n" + contentType + "\n\n" + CanonicalHeaders(h) + "\n" + canonicalized
  {
    var g := [verb, "", contentType, "", CanonicalHeaders(h), canonicalized];
    assert g[5..][1..] == [];
    assert g[4..][1..] == g[5..];
    assert g[3..][1..] == g[4..];
    assert g[2..][1..] == g[3..];
    assert g[1..][1..] == g[2..];
    assert Join("\n", g[5..]) == canonicalized;
    assert Join("\n", g[4..]) == CanonicalHeaders(h) + "\n" + canonicalized;
    assert Join("\n", g[3..]) == "" + "\n" + (CanonicalHeaders(h) + "\n" + canonicalized);
    assert Join("\n", g[2..]) == contentType + "\n" + ("" + "\n" + (CanonicalHeaders(h) + "\n" + canonicalized));
    assert Join("\n", g[1..]) == "" + "\n" + (contentType + "\n" + ("" + "\n" + (CanonicalHeaders(h) + "\n" + canonicalized)));
  }

  /** `_sign_for_blobs` / `_sign_for_queues` over the client's default headers `h`
      (which always carry `Content-Type`). */
  function SignForService(c: Client, h: Headers, verb: string, canonicalized: string, payload: string): Headers
    requires "Content-Type" in Keys(h)
  {
    var signed := ServiceStringToSign(verb, Get(h, "Content-Type").value, h, canonicalized);
    WithSignature(c, signed, payload, h)
  }

  /** Service default headers `x-ms-date`, `x-ms-version` followed by headers without `x-ms`. */
  predicate DateVersionFirst(h: Headers, date: string) {
    |h| >= 2 && h[0] == ("x-ms-date", date) && h[1] == ("x-ms-version", ApiVersion)
    && forall i :: 2 <= i < |h| ==> !Contains(h[i].0, "x-ms")
  }

  lemma {:induction false} SigningLinesNone(h: Headers)
    requires forall i :: 0 <= i < |h| ==> !Contains(h[i].0, "x-ms")
    ensures SigningLines(h) == []
    decreases |h|
  {
    if h != [] {
      SigningLinesNone(h[1..]);
    }
  }

  /** For such headers the canonical block is exactly the date line and the version line. */
  lemma CanonicalDateVersion(h: Headers, date: string)
    requires DateVersionFirst(h, date)
    ensures CanonicalHeaders(h) == DateVersionBlock(date)
  {
    DateVersionLines(h, date);
    JoinTwo("\n", "x-ms-date" + ":" + date, "x-ms-version" + ":" + ApiVersion);
  }

  /** Such headers give two signing lines: the date line, then the version line. */
  lemma DateVersionLines(h: Headers, date: string)
    requires DateVersionFirst(h, date)
    ensures SigningLines(h) == ["x-ms-date" + ":" + date, "x-ms-version" + ":" + ApiVersion]
  {
    assert StartsWith("x-ms-date", "x-ms") && Contains(h[0].0, "x-ms");
    assert StartsWith("x-ms-version", "x-ms") && Contains(h[1].0, "x-ms");
    var t := h[1..];
    assert t[0] == h[1] && t[1..] == h[2..];
    SigningLinesNone(h[2..]);
    assert SigningLines(t) == ["x-ms-version" + ":" + ApiVersion];
  }

  /** The blob/queue string to sign, for default headers that begin with the date and the
      version and carry no other `x-ms` header. */
  function ServiceSigned(verb: string, contentType: string, date: string, canonicalized: string): string {
    verb + "\n\n" + contentType + "\n\n" + DateVersionBlock(date) + "\n" + canonicalized
  }

  /** The canonical header block of such defaults: the date line, then the version line. */
  function DateVersionBlock(date: string): string {
    ("x-ms-date" + ":" + date) + "\n" + ("x-ms-version" + ":" + ApiVersion)
  }

  lemma ServiceSignedText(verb: string, contentType: string, h: Headers, date: string, canonicalized: string)
    requires DateVersionFirst(h, date)
    ensures ServiceStringToSign(verb, contentType, h, canonicalized) == ServiceSigned(verb, contentType, date, canonicalized)
  {
    ServiceStringShape(verb, contentType, h, canonicalized);
    CanonicalDateVersion(h, date);
  }

  /** Default headers a service signs: a well-formed dict that begins with the date and
      the version, names its content type and carries neither signed header. */
  predicate ServiceDefaults(h: Headers, date: string, contentType: string) {
    Valid(h) && DateVersionFirst(h, date) && Get(h, "Content-Type") == Some(contentType)
    && "Authorization" !in Keys(h) && "Content-Length" !in Keys(h)
  }

  /** For such defaults, the service signing puts `Authorization` over exactly that string and
      `Content-Length` in front of the defaults, which follow unchanged. */
  lemma SignForServiceShape(c: Client, h: Headers, date: string, contentType: string, verb: string, canonicalized: string, payload: string)
    requires ServiceDefaults(h, date, contentType)
    ensures SignForService(c, h, verb, canonicalized, payload)
      == SignedPrefix(c, ServiceSigned(verb, contentType, date, canonicalized), payload) + h
  {
    ServiceSignedText(verb, contentType, h, date, canonicalized);
    WithSignatureShape(c, ServiceStringToSign(verb, contentType, h, canonicalized), payload, h);
  }
}

=== FILE: tables.dfy ===
/** The table client: `TableClient` in aioazstorage/tables.py and its older copy
    `StorageClient` in aioazstorage/__init__.py, which differ only in that the
    latter sends no `Connection` header and has fewer operations. */
module Tables {
  import opened Wrappers
  import opened Text
  import opened Dicts
  import opened Uuids
  import opened Edm
  import opened SharedKey
  import EdmProperties
  import opened Json

  /** `keepAlive` is true for `TableClient` and false for `StorageClient`. */
  datatype TableClient = TableClient(client: Client, keepAlive: bool)

  /** What one request reads from the clock and from `uuid1()`. */
  datatype Stamp = Stamp(date: HttpDate, requestId: string)

  /** `_headers(date)`. */
  function DefaultHeaders(t: TableClient, date: HttpDate, requestId: string): Headers {
    [("x-ms-date", date), ("x-ms-version", ApiVersion), ("Content-Type", "application/json"),
     ("Accept", "application/json;odata=nometadata"), ("Prefer", "return-no-content"),
     ("x-ms-client-request-id", requestId)]
    + (if t.keepAlive then [("Connection", "Keep-Alive")] else [])
  }

  /** The names of the default headers, in order. */
  function DefaultHeaderNames(t: TableClient): seq<string> {
    ["x-ms-date", "x-ms-version", "Content-Type", "Accept", "Prefer", "x-ms-client-request-id"]
    + (if t.keepAlive then ["Connection"] else [])
  }

  /** `"\n".join([date, canonicalized])`. */
  function TableStringToSign(date: string, canonicalized: string): string {
    Join("\n", [date, canonicalized])
  }

  /** `_sign_for_tables(canonicalized, payload)`: the date is read once, signed, and sent. */
  function SignForTables(t: TableClient, s: Stamp, canonicalized: string, payload: string): Headers {
    WithSignature(t.client, TableStringToSign(s.date, canonicalized), payload, DefaultHeaders(t, s.date, s.requestId))
  }

  lemma DefaultHeadersShape(t: TableClient, date: HttpDate, requestId: string)
    ensures Valid(DefaultHeaders(t, date, requestId))
    ensures Keys(DefaultHeaders(t, date, requestId)) == DefaultHeaderNames(t)
  {
    var h := DefaultHeaders(t, date, requestId);
    var ns := DefaultHeaderNames(t);
    DefaultHeadersNamed(t, date, requestId);
    DefaultNamesDistinct(t);
    forall i | 0 <= i < |h| ensures Keys(h)[i] == ns[i] {
      KeysAt(h, i);
    }
    DistinctValid(h);
  }

  /** The default headers carry the default names, position by position. */
  lemma DefaultHeadersNamed(t: TableClient, date: HttpDate, requestId: string)
    ensures var h := DefaultHeaders(t, date, requestId);
      |h| == |DefaultHeaderNames(t)| && forall i :: 0 <= i < |h| ==> h[i].0 == DefaultHeaderNames(t)[i]
  {
  }

  /** No default header name is sent twice. */
  lemma DefaultNamesDistinct(t: TableClient)
    ensures var ns := DefaultHeaderNames(t);
      forall i, j :: 0 <= i < j < |ns| ==> ns[i] != ns[j]
  {
    var ns := DefaultHeaderNames(t);
    forall i, j | 0 <= i < j < |ns| ensures ns[i] != ns[j] {
      assert ns[i][0] != ns[j][0] || ns[i][5] != ns[j][5];
    }
  }

  lemma TableStringShape(date: string, canonicalized: string)
    ensures TableStringToSign(date, canonicalized) == date + "\n" + canonicalized
  {
    var g := [date, canonicalized];
    assert g[1..] == [canonicalized];
    assert Join("\n", g[1..]) == canonicalized;
  }

  /** The signed headers are `Authorization`, `Content-Length` and then `_headers`, each once. */
  lemma SignForTablesKeys(t: TableClient, s: Stamp, canonicalized: string, payload: string)
    ensures var h := SignForTables(t, s, canonicalized, payload);
      Valid(h) && Keys(h) == ["Authorization", "Content-Length"] + DefaultHeaderNames(t)
  {
    DefaultHeadersShape(t, s.date, s.requestId);
    WithSignatureShape(t.client, TableStringToSign(s.date, canonicalized), payload, DefaultHeaders(t, s.date, s.requestId));
  }

  /** The table signature: `Authorization` signs exactly `date + "\n" + canonicalized`
      with the account key, the same date is sent as `x-ms-date`, `Content-Length` is
      the payload's length, and `Connection` is sent by `TableClient` only. */
  lemma SignForTablesEffect(t: TableClient, s: Stamp, canonicalized: string, payload: string)
    ensures var h := SignForTables(t, s, canonicalized, payload);
      Get(h, "Authorization") == Some("SharedKeyLite " + t.client.account + ":"
           + t.client.mac(t.client.auth, s.date + "\n" + canonicalized))
      && Get(h, "Content-Length") == Some(ContentLength(payload))
      && Get(h, "x-ms-date") == Some(s.date)
      && Get(h, "x-ms-version") == Some(ApiVersion)
      && (Get(h, "Connection").Some? <==> t.keepAlive)
  {
    var d := DefaultHeaders(t, s.date, s.requestId);
    var signed := TableStringToSign(s.date, canonicalized);
    TableStringShape(s.date, canonicalized);
    DefaultHeadersShape(t, s.date, s.requestId);
    WithSignatureGet(t.client, signed, payload, d, "Authorization");
    WithSignatureGet(t.client, signed, payload, d, "Content-Length");
    WithSignatureGet(t.client, signed, payload, d, "x-ms-date");
    WithSignatureGet(t.client, signed, payload, d, "x-ms-version");
    WithSignatureGet(t.client, signed, payload, d, "Connection");
    ConnectionNamed(t);
    assert d[1..][0] == d[1];
  }

  /** Only a `TableClient` asks for a persistent connection. */
  lemma ConnectionNamed(t: TableClient)
    ensures "Connection" in DefaultHeaderNames(t) <==> t.keepAlive
  {
    if t.keepAlive {
      assert DefaultHeaderNames(t)[6] == "Connection";
    }
  }

  // ---------------------------------------------------------------- resources

  function Host(account: string): string {
    "https://" + account + ".table.core.windows.net"
  }

  /** `/{account}{path}`: the canonicalized resource of a request on `path`. */
  function Canonical(account: string, path: string): string {
    "/" + account + path
  }

  function TablesPath(): string { "/Tables" }

  function TablePath(name: string): string { "/Tables('" + name + "')" }

  function EntitySetPath(table: string): string { "/" + table }

  function QueryPath(table: string): string { "/" + table + "()" }

  function BatchPath(): string { "/$batch" }

  /** `/{table}(PartitionKey='{pk}',RowKey='{rk}')`. */
  function EntityPath(table: string, pk: string, rk: string): string {
    "/" + table + "(PartitionKey='" + pk + "',RowKey='" + rk + "')"
  }

  /** Text that stops at the first quote determines where that quote is. */
  lemma SplitAtQuote(x: string, y: string, x': string, y': string)
    requires '\'' !in x && '\'' !in x'
    requires x + "'" + y == x' + "'" + y'
    ensures x == x' && y == y'
  {
    var s := x + "'" + y;
    assert s[|x|] == '\'' && s[|x'|] == '\'';
    assert forall i :: 0 <= i < |x| ==> s[i] == x[i];
    assert forall i :: 0 <= i < |x'| ==> s[i] == x'[i];
    assert |x| == |x'|;
    assert x == s[..|x|] && x' == s[..|x'|];
    assert y == s[|x| + 1..] && y' == s[|x'| + 1..];
  }

  /** An entity path names one entity: keys without quotes are read back unambiguously. */
  lemma EntityPathInjective(table: string, pk: string, rk: string, pk': string, rk': string)
    requires '\'' !in pk && '\'' !in rk && '\'' !in pk' && '\'' !in rk'
    requires EntityPath(table, pk, rk) == EntityPath(table, pk', rk')
    ensures pk == pk' && rk == rk'
  {
    var pre := "/" + table + "(PartitionKey='";
    EntityPathParts(table, pk, rk);
    EntityPathParts(table, pk', rk');
    DropPrefix(pre, pk + "'" + RowKeyPart(rk), pk' + "'" + RowKeyPart(rk'));
    SplitAtQuote(pk, RowKeyPart(rk), pk', RowKeyPart(rk'));
    RowKeyInjective(rk, rk');
  }

  /** The text after the partition key's closing quote. */
  function RowKeyPart(rk: string): string {
    ",RowKey='" + rk + "')"
  }

  lemma EntityPathParts(table: string, pk: string, rk: string)
    ensures EntityPath(table, pk, rk) == ("/" + table + "(PartitionKey='") + (pk + "'" + RowKeyPart(rk))
  {
  }

  lemma DropPrefix(pre: string, a: string, b: string)
    requires pre + a == pre + b
    ensures a == b
  {
    assert a == (pre + a)[|pre|..];
    assert b == (pre + b)[|pre|..];
  }

  lemma RowKeyInjective(rk: string, rk': string)
    requires '\'' !in rk && '\'' !in rk'
    requires RowKeyPart(rk) == RowKeyPart(rk')
    ensures rk == rk'
  {
    assert RowKeyPart(rk) == ",RowKey='" + (rk + "')");
    assert RowKeyPart(rk') == ",RowKey='" + (rk' + "')");
    DropPrefix(",RowKey='", rk + "')", rk' + "')");
    assert rk + "')" == rk + "'" + ")";
    assert rk' + "')" == rk' + "'" + ")";
    SplitAtQuote(rk, ")", rk', ")");
  }

  // ---------------------------------------------------------------- entity keys and If-Match

  /** `'{}'.format(v)`, that is `str(v)`, for a property value. */
  function Show(v: Value): string {
    match v
    case Str(s) => s
    case Int(i) => IntToString(i)
    case Guid(u) => FormatUuid(u)
    case DateTime(t) => t.text
    case Bool(b) => if b then "True" else "False"
    case Float(r) => r
  }

  /** `entity['PartitionKey']` then `entity['RowKey']`, as text; a missing key raises. */
  function EntityKeys(e: Dict<Value>): (r: Result<(string, string), Fault>)
    ensures r.Ok? <==> "PartitionKey" in Keys(e) && "RowKey" in Keys(e)
    ensures r.Err? ==> r.error == KeyError(if "PartitionKey" in Keys(e) then "RowKey" else "PartitionKey")
    ensures r.Ok? ==> r.value == (Show(Get(e, "PartitionKey").value), Show(Get(e, "RowKey").value))
  {
    match Get(e, "PartitionKey")
    case None => Err(KeyError("PartitionKey"))
    case Some(pk) =>
      match Get(e, "RowKey")
      case None => Err(KeyError("RowKey"))
      case Some(rk) => Ok((Show(pk), Show(rk)))
  }

  /** `'*' if not etag else etag`: a missing or empty etag matches any version. */
  function IfMatch(etag: Option<string>): (r: string)
    ensures |r| > 0
    ensures r == "*" <==> etag == None || etag == Some("") || etag == Some("*")
    ensures r != "*" ==> etag == Some(r)
  {
    if etag.None? || etag.value == "" then "*" else etag.value
  }

  /** `{'If-Match': ..., **signed}`. */
  function WithIfMatch(etag: Option<string>, signed: Headers): Headers {
    Merge([("If-Match", IfMatch(etag))], signed)
  }

  /** `If-Match` comes first and the signed headers follow unchanged. */
  lemma WithIfMatchShape(t: TableClient, s: Stamp, canonicalized: string, payload: string, etag: Option<string>)
    ensures var h := SignForTables(t, s, canonicalized, payload);
      WithIfMatch(etag, h) == [("If-Match", IfMatch(etag))] + h
  {
    SignForTablesKeys(t, s, canonicalized, payload);
    SignedNamesLack(t, "If-Match");
    IfMatchFirst(etag, SignForTables(t, s, canonicalized, payload));
  }

  /** A header name that is not one `_sign_for_tables` writes. */
  lemma SignedNamesLack(t: TableClient, name: string)
    requires name !in {"Authorization", "Content-Length", "x-ms-date", "x-ms-version", "Content-Type",
                       "Accept", "Prefer", "x-ms-client-request-id", "Connection"}
    ensures name !in ["Authorization", "Content-Length"] + DefaultHeaderNames(t)
  {
  }

  lemma IfMatchFirst(etag: Option<string>, h: Headers)
    requires Valid(h) && "If-Match" !in Keys(h)
    ensures WithIfMatch(etag, h) == [("If-Match", IfMatch(etag))] + h
  {
    MergeDisjoint([("If-Match", IfMatch(etag))], h);
  }

  // ---------------------------------------------------------------- requests

  /** `createTable(name)`: POST `{"TableName": name}` to the table collection. */
  function CreateTable(t: TableClient, s: Stamp, name: string): (r: Request)
    ensures r.verb == "POST" && r.uri == Host(t.client.account) + TablesPath()
    ensures r.body == "{" + Quote("TableName") + ": " + Quote(name) + "}"
    ensures r.headers == SignForTables(t, s, Canonical(t.client.account, TablesPath()), r.body)
    ensures Get(r.headers, "Content-Length") == Some(ContentLength(r.body))
  {
    DumpsSingle("TableName", Str(name));
    SignForTablesEffect(t, s, Canonical(t.client.account, TablesPath()), Dumps([("TableName", Str(name))]).value);
    var payload := Dumps([("TableName", Str(name))]).value;
    Request("POST", Host(t.client.account) + TablesPath(),
      SignForTables(t, s, Canonical(t.client.account, TablesPath()), payload), payload)
  }

  /** `deleteTable(name)`: an empty DELETE of `/Tables('name')`, signed over that resource. */
  function DeleteTable(t: TableClient, s: Stamp, name: string): (r: Request)
    ensures r.verb == "DELETE" && r.uri == Host(t.client.account) + TablePath(name) && r.body == ""
    ensures Valid(r.headers) && Keys(r.headers) == ["Authorization", "Content-Length"] + DefaultHeaderNames(t)
    ensures Get(r.headers, "Authorization")
      == Some("SharedKeyLite " + t.client.account + ":"
              + t.client.mac(t.client.auth, s.date + "\n" + Canonical(t.client.account, TablePath(name))))
    ensures Get(r.headers, "Content-Length") == Some("0")
    ensures r.headers == SignForTables(t, s, Canonical(t.client.account, TablePath(name)), "")
  {
    var canon := Canonical(t.client.account, TablePath(name));
    SignForTablesKeys(t, s, canon, "");
    SignForTablesEffect(t, s, canon, "");
    assert ContentLength("") == "0";
    Request("DELETE", Host(t.client.account) + TablePath(name), SignForTables(t, s, canon, ""), "")
  }

  /** `insertEntity(table, entity)`: the caller's entity is annotated in place, then sent;
      the annotated entity always serialises. */
  method InsertEntity(t: TableClient, s: Stamp, now: string, table: string, entity: PyDict<Value>)
    returns (r: Request)
    requires Valid(entity.entries)
    modifies entity
    ensures entity.entries == Annotated(old(entity.entries), now)
    ensures Dumps(entity.entries).Ok?
    ensures r == Request("POST", Host(t.client.account) + EntitySetPath(table),
      SignForTables(t, s, Canonical(t.client.account, EntitySetPath(table)), Dumps(entity.entries).value),
      Dumps(entity.entries).value)
  {
    AnnotatePayload(entity, now);
    AnnotatedSerialisable(old(entity.entries), now);
    var payload := Dumps(entity.entries).value;
    r := Request("POST", Host(t.client.account) + EntitySetPath(table),
      SignForTables(t, s, Canonical(t.client.account, EntitySetPath(table)), payload), payload);
  }

  /** `insertOrReplaceEntity` (`etag` None: PUT without `If-Match`) and `updateEntity`
      (`etag` Some: PUT with `If-Match`): the keys are read before the entity is
      annotated, so a missing key raises and leaves the entity untouched. */
  method PutEntity(t: TableClient, s: Stamp, now: string, table: string,
                   entity: PyDict<Value>, etag: Option<Option<string>>)
    returns (r: Result<Request, Fault>)
    requires Valid(entity.entries)
    modifies entity
    ensures r.Err? <==> EntityKeys(old(entity.entries)).Err?
    ensures r.Err? ==> r.error == EntityKeys(old(entity.entries)).error && entity.entries == old(entity.entries)
    ensures r.Ok? ==>
      var (pk, rk) := EntityKeys(old(entity.entries)).value;
      var path := EntityPath(table, pk, rk);
      entity.entries == Annotated(old(entity.entries), now)
      && Dumps(entity.entries).Ok?
      && var payload := Dumps(entity.entries).value;
         var signed := SignForTables(t, s, Canonical(t.client.account, path), payload);
         r.value == Request("PUT", Host(t.client.account) + path,
           if etag.Some? then WithIfMatch(etag.value, signed) else signed, payload)
  {
    var keys := EntityKeys(entity.entries);
    if keys.Err? {
      return Err(keys.error);
    }
    var path := EntityPath(table, keys.value.0, keys.value.1);
    AnnotatePayload(entity, now);
    AnnotatedSerialisable(old(entity.entries), now);
    var payload := Dumps(entity.entries).value;
    var signed := SignForTables(t, s, Canonical(t.client.account, path), payload);
    var headers := if etag.Some? then WithIfMatch(etag.value, signed) else signed;
    r := Ok(Request("PUT", Host(t.client.account) + path, headers, payload));
  }

  /** `deleteEntity(table, entity, etag)`: the entity is only read. */
  function DeleteEntity(t: TableClient, s: Stamp, table: string, entity: Dict<Value>, etag: Option<string>)
    : (r: Result<Request, Fault>)
    ensures r.Err? <==> EntityKeys(entity).Err?
    ensures r.Err? ==> r.error == EntityKeys(entity).error
    ensures r.Ok? ==>
      var (pk, rk) := EntityKeys(entity).value;
      var path := EntityPath(table, pk, rk);
      r.value == Request("DELETE", Host(t.client.account) + path,
        [("If-Match", IfMatch(etag))] + SignForTables(t, s, Canonical(t.client.account, path), ""), "")
  {
    match EntityKeys(entity)
    case Err(e) => Err(e)
    case Ok((pk, rk)) =>
      var path := EntityPath(table, pk, rk);
      var signed := SignForTables(t, s, Canonical(t.client.account, path), "");
      WithIfMatchShape(t, s, Canonical(t.client.account, path), "", etag);
      Ok(Request("DELETE", Host(t.client.account) + path, WithIfMatch(etag, signed), ""))
  }

  // ---------------------------------------------------------------- $batch

  /** `'--batch_{}'.format(uuid1())` and `'--changeset_{}'.format(uuid1())`. */
  function BatchBoundary(batchId: string): string { "--batch_" + batchId }

  function ChangesetBoundary(changesetId: string): string { "--changeset_" + changesetId }

  /** The four lines that open the multipart body. */
  function BatchHead(bb: string, cb: string): seq<string> {
    [bb, "Content-Type: multipart/mixed; boundary=" + cb, "", cb]
  }

  /** The ten lines for one entity, ending with the changeset boundary. */
  function EntityBlock(account: string, table: string, payload: string, cb: string): (b: seq<string>)
    ensures |b| == 10 && b[8] == payload && b[9] == cb
  {
    ["Content-Type: application/http", "Content-Transfer-Encoding: binary", "",
     "POST https://" + account + ".table.core.windows.net/" + table + " HTTP/1.1",
     "Content-Type: application/json", "Accept: application/json;odata=nometadata",
     "Prefer: return-no-content", "", payload, cb]
  }

  /** The entity blocks, in order. */
  function Blocks(account: string, table: string, payloads: seq<string>, cb: string): seq<string>
    decreases |payloads|
  {
    if payloads == [] then []
    else Blocks(account, table, payloads[..|payloads| - 1], cb)
         + EntityBlock(account, table, payloads[|payloads| - 1], cb)
  }

  lemma BlocksSnoc(account: string, table: string, payloads: seq<string>, p: string, cb: string)
    ensures Blocks(account, table, payloads + [p], cb)
      == Blocks(account, table, payloads, cb) + EntityBlock(account, table, p, cb)
  {
    assert (payloads + [p])[..|payloads|] == payloads;
  }

  /** All lines of the multipart body. */
  function BatchLines(account: string, table: string, payloads: seq<string>, bb: string, cb: string): seq<string> {
    BatchHead(bb, cb) + Blocks(account, table, payloads, cb) + [bb]
  }

  lemma {:induction false} BlocksAt(account: string, table: string, payloads: seq<string>, cb: string)
    ensures |Blocks(account, table, payloads, cb)| == 10 * |payloads|
    ensures forall i, j :: 0 <= i < |payloads| && 0 <= j < 10 ==>
      Blocks(account, table, payloads, cb)[10 * i + j] == EntityBlock(account, table, payloads[i], cb)[j]
  {
    BlocksLength(account, table, payloads, cb);
    forall i, j | 0 <= i < |payloads| && 0 <= j < 10
      ensures Blocks(account, table, payloads, cb)[10 * i + j] == EntityBlock(account, table, payloads[i], cb)[j]
    {
      BlockLine(account, table, payloads, cb, i, j);
    }
  }

  lemma {:induction false} BlocksLength(account: string, table: string, payloads: seq<string>, cb: string)
    ensures |Blocks(account, table, payloads, cb)| == 10 * |payloads|
    decreases |payloads|
  {
    if payloads != [] {
      BlocksLength(account, table, payloads[..|payloads| - 1], cb);
    }
  }

  /** Line `j` of entity `i`'s block. */
  lemma {:induction false} BlockLine(account: string, table: string, payloads: seq<string>, cb: string, i: nat, j: nat)
    requires i < |payloads| && j < 10
    ensures 10 * i + j < |Blocks(account, table, payloads, cb)|
    ensures Blocks(account, table, payloads, cb)[10 * i + j] == EntityBlock(account, table, payloads[i], cb)[j]
    decreases |payloads|
  {
    var n := |payloads|;
    var init := payloads[..n - 1];
    BlocksLength(account, table, init, cb);
    if i < n - 1 {
      BlockLine(account, table, init, cb, i, j);
      assert payloads[i] == init[i];
    }
  }

  /** The `$batch` body has 5 + 10n lines. It begins and ends with the batch boundary,
      its fourth line is the changeset boundary, and entity i contributes lines 4 + 10i
      to 13 + 10i, the ninth of which is its JSON and the tenth the changeset boundary. */
  lemma BatchLinesShape(account: string, table: string, payloads: seq<string>, bb: string, cb: string)
    ensures var l := BatchLines(account, table, payloads, bb, cb);
      |l| == 5 + 10 * |payloads|
      && l[0] == bb && l[|l| - 1] == bb && l[3] == cb
      && forall i :: 0 <= i < |payloads| ==>
           l[4 + 10 * i + 8] == payloads[i] && l[4 + 10 * i + 9] == cb
  {
    BlocksAt(account, table, payloads, cb);
    var l := BatchLines(account, table, payloads, bb, cb);
    forall i | 0 <= i < |payloads|
      ensures l[4 + 10 * i + 8] == payloads[i] && l[4 + 10 * i + 9] == cb
    {
      var e := EntityBlock(account, table, payloads[i], cb);
      assert Blocks(account, table, payloads, cb)[10 * i + 8] == e[8];
      assert Blocks(account, table, payloads, cb)[10 * i + 9] == e[9];
      assert l[4 + 10 * i + 8] == Blocks(account, table, payloads, cb)[10 * i + 8];
      assert l[4 + 10 * i + 9] == Blocks(account, table, payloads, cb)[10 * i + 9];
    }
  }

  /** `{**signed, 'Content-Type': ..., 'Content-Length': ..., 'Accept-Charset': 'UTF-8'}`. */
  function BatchHeaders(t: TableClient, s: Stamp, bb: string, payload: string): Headers
    requires |bb| >= 2
  {
    Merge(SignForTables(t, s, Canonical(t.client.account, BatchPath()), ""),
      [("Content-Type", "multipart/mixed; boundary=" + bb[2..]),
       ("Content-Length", ContentLength(payload)),
       ("Accept-Charset", "UTF-8")])
  }

  /** Assigning the three `$batch` headers onto signed headers that already carry
      `Content-Type` and `Content-Length` overrides those two in place and appends
      `Accept-Charset`. */
  lemma MergeBatchExtras(h0: Headers, ct: string, cl: string, ac: string)
    requires Valid(h0)
    requires "Content-Type" in Keys(h0) && "Content-Length" in Keys(h0) && "Accept-Charset" !in Keys(h0)
    ensures var h := Merge(h0, [("Content-Type", ct), ("Content-Length", cl), ("Accept-Charset", ac)]);
      Keys(h) == Keys(h0) + ["Accept-Charset"]
      && Get(h, "Content-Type") == Some(ct)
      && Get(h, "Content-Length") == Some(cl)
      && Get(h, "Accept-Charset") == Some(ac)
      && forall k :: k != "Content-Type" && k != "Content-Length" && k != "Accept-Charset" ==> Get(h, k) == Get(h0, k)
  {
    var extra := [("Content-Type", ct), ("Content-Length", cl), ("Accept-Charset", ac)];
    var h1 := Put(h0, "Content-Type", ct);
    var h2 := Put(h1, "Content-Length", cl);
    var h3 := Put(h2, "Accept-Charset", ac);
    assert extra[1..] == [("Content-Length", cl), ("Accept-Charset", ac)];
    assert extra[1..][1..] == [("Accept-Charset", ac)];
    assert Merge(h0, extra) == Merge(h1, extra[1..]);
    assert Merge(h1, extra[1..]) == Merge(h2, extra[1..][1..]);
    assert extra[1..][1..][1..] == [];
    assert Merge(h2, extra[1..][1..]) == h3;
  }

  /** The `Content-Type` boundary parameter is the batch boundary without its leading `--`. */
  lemma BatchBoundaryShape(batchId: string)
    ensures BatchBoundary(batchId) == "--" + ("batch_" + batchId)
    ensures BatchBoundary(batchId)[2..] == "batch_" + batchId
  {
  }

  /** The headers signed for `$batch` carry both headers the batch overrides and not the
      one it adds. */
  lemma SignedBatchKeys(t: TableClient, s: Stamp)
    ensures var h0 := SignForTables(t, s, Canonical(t.client.account, BatchPath()), "");
      Valid(h0) && "Content-Type" in Keys(h0) && "Content-Length" in Keys(h0)
      && "Accept-Charset" !in Keys(h0)
  {
    var canon := Canonical(t.client.account, BatchPath());
    SignForTablesKeys(t, s, canon, "");
    var ks := ["Authorization", "Content-Length"] + DefaultHeaderNames(t);
    assert ks[1] == "Content-Length" && ks[4] == "Content-Type";
    SignedNamesLack(t, "Accept-Charset");
  }

  /** The `$batch` headers are the signed headers with `Accept-Charset` appended. */
  lemma BatchHeadersKeys(t: TableClient, s: Stamp, bb: string, payload: string)
    requires |bb| >= 2
    ensures Keys(BatchHeaders(t, s, bb, payload))
      == ["Authorization", "Content-Length"] + DefaultHeaderNames(t) + ["Accept-Charset"]
  {
    var canon := Canonical(t.client.account, BatchPath());
    var h0 := SignForTables(t, s, canon, "");
    SignForTablesKeys(t, s, canon, "");
    SignedBatchKeys(t, s);
    MergeBatchExtras(h0, "multipart/mixed; boundary=" + bb[2..], ContentLength(payload), "UTF-8");
  }

  /** The `$batch` request's body length overrides `Content-Length` and the multipart
      type overrides `Content-Type`; `Accept-Charset` is added. */
  lemma BatchHeadersValues(t: TableClient, s: Stamp, bb: string, payload: string)
    requires |bb| >= 2
    ensures var h := BatchHeaders(t, s, bb, payload);
      Get(h, "Content-Length") == Some(ContentLength(payload))
      && Get(h, "Content-Type") == Some("multipart/mixed; boundary=" + bb[2..])
      && Get(h, "Accept-Charset") == Some("UTF-8")
  {
    var h0 := SignForTables(t, s, Canonical(t.client.account, BatchPath()), "");
    SignedBatchKeys(t, s);
    MergeBatchExtras(h0, "multipart/mixed; boundary=" + bb[2..], ContentLength(payload), "UTF-8");
  }

  /** The `$batch` request is signed over an empty payload: the signature and date are
      those of `_sign_for_tables` for the `$batch` resource. */
  lemma BatchHeadersSigned(t: TableClient, s: Stamp, bb: string, payload: string)
    requires |bb| >= 2
    ensures var h := BatchHeaders(t, s, bb, payload);
      Get(h, "Authorization") == Some("SharedKeyLite " + t.client.account + ":"
           + t.client.mac(t.client.auth, s.date + "\n" + Canonical(t.client.account, BatchPath())))
      && Get(h, "x-ms-date") == Some(s.date)
  {
    var canon := Canonical(t.client.account, BatchPath());
    var h0 := SignForTables(t, s, canon, "");
    SignedBatchKeys(t, s);
    SignForTablesEffect(t, s, canon, "");
    MergeBatchExtras(h0, "multipart/mixed; boundary=" + bb[2..], ContentLength(payload), "UTF-8");
  }

  /** The first `|ps|` dicts in `ds` serialise to the strings of `ps`, place by place. */
  ghost predicate Encodes(ds: seq<Dict<Value>>, ps: seq<string>) {
    |ps| <= |ds| && forall j {:trigger ps[j]} :: 0 <= j < |ps| ==> Dumps(ds[j]) == Ok(ps[j])
  }

  lemma EncodesSnoc(ds: seq<Dict<Value>>, ps: seq<string>, p: string)
    requires Encodes(ds, ps) && |ps| < |ds| && Dumps(ds[|ps|]) == Ok(p)
    ensures Encodes(ds, ps + [p])
  {
    forall j | 0 <= j < |ps| + 1 ensures Dumps(ds[j]) == Ok((ps + [p])[j]) {
      if j < |ps| {
        assert (ps + [p])[j] == ps[j];
      }
    }
  }

  /** `target` holds each dict of `orig` annotated, in order. */
  ghost predicate AnnotatedAll(orig: seq<Dict<Value>>, target: seq<Dict<Value>>, now: string)
    decreases |orig|
  {
    |orig| == |target| &&
    (orig == [] ||
     (AnnotatedAll(orig[..|orig| - 1], target[..|target| - 1], now)
      && target[|target| - 1] == Annotated(orig[|orig| - 1], now)))
  }

  lemma {:induction false} AnnotatedAllAt(orig: seq<Dict<Value>>, target: seq<Dict<Value>>, now: string, j: nat)
    requires AnnotatedAll(orig, target, now) && j < |orig|
    ensures target[j] == Annotated(orig[j], now)
    decreases |orig|
  {
    if j < |orig| - 1 {
      AnnotatedAllAt(orig[..|orig| - 1], target[..|target| - 1], now, j);
    }
  }

  lemma {:induction false} Targets(orig: seq<Dict<Value>>, now: string) returns (target: seq<Dict<Value>>)
    ensures AnnotatedAll(orig, target, now)
    decreases |orig|
  {
    if orig == [] {
      target := [];
    } else {
      var init := Targets(orig[..|orig| - 1], now);
      target := init + [Annotated(orig[|orig| - 1], now)];
      assert target[..|target| - 1] == init;
    }
  }

  /** `dumps(self._annotate_payload(entity))` for the `i`-th entity and the block around
      it appended to the changesets. The entity holds either its original dict or, when it
      was met earlier in the list, its target (the original annotated); annotating again
      changes nothing. */
  method AnnotateEntity(e: PyDict<Value>, now: string, account: string, table: string,
                        ghost head: seq<string>, cb: string, ghost orig: seq<Dict<Value>>, ghost target: seq<Dict<Value>>,
                        changesets: seq<string>, payloads: seq<string>)
    returns (changesets': seq<string>, payloads': seq<string>)
    requires AnnotatedAll(orig, target, now) && |payloads| < |orig| && Valid(orig[|payloads|])
    requires Encodes(target, payloads)
    requires e.entries == orig[|payloads|] || e.entries == target[|payloads|]
    requires changesets == head + Blocks(account, table, payloads, cb)
    modifies e
    ensures e.entries == target[|payloads|]
    ensures |payloads'| == |payloads| + 1 && Encodes(target, payloads')
    ensures changesets' == head + Blocks(account, table, payloads', cb)
  {
    ghost var i := |payloads|;
    AnnotatedAllAt(orig, target, now, i);
    ghost var before := e.entries;
    AnnotatePayload(e, now);
    if before != orig[i] {
      EdmProperties.AnnotateIdempotent(orig[i], now, now);
    }
    AnnotatedSerialisable(orig[i], now);
    var p := Dumps(e.entries).value;
    EncodesSnoc(target, payloads, p);
    AppendBlock(head, account, table, payloads, p, cb);
    payloads' := payloads + [p];
    changesets' := changesets + EntityBlock(account, table, p, cb);
  }

  /** Appending one entity's block keeps the changesets the head followed by the blocks. */
  lemma AppendBlock(head: seq<string>, account: string, table: string, payloads: seq<string>, p: string, cb: string)
    ensures head + Blocks(account, table, payloads + [p], cb)
      == (head + Blocks(account, table, payloads, cb)) + EntityBlock(account, table, p, cb)
  {
    BlocksSnoc(account, table, payloads, p, cb);
  }

  /** The dicts the entities hold right now. */
  ghost function Entries(entities: seq<PyDict<Value>>): (ds: seq<Dict<Value>>)
    reads set e | e in entities
    ensures |ds| == |entities| && forall j :: 0 <= j < |entities| ==> ds[j] == entities[j].entries
  {
    seq(|entities|, j requires 0 <= j < |entities| reads set e | e in entities => entities[j].entries)
  }

  /** How far the loop of `batchUpdate` has got: the first `i` entities hold their targets,
      the rest hold either their original dict or, when the same object was met earlier,
      its target. */
  ghost predicate Progress(cur: seq<Dict<Value>>, orig: seq<Dict<Value>>, target: seq<Dict<Value>>, i: nat) {
    |cur| == |orig| == |target| && i <= |orig| &&
    (forall j :: 0 <= j < i ==> cur[j] == target[j]) &&
    (forall j :: i <= j < |orig| ==> cur[j] == orig[j] || cur[j] == target[j])
  }

  /** An entity listed twice had one original dict, and so has one target. */
  ghost predicate SameOriginals(entities: seq<PyDict<Value>>, orig: seq<Dict<Value>>, target: seq<Dict<Value>>) {
    |orig| == |entities| == |target| &&
    forall j, k :: 0 <= j < |entities| && 0 <= k < |entities| && entities[j] == entities[k] ==>
      orig[j] == orig[k] && target[j] == target[k]
  }

  lemma SameTargets(entities: seq<PyDict<Value>>, orig: seq<Dict<Value>>, target: seq<Dict<Value>>, now: string)
    requires |orig| == |entities| && AnnotatedAll(orig, target, now)
    requires forall j, k :: 0 <= j < |entities| && 0 <= k < |entities| && entities[j] == entities[k] ==> orig[j] == orig[k]
    ensures SameOriginals(entities, orig, target)
  {
    forall j, k | 0 <= j < |entities| && 0 <= k < |entities| && entities[j] == entities[k]
      ensures target[j] == target[k]
    {
      AnnotatedAllAt(orig, target, now, j);
      AnnotatedAllAt(orig, target, now, k);
    }
  }

  /** Annotating entity `i`, wherever it is listed, and nothing else advances the loop by one. */
  lemma ProgressStep(entities: seq<PyDict<Value>>, orig: seq<Dict<Value>>, target: seq<Dict<Value>>, i: nat,
                     before: seq<Dict<Value>>, after: seq<Dict<Value>>)
    requires Progress(before, orig, target, i) && SameOriginals(entities, orig, target) && i < |entities|
    requires |after| == |entities| && after[i] == target[i]
    requires forall j :: 0 <= j < |entities| && entities[j] != entities[i] ==> after[j] == before[j]
    requires forall j :: 0 <= j < |entities| && entities[j] == entities[i] ==> after[j] == after[i]
    ensures Progress(after, orig, target, i + 1)
  {
  }

  /** One pass of `batchUpdate`'s loop, over the whole list: the `i`-th entity is annotated,
      and so is every other place that lists the same object; nothing else changes. */
  method BatchStep(entities: seq<PyDict<Value>>, i: nat, now: string, account: string, table: string,
                   ghost head: seq<string>, cb: string, ghost orig: seq<Dict<Value>>, ghost target: seq<Dict<Value>>,
                   changesets: seq<string>, payloads: seq<string>)
    returns (changesets': seq<string>, payloads': seq<string>)
    requires i < |entities| && |payloads| == i && SameOriginals(entities, orig, target)
    requires AnnotatedAll(orig, target, now) && Valid(orig[i]) && Progress(Entries(entities), orig, target, i)
    requires Encodes(target, payloads) && changesets == head + Blocks(account, table, payloads, cb)
    modifies entities[i]
    ensures Progress(Entries(entities), orig, target, i + 1)
    ensures |payloads'| == i + 1 && Encodes(target, payloads')
    ensures changesets' == head + Blocks(account, table, payloads', cb)
  {
    ghost var before := Entries(entities);
    changesets', payloads' := AnnotateEntity(entities[i], now, account, table, head, cb, orig, target, changesets, payloads);
    ProgressStep(entities, orig, target, i, before, Entries(entities));
  }

  /** The loop of `batchUpdate`: every entity is annotated in place, in order, and its
      JSON becomes one ten-line block after the batch head. An entity listed twice is
      annotated twice, which leaves it as annotated once. */
  method BatchBody(now: string, account: string, table: string,
                   entities: seq<PyDict<Value>>, bb: string, cb: string)
    returns (changesets: seq<string>, payloads: seq<string>)
    requires forall j :: 0 <= j < |entities| ==> Valid(entities[j].entries)
    modifies set e | e in entities
    ensures forall j :: 0 <= j < |entities| ==> entities[j].entries == Annotated(old(entities[j].entries), now)
    ensures |payloads| == |entities|
    ensures forall j :: 0 <= j < |entities| ==> Dumps(Annotated(old(entities[j].entries), now)) == Ok(payloads[j])
    ensures changesets == BatchHead(bb, cb) + Blocks(account, table, payloads, cb)
  {
    ghost var orig := Entries(entities);
    ghost var target := Targets(orig, now);
    SameTargets(entities, orig, target, now);
    ghost var head := BatchHead(bb, cb);
    changesets := BatchHead(bb, cb);
    payloads := [];
    for i := 0 to |entities|
      invariant |payloads| == i && Encodes(target, payloads)
      invariant Progress(Entries(entities), orig, target, i)
      invariant changesets == head + Blocks(account, table, payloads, cb)
    {
      changesets, payloads := BatchStep(entities, i, now, account, table, head, cb, orig, target, changesets, payloads);
    }
    forall j | 0 <= j < |entities|
      ensures entities[j].entries == Annotated(old(entities[j].entries), now)
      ensures Dumps(Annotated(old(entities[j].entries), now)) == Ok(payloads[j])
    {
      AnnotatedAllAt(orig, target, now, j);
    }
  }

  /** `batchUpdate(table, entities)`: one POST to `$batch` whose body is the batch head, the
      entity blocks and the closing batch boundary, joined by newlines. */
  method BatchUpdate(t: TableClient, s: Stamp, now: string, table: string,
                     entities: seq<PyDict<Value>>, batchId: string, changesetId: string)
    returns (r: Request, payloads: seq<string>)
    requires forall j :: 0 <= j < |entities| ==> Valid(entities[j].entries)
    modifies set e | e in entities
    ensures forall j :: 0 <= j < |entities| ==> entities[j].entries == Annotated(old(entities[j].entries), now)
    ensures |payloads| == |entities|
    ensures forall j :: 0 <= j < |entities| ==> Dumps(Annotated(old(entities[j].entries), now)) == Ok(payloads[j])
    ensures var bb := BatchBoundary(batchId);
      var body := Join("\n", BatchLines(t.client.account, table, payloads, bb, ChangesetBoundary(changesetId)));
      r == Request("POST", Host(t.client.account) + BatchPath(), BatchHeaders(t, s, bb, body), body)
  {
    var bb := BatchBoundary(batchId);
    var cb := ChangesetBoundary(changesetId);
    var changesets;
    changesets, payloads := BatchBody(now, t.client.account, table, entities, bb, cb);
    changesets := changesets + [bb];
    var body := Join("\n", changesets);
    r := Request("POST", Host(t.client.account) + BatchPath(), BatchHeaders(t, s, bb, body), body);
  }
}

=== FILE: text.dfy ===
/** The handful of Python string operations the client relies on: `str.join`,
    the `in` substring test, `str(int)` and `int(str)`, `str.replace(p, '')`,
    `str.strip(chars)` and hexadecimal digits. */
module Text {
  import opened Wrappers

  /** `sep.join(parts)`. */
  function Join(sep: string, parts: seq<string>): string
    decreases |parts|
  {
    if |parts| == 0 then ""
    else if |parts| == 1 then parts[0]
    else parts[0] + sep + Join(sep, parts[1..])
  }

  lemma JoinTwo(sep: string, a: string, b: string)
    ensures Join(sep, [a, b]) == a + sep + b
  {
    var p := [a, b];
    assert p[1..] == [b];
  }

  /** A character that occurs neither in the separator nor in any part does not occur in the join. */
  lemma {:induction false} JoinAvoids(c: char, sep: string, parts: seq<string>)
    requires c !in sep
    requires forall i :: 0 <= i < |parts| ==> c !in parts[i]
    ensures c !in Join(sep, parts)
    decreases |parts|
  {
    if |parts| > 1 {
      JoinAvoids(c, sep, parts[1..]);
    }
  }

  /** `''.join(parts)`. */
  function Concat(parts: seq<string>): string
    decreases |parts|
  {
    if parts == [] then "" else parts[0] + Concat(parts[1..])
  }

  predicate StartsWith(s: string, p: string) {
    |p| <= |s| && s[..|p|] == p
  }

  /** Python's `p in s` for strings: `p` occurs somewhere in `s`. */
  predicate Contains(s: string, p: string)
    decreases |s|
  {
    StartsWith(s, p) || (|s| > 0 && Contains(s[1..], p))
  }

  /** A string contains each of its suffixes. */
  lemma {:induction false} ContainsSuffix(k: string, p: string)
    ensures Contains(k + p, p)
    decreases |k|
  {
    if |k| > 0 {
      assert (k + p)[1..] == k[1..] + p;
      ContainsSuffix(k[1..], p);
    } else {
      assert k + p == p;
    }
  }

  /** Appending text keeps what was contained. */
  lemma {:induction false} ContainsExtend(k: string, p: string, q: string)
    requires Contains(k, p)
    ensures Contains(k + q, p)
    decreases |k|
  {
    if StartsWith(k, p) {
      assert (k + q)[..|p|] == k[..|p|];
    } else {
      assert (k + q)[1..] == k[1..] + q;
      ContainsExtend(k[1..], p, q);
    }
  }

  /** A string lacking the first character of `p` cannot contain `p`. */
  lemma {:induction false} LacksFirstChar(s: string, p: string)
    requires |p| > 0 && p[0] !in s
    ensures !Contains(s, p)
    decreases |s|
  {
    if |s| >= |p| {
      assert s[..|p|][0] == s[0];
    }
    if |s| > 0 {
      assert forall c :: c in s[1..] ==> c in s;
      LacksFirstChar(s[1..], p);
    }
  }

  // ---------------------------------------------------------------- decimal

  predicate IsDigit(c: char) {
    '0' <= c <= '9'
  }

  predicate AllDigits(s: string) {
    forall i :: 0 <= i < |s| ==> IsDigit(s[i])
  }

  function DigitChar(d: nat): (c: char)
    requires d < 10
    ensures IsDigit(c) && c as int - '0' as int == d
  {
    ('0' as int + d) as char
  }

  /** Decimal digits of a natural number, most significant first, no leading zero. */
  function NatToString(n: nat): (s: string)
    ensures |s| > 0 && AllDigits(s)
    decreases n
  {
    if n < 10 then [DigitChar(n)] else NatToString(n / 10) + [DigitChar(n % 10)]
  }

  lemma {:induction false} NatRoundTrip(n: nat)
    ensures AllDigitsOf(NatToString(n), 10) && NumeralValue(NatToString(n), 10) == n
    decreases n
  {
    var s := NatToString(n);
    if n >= 10 {
      NatRoundTrip(n / 10);
      assert s[..|s| - 1] == NatToString(n / 10);
    }
  }

  /** Python's `str(i)` for an int. */
  function IntToString(i: int): string {
    if i < 0 then "-" + NatToString(-i) else NatToString(i)
  }

  /** Python's `int(s)`: the base-10 case of `PyInt`. */
  function ParseInt(s: string): Option<int> {
    PyInt(s, 10)
  }

  /** `int(str(i)) == i` for every integer. */
  lemma IntRoundTrip(i: int)
    ensures ParseInt(IntToString(i)) == Some(i)
  {
    var m: nat := if i < 0 then -i else i;
    var ds := NatToString(m);
    DigitsText(m);
    if i < 0 {
      NegativeDigits(ds, m);
    } else {
      StripNothing(ds, Whitespace);
      PyIntStripped(ds, 10);
      PlainGrouped(ds, 10, m);
    }
  }

  /** The decimal text of `m` is a digit part of value `m`, with no white space at its ends. */
  lemma DigitsText(m: nat)
    ensures var ds := NatToString(m);
      GroupedValue(ds, 10) == Some(m) && ds[0] !in Whitespace && ds[|ds| - 1] !in Whitespace
  {
    var ds := NatToString(m);
    NatRoundTrip(m);
    GroupedDigits(ds, 10);
  }

  /** Unsigned digits: `int()` is their value. */
  lemma PlainGrouped(ds: string, base: nat, n: nat)
    requires base == 10 || base == 16
    requires GroupedValue(ds, base) == Some(n)
    ensures SignedValue(ds, base) == Some(n)
  {
    assert IsDigitOf(ds[0], base);
    if base == 16 && |ds| >= 2 {
      assert ds[1] == '_' || IsDigitOf(ds[1], base);
    }
  }

  /** `int("-" + ds)` for digits `ds` that `int()` reads as `n`. */
  lemma NegativeDigits(ds: string, n: nat)
    requires GroupedValue(ds, 10) == Some(n) && ds[|ds| - 1] !in Whitespace
    ensures PyInt("-" + ds, 10) == Some(-(n as int))
  {
    var s := "-" + ds;
    assert s[|s| - 1] == ds[|ds| - 1];
    StripNothing(s, Whitespace);
    PyIntStripped(s, 10);
    NegativeGrouped(ds, n);
  }

  /** On text with nothing to strip, `int()` is `SignedValue`. */
  lemma PyIntStripped(s: string, base: nat)
    requires base == 10 || base == 16
    requires Strip(s, Whitespace) == s
    ensures PyInt(s, base) == SignedValue(s, base)
  {
  }

  lemma NegativeGrouped(ds: string, n: nat)
    requires GroupedValue(ds, 10) == Some(n)
    ensures SignedValue("-" + ds, 10) == Some(-(n as int))
  {
    var t := "-" + ds;
    assert |t| > 0 && t[0] == '-' && t[1..] == ds;
  }

  /** Plain digits, without underscores, are a digit part of their own value. */
  lemma GroupedDigits(ds: string, base: nat)
    requires |ds| > 0 && AllDigitsOf(ds, base)
    ensures GroupedValue(ds, base) == Some(NumeralValue(ds, base))
  {
    assert '_' !in ds;
    DropCharAbsent(ds, '_');
  }

  /** Two integers with the same decimal text are equal. */
  lemma IntToStringInjective(i: int, j: int)
    requires IntToString(i) == IntToString(j)
    ensures i == j
  {
    IntRoundTrip(i);
    IntRoundTrip(j);
  }

  // ---------------------------------------------------------------- replace / strip

  /** `s.replace(p, '')`: every occurrence of `p`, scanning left to right without overlap, removed. */
  function RemoveAll(s: string, p: string): string
    requires |p| > 0
    decreases |s|
  {
    if |s| < |p| then s
    else if s[..|p|] == p then RemoveAll(s[|p|..], p)
    else [s[0]] + RemoveAll(s[1..], p)
  }

  lemma {:induction false} RemoveAllAbsent(s: string, p: string)
    requires |p| > 0 && p[0] !in s
    ensures RemoveAll(s, p) == s
    decreases |s|
  {
    if |s| >= |p| {
      assert s[..|p|][0] == s[0];
      assert s == [s[0]] + s[1..];
      assert forall c :: c in s[1..] ==> c in s;
      RemoveAllAbsent(s[1..], p);
    }
  }

  lemma {:induction false} RemoveAllShrinks(s: string, p: string)
    requires |p| > 0
    ensures |RemoveAll(s, p)| <= |s|
    decreases |s|
  {
    if |s| >= |p| {
      if s[..|p|] == p {
        RemoveAllShrinks(s[|p|..], p);
      } else {
        RemoveAllShrinks(s[1..], p);
      }
    }
  }

  /** `s.replace(c, '')` for a single character. */
  function DropChar(s: string, c: char): (r: string)
    ensures |r| <= |s|
    decreases |s|
  {
    if s == [] then [] else (if s[0] == c then [] else [s[0]]) + DropChar(s[1..], c)
  }

  lemma {:induction false} DropCharAppend(a: string, b: string, c: char)
    ensures DropChar(a + b, c) == DropChar(a, c) + DropChar(b, c)
    decreases |a|
  {
    if a == [] {
      assert a + b == b;
    } else {
      assert (a + b)[1..] == a[1..] + b;
      DropCharAppend(a[1..], b, c);
    }
  }

  lemma {:induction false} DropCharAbsent(s: string, c: char)
    requires c !in s
    ensures DropChar(s, c) == s
    decreases |s|
  {
    if s != [] {
      assert forall x :: x in s[1..] ==> x in s;
      DropCharAbsent(s[1..], c);
    }
  }

  /** Removing the separator character from a join leaves the parts run together. */
  lemma {:induction false} DropCharJoin(parts: seq<string>, c: char)
    requires forall i :: 0 <= i < |parts| ==> c !in parts[i]
    ensures DropChar(Join([c], parts), c) == Concat(parts)
    decreases |parts|
  {
    if |parts| == 1 {
      DropCharAbsent(parts[0], c);
      assert Concat(parts[1..]) == "";
    } else if |parts| > 1 {
      var rest := Join([c], parts[1..]);
      DropCharJoin(parts[1..], c);
      DropCharAbsent(parts[0], c);
      assert DropChar([c], c) == "";
      DropCharAppend(parts[0], [c], c);
      DropCharAppend(parts[0] + [c], rest, c);
    }
  }

  function StripLeading(s: string, cs: set<char>): (r: string)
    ensures |r| <= |s|
    decreases |s|
  {
    if |s| > 0 && s[0] in cs then StripLeading(s[1..], cs) else s
  }

  function StripTrailing(s: string, cs: set<char>): (r: string)
    ensures |r| <= |s|
    decreases |s|
  {
    if |s| > 0 && s[|s| - 1] in cs then StripTrailing(s[..|s| - 1], cs) else s
  }

  /** `s.strip(chars)`. */
  function Strip(s: string, cs: set<char>): string {
    StripTrailing(StripLeading(s, cs), cs)
  }

  // ---------------------------------------------------------------- bytes and hexadecimal

  type Byte = b: int | 0 <= b < 256

  /** Lower-case hexadecimal digit, as `'%x'` prints it. */
  function HexDigit(n: nat): char
    requires n < 16
  {
    if n < 10 then ('0' as int + n) as char else ('a' as int + n - 10) as char
  }

  predicate IsHexDigit(c: char) {
    ('0' <= c <= '9') || ('a' <= c <= 'f') || ('A' <= c <= 'F')
  }

  function HexValue(c: char): (n: nat)
    requires IsHexDigit(c)
    ensures n < 16
  {
    if '0' <= c <= '9' then c as int - '0' as int
    else if 'a' <= c <= 'f' then c as int - 'a' as int + 10
    else c as int - 'A' as int + 10
  }

  lemma HexDigitRoundTrip(n: nat)
    requires n < 16
    ensures IsHexDigit(HexDigit(n)) && HexValue(HexDigit(n)) == n
    ensures HexDigit(n) !in {'-', '{', '}', 'u', ':'}
  {
  }

  // ---------------------------------------------------------------- Python's int(s, base)

  /** The ASCII characters `int()` skips around a numeral: tab, line feed, vertical tab, form
      feed, carriage return and space. The information separators `\x1c`-`\x1f` are white space
      to `str.strip()`, but `int()` rejects them. */
  const Whitespace: set<char> := {'\t', '\n', '\U{0B}', '\U{0C}', '\r', ' '}

  /** Stripping changes nothing when neither end can be stripped. */
  lemma StripNothing(s: string, cs: set<char>)
    requires |s| > 0 ==> s[0] !in cs && s[|s| - 1] !in cs
    ensures Strip(s, cs) == s
  {
  }

  /** A digit of base 10 or 16; hexadecimal digits may be of either case. */
  predicate IsDigitOf(c: char, base: nat) {
    if base == 16 then IsHexDigit(c) else IsDigit(c)
  }

  predicate AllDigitsOf(s: string, base: nat) {
    forall i :: 0 <= i < |s| ==> IsDigitOf(s[i], base)
  }

  /** The number a string of digits of `base` denotes, most significant first. */
  function NumeralValue(s: string, base: nat): nat
    requires AllDigitsOf(s, base)
    decreases |s|
  {
    if s == [] then 0 else NumeralValue(s[..|s| - 1], base) * base + HexValue(s[|s| - 1])
  }

  /** The digit part `int()` accepts: one or more digits, with single underscores allowed
      between two digits. */
  predicate Grouped(s: string, base: nat) {
    |s| > 0 && s[0] != '_' && s[|s| - 1] != '_'
    && (forall i :: 0 <= i < |s| ==> s[i] == '_' || IsDigitOf(s[i], base))
    && (forall i :: 0 <= i < |s| - 1 ==> s[i] == '_' ==> s[i + 1] != '_')
  }

  /** Dropping the underscores of digits and underscores leaves digits. */
  lemma {:induction false} DropUnderscores(s: string, base: nat)
    requires forall i :: 0 <= i < |s| ==> s[i] == '_' || IsDigitOf(s[i], base)
    ensures AllDigitsOf(DropChar(s, '_'), base)
    decreases |s|
  {
    if s != [] {
      DropUnderscores(s[1..], base);
    }
  }

  predicate HexPrefixed(u: string) {
    |u| >= 2 && u[0] == '0' && (u[1] == 'x' || u[1] == 'X')
  }

  /** The value of a digit part `int()` accepts, underscores ignored. */
  function GroupedValue(body: string, base: nat): (r: Option<nat>)
    ensures r.Some? ==> |body| > 0 && IsDigitOf(body[0], base)
  {
    if Grouped(body, base) then
      DropUnderscores(body, base);
      Some(NumeralValue(DropChar(body, '_'), base))
    else None
  }

  /** Python's `int(s, base)` for base 10 and 16: white space around the text is ignored, one
      sign `+` or `-` may lead, base 16 also allows a `0x` or `0X` prefix after the sign (and
      one underscore after the prefix), and the digits may be grouped by single underscores.
      Anything else is a ValueError, here `None`. */
  function PyInt(s: string, base: nat): (r: Option<int>)
    requires base == 10 || base == 16
    ensures r.Some? ==> exists i :: 0 <= i < |s| && IsDigitOf(s[i], base)
  {
    var t := Strip(s, Whitespace);
    var r := SignedValue(t, base);
    assert r.Some? ==> exists j :: 0 <= j < |s| && IsDigitOf(s[j], base) by {
      if r.Some? {
        var i :| 0 <= i < |t| && IsDigitOf(t[i], base);
        StripInside(s, Whitespace);
        assert t[i] in s;
      }
    }
    r
  }

  /** `int()` of text without surrounding white space. */
  function SignedValue(t: string, base: nat): (r: Option<int>)
    requires base == 10 || base == 16
    ensures r.Some? ==> exists i :: 0 <= i < |t| && IsDigitOf(t[i], base)
  {
    var signed := |t| > 0 && (t[0] == '-' || t[0] == '+');
    var u := if signed then t[1..] else t;
    var body := if base == 16 && HexPrefixed(u) then (if |u| > 2 && u[2] == '_' then u[3..] else u[2..]) else u;
    match GroupedValue(body, base)
    case None => None
    case Some(n) =>
      assert body[0] in t;
      Some(if signed && t[0] == '-' then -(n as int) else n)
  }

  /** Stripping keeps only characters of the text. */
  lemma {:induction false} StripInside(s: string, cs: set<char>)
    ensures forall c :: c in Strip(s, cs) ==> c in s
  {
    StripLeadingInside(s, cs);
    StripTrailingInside(StripLeading(s, cs), cs);
  }

  lemma {:induction false} StripLeadingInside(s: string, cs: set<char>)
    ensures forall c :: c in StripLeading(s, cs) ==> c in s
    decreases |s|
  {
    if |s| > 0 && s[0] in cs {
      StripLeadingInside(s[1..], cs);
    }
  }

  lemma {:induction false} StripTrailingInside(s: string, cs: set<char>)
    ensures forall c :: c in StripTrailing(s, cs) ==> c in s
    decreases |s|
  {
    if |s| > 0 && s[|s| - 1] in cs {
      StripTrailingInside(s[..|s| - 1], cs);
    }
  }

  /** White space, a sign and underscores between digits are accepted by `int()`. */
  lemma PyIntSpacedSigned()
    ensures PyInt(" -1_0\n", 10) == Some(-10)
  {
    StripSpacedSigned();
    assert "-1_0"[1..] == "1_0";
    GroupedTen();
  }

  lemma StripSpacedSigned()
    ensures Strip(" -1_0\n", Whitespace) == "-1_0"
  {
    assert " -1_0\n"[1..] == "-1_0\n";
    assert StripLeading("-1_0\n", Whitespace) == "-1_0\n";
    assert "-1_0\n"[..4] == "-1_0";
    assert StripTrailing("-1_0", Whitespace) == "-1_0";
  }

  lemma GroupedTen()
    ensures GroupedValue("1_0", 10) == Some(10)
  {
    assert DropChar("1_0", '_') == "10";
    assert "10"[..1] == "1";
    assert "1"[..0] == "";
  }

  /** In base 16 a `0x` prefix, an underscore after it and digits of both cases are accepted. */
  lemma PyIntHexPrefix()
    ensures PyInt("+0x_fF", 16) == Some(255)
  {
    StripNothing("+0x_fF", Whitespace);
    PyIntStripped("+0x_fF", 16);
    GroupedHexFF();
    PrefixedGrouped("fF", 255);
    assert "+0x_" + "fF" == "+0x_fF";
  }

  /** A sign, `0x` and one underscore before a hexadecimal digit part leave its value. */
  lemma PrefixedGrouped(body: string, n: nat)
    requires GroupedValue(body, 16) == Some(n)
    ensures SignedValue("+0x_" + body, 16) == Some(n)
  {
    var t := "+0x_" + body;
    var u := t[1..];
    assert t[0] == '+' && HexPrefixed(u) && |u| > 2 && u[2] == '_';
    assert u[3..] == body;
  }

  lemma GroupedHexFF()
    ensures GroupedValue("fF", 16) == Some(255)
  {
    assert DropChar("fF", '_') == "fF";
    assert "fF"[..1] == "f";
    assert "f"[..0] == "";
  }

  /** Text that starts with a capital letter is never a decimal integer. */
  lemma ParseIntCapital(s: string)
    requires |s| > 0 && 'A' <= s[0] <= 'Z'
    ensures ParseInt(s).None?
  {
    var t := Strip(s, Whitespace);
    StripTrailingKeepsFirst(s, Whitespace);
    assert |t| > 0 && t[0] == s[0];
    assert !IsDigitOf(t[0], 10);
  }

  /** Stripping trailing characters keeps a first character that cannot be stripped. */
  lemma {:induction false} StripTrailingKeepsFirst(s: string, cs: set<char>)
    requires |s| > 0 && s[0] !in cs
    ensures Strip(s, cs) == StripTrailing(s, cs)
    ensures |StripTrailing(s, cs)| > 0 && StripTrailing(s, cs)[0] == s[0]
    decreases |s|
  {
    if s[|s| - 1] in cs {
      assert |s| > 1;
      StripTrailingKeepsFirst(s[..|s| - 1], cs);
    }
  }

  /** Doubled or leading underscores and a bare prefix are rejected. */
  lemma PyIntRejectsDoubled()
    ensures PyInt("1__0", 10).None?
  {
    StripNothing("1__0", Whitespace);
    assert !Grouped("1__0", 10) by {
      assert "1__0"[1] == '_' && "1__0"[2] == '_';
    }
  }

  lemma PyIntRejectsLeading()
    ensures PyInt("_1", 10).None?
  {
    StripNothing("_1", Whitespace);
  }

  /** An information separator is not white space to `int()`: `int("\x1c5")` raises. */
  lemma PyIntRejectsSeparator()
    ensures PyInt("\U{1C}5", 10).None?
  {
    StripNothing("\U{1C}5", Whitespace);
  }

  lemma PyIntRejectsBarePrefix()
    ensures PyInt("0x", 16).None?
  {
    StripNothing("0x", Whitespace);
    assert "0x"[2..] == "";
  }
}

=== FILE: urls.dfy ===
/** `urllib.parse.urlencode` as the clients call it (a dict of query parameters, the
    default `quote_plus`), and the `base + '?' + urlencode(query)` rule they share. */
module Urls {
  import opened Wrappers
  import opened Text
  import opened Dicts

  /** The characters `quote_plus` never escapes. */
  predicate Unreserved(c: char) {
    ('a' <= c <= 'z') || ('A' <= c <= 'Z') || ('0' <= c <= '9') || c == '_' || c == '.' || c == '-' || c == '~'
  }

  /** The UTF-8 encoding of one character. */
  function Utf8(c: char): (bs: seq<Byte>)
    ensures 1 <= |bs| <= 4
  {
    var n := c as int;
    if n < 0x80 then [n]
    else if n < 0x800 then [0xC0 + n / 0x40, 0x80 + n % 0x40]
    else if n < 0x1_0000 then [0xE0 + n / 0x1000, 0x80 + (n / 0x40) % 0x40, 0x80 + n % 0x40]
    else [0xF0 + n / 0x4_0000, 0x80 + (n / 0x1000) % 0x40, 0x80 + (n / 0x40) % 0x40, 0x80 + n % 0x40]
  }

  /** Upper-case hexadecimal digit, as `'%02X'` prints it. */
  function UpperHex(n: nat): (c: char)
    requires n < 16
    ensures IsHexDigit(c) && HexValue(c) == n
  {
    if n < 10 then ('0' as int + n) as char else ('A' as int + n - 10) as char
  }

  /** `%XX` for each byte. */
  function PercentBytes(bs: seq<Byte>): (s: string)
    ensures |s| == 3 * |bs|
    ensures forall i :: 0 <= i < |s| ==> (s[i] == '%' <==> i % 3 == 0) && (s[i] != '%' ==> IsHexDigit(s[i]))
    decreases |bs|
  {
    if bs == [] then []
    else
      var head := ['%', UpperHex(bs[0] / 16), UpperHex(bs[0] % 16)];
      assert !IsHexDigit('%') && IsHexDigit(head[1]) && IsHexDigit(head[2]);
      var s := head + PercentBytes(bs[1..]);
      assert forall i :: 3 <= i < |s| ==> s[i] == PercentBytes(bs[1..])[i - 3] && (i % 3 == 0 <==> (i - 3) % 3 == 0);
      s
  }

  /** `quote_plus(s)`: unreserved characters stay, a space becomes `+`, anything else
      becomes the `%XX` escapes of its UTF-8 bytes. */
  function QuotePlus(s: string): string
    decreases |s|
  {
    if s == [] then []
    else
      (if Unreserved(s[0]) then [s[0]] else if s[0] == ' ' then "+" else PercentBytes(Utf8(s[0])))
      + QuotePlus(s[1..])
  }

  /** Escaped text holds only unreserved characters, `+`, `%` and hex digits. */
  lemma {:induction false} QuotePlusAlphabet(s: string)
    ensures forall c :: c in QuotePlus(s) ==> Unreserved(c) || c == '+' || c == '%'
    decreases |s|
  {
    if s != [] {
      QuotePlusAlphabet(s[1..]);
      var bs := Utf8(s[0]);
      forall c | c in PercentBytes(bs) ensures Unreserved(c) || c == '%' {
        var i :| 0 <= i < |PercentBytes(bs)| && PercentBytes(bs)[i] == c;
      }
    }
  }

  /** An escaped string of unreserved characters is the string itself. */
  lemma {:induction false} QuotePlusUnreserved(s: string)
    requires forall i :: 0 <= i < |s| ==> Unreserved(s[i])
    ensures QuotePlus(s) == s
    decreases |s|
  {
    if s != [] {
      QuotePlusUnreserved(s[1..]);
    }
  }

  /** `str(v)` for a query value: a string, or None which prints as `None`. */
  function QueryValue(v: Option<string>): string {
    match v
    case Some(s) => s
    case None => "None"
  }

  function Pairs(q: Dict<Option<string>>): (ps: seq<string>)
    ensures |ps| == |q|
    decreases |q|
  {
    if q == [] then [] else [QuotePlus(q[0].0) + "=" + QuotePlus(QueryValue(q[0].1))] + Pairs(q[1..])
  }

  /** `urlencode(query)`: `key=value` pairs, escaped, in dict order, joined by `&`. */
  function UrlEncode(q: Dict<Option<string>>): string {
    Join("&", Pairs(q))
  }

  /** The request URI: `base + '?' + urlencode(query)` when the query has keys, else `base`. */
  function WithQuery(base: string, q: Dict<Option<string>>): string {
    if |q| > 0 then base + "?" + UrlEncode(q) else base
  }

  lemma UrlEncodeNoMark(q: Dict<Option<string>>)
    ensures '?' !in UrlEncode(q)
  {
    forall i | 0 <= i < |Pairs(q)| ensures '?' !in Pairs(q)[i] {
      PairsNoMark(q, i);
    }
    JoinAvoids('?', "&", Pairs(q));
  }

  lemma QuotePlusNoMark(s: string)
    ensures '?' !in QuotePlus(s)
  {
    QuotePlusAlphabet(s);
    assert !Unreserved('?');
  }

  lemma {:induction false} PairsNoMark(q: Dict<Option<string>>, i: nat)
    requires i < |q|
    ensures '?' !in Pairs(q)[i]
    decreases |q|
  {
    if i == 0 {
      var k := QuotePlus(q[0].0);
      var v := QuotePlus(QueryValue(q[0].1));
      QuotePlusNoMark(q[0].0);
      QuotePlusNoMark(QueryValue(q[0].1));
      assert Pairs(q)[0] == k + "=" + v;
      assert '?' !in k + "=" + v;
    } else {
      PairsNoMark(q[1..], i - 1);
      assert Pairs(q)[i] == Pairs(q[1..])[i - 1];
    }
  }

  /** The URI carries a `?` exactly when the query is non-empty, and then the only `?`
      separates the base from the encoded query. */
  lemma WithQueryMark(base: string, q: Dict<Option<string>>)
    requires '?' !in base
    ensures ('?' in WithQuery(base, q)) <==> |q| > 0
    ensures |q| > 0 ==>
      (WithQuery(base, q)[..|base| + 1] == base + "?"
       && WithQuery(base, q)[|base| + 1..] == UrlEncode(q)
       && '?' !in UrlEncode(q))
  {
    UrlEncodeNoMark(q);
    if |q| > 0 {
      var u := WithQuery(base, q);
      assert u[|base|] == '?';
      assert u[..|base| + 1] == base + "?";
      assert u[|base| + 1..] == UrlEncode(q);
    }
  }
}

=== FILE: uuids.dfy ===
/** Python's `uuid.UUID` as far as the entity marshaller uses it: `str(u)` and `UUID(s)`. */
module Uuids {
  import opened Wrappers
  import opened Text

  type Nibble = n: int | 0 <= n < 16

  /** A UUID as its 32 hexadecimal digits, most significant first; this is the same
      information as the 128-bit integer Python keeps. */
  type Uuid = s: seq<Nibble> | |s| == 32 witness seq(32, i => 0)

  function HexString(ns: seq<Nibble>): (s: string)
    ensures |s| == |ns|
  {
    seq(|ns|, i requires 0 <= i < |ns| => HexDigit(ns[i]))
  }

  /** The five digit groups of `str(u)`: 8, 4, 4, 4 and 12 lower-case hex digits. */
  function Groups(u: Uuid): seq<string> {
    [HexString(u[..8]), HexString(u[8..12]), HexString(u[12..16]), HexString(u[16..20]), HexString(u[20..])]
  }

  /** `str(u)`: the five groups joined by `-`. */
  function FormatUuid(u: Uuid): string {
    Join("-", Groups(u))
  }

  /** `UUID(s)` for a string `s`: the `urn:` and `uuid:` markers, surrounding braces and
      every hyphen are removed; what remains must be 32 characters long, and `int(h, 16)` of
      those characters (so white space, a sign, a `0x` prefix and underscores are allowed)
      must lie in the 128-bit range. */
  function ParseUuid(s: string): Result<Uuid, Fault> {
    var h := DropChar(Strip(RemoveAll(RemoveAll(s, "urn:"), "uuid:"), {'{', '}'}), '-');
    if |h| != 32 then Err(ValueError)
    else
      match PyInt(h, 16)
      case None => Err(ValueError)
      case Some(v) => if 0 <= v < Pow16(32) then Ok(NibblesOf(v, 32)) else Err(ValueError)
  }

  /** `16^n`; `Pow16(32)` is 2^128. */
  function Pow16(n: nat): nat {
    if n == 0 then 1 else 16 * Pow16(n - 1)
  }

  /** The `n` low hexadecimal digits of `v`, most significant first. */
  function NibblesOf(v: nat, n: nat): (ns: seq<Nibble>)
    ensures |ns| == n
  {
    if n == 0 then [] else NibblesOf(v / 16, n - 1) + [v % 16]
  }

  /** Fewer than 32 characters can never hold a UUID. */
  lemma ParseUuidShort(s: string)
    requires |s| < 32
    ensures ParseUuid(s).Err?
  {
    RemoveAllShrinks(s, "urn:");
    RemoveAllShrinks(RemoveAll(s, "urn:"), "uuid:");
  }

  /** `int(u)`: the 128-bit value of the digits. */
  function NibblesValue(ns: seq<Nibble>): nat
    decreases |ns|
  {
    if ns == [] then 0 else NibblesValue(ns[..|ns| - 1]) * 16 + ns[|ns| - 1]
  }

  function UuidValue(u: Uuid): nat {
    NibblesValue(u)
  }

  lemma HexStringAvoids(ns: seq<Nibble>)
    ensures forall c :: c in HexString(ns) ==> c !in {'-', '{', '}', 'u', ':'}
  {
    forall i | 0 <= i < |ns| ensures HexString(ns)[i] !in {'-', '{', '}', 'u', ':'} {
      HexDigitRoundTrip(ns[i]);
    }
  }

  lemma HexStringSplit(ns: seq<Nibble>, i: nat, j: nat, k: nat)
    requires i <= j <= k <= |ns|
    ensures HexString(ns[i..j]) + HexString(ns[j..k]) == HexString(ns[i..k])
  {
  }

  lemma FormatShape(u: Uuid)
    ensures var g := Groups(u);
      FormatUuid(u) == g[0] + "-" + g[1] + "-" + g[2] + "-" + g[3] + "-" + g[4]
  {
    var g := Groups(u);
    assert g[4..][1..] == [];
    assert g[3..][1..] == g[4..];
    assert g[2..][1..] == g[3..];
    assert g[1..][1..] == g[2..];
    assert Join("-", g[4..]) == g[4];
    assert Join("-", g[3..]) == g[3] + "-" + g[4];
    assert Join("-", g[2..]) == g[2] + "-" + (g[3] + "-" + g[4]);
    assert Join("-", g[1..]) == g[1] + "-" + (g[2] + "-" + (g[3] + "-" + g[4]));
  }

  /** Removing the hyphens from `str(u)` leaves the 32 digits. */
  lemma FormatDigits(u: Uuid)
    ensures DropChar(FormatUuid(u), '-') == HexString(u)
  {
    var g := Groups(u);
    forall i | 0 <= i < |g| ensures '-' !in g[i] {
      HexStringAvoids(u[..8]);
      HexStringAvoids(u[8..12]);
      HexStringAvoids(u[12..16]);
      HexStringAvoids(u[16..20]);
      HexStringAvoids(u[20..]);
    }
    DropCharJoin(g, '-');
    assert Concat(g) == g[0] + (g[1] + (g[2] + (g[3] + g[4]))) by {
      assert g[4..][1..] == [];
      assert g[3..][1..] == g[4..];
      assert g[2..][1..] == g[3..];
      assert g[1..][1..] == g[2..];
      assert Concat(g[4..]) == g[4] + Concat([]) == g[4];
      assert Concat(g[3..]) == g[3] + g[4];
      assert Concat(g[2..]) == g[2] + (g[3] + g[4]);
      assert Concat(g[1..]) == g[1] + (g[2] + (g[3] + g[4]));
    }
    HexStringSplit(u, 16, 20, 32);
    HexStringSplit(u, 12, 16, 32);
    HexStringSplit(u, 8, 12, 32);
    HexStringSplit(u, 0, 8, 32);
    assert u[0..32] == u;
    assert u[..8] == u[0..8];
    assert u[20..] == u[20..32];
  }

  /** `UUID(str(u)) == u`. */
  lemma UuidRoundTrip(u: Uuid)
    ensures ParseUuid(FormatUuid(u)) == Ok(u)
  {
    var f := FormatUuid(u);
    FormatNoMarkers(u);
    RemoveAllAbsent(f, "urn:");
    RemoveAllAbsent(f, "uuid:");
    FormatDigits(u);
    HexStringValue(u);
  }

  /** `str(u)` has no `u` (so neither marker) and neither starts nor ends with a brace. */
  lemma FormatNoMarkers(u: Uuid)
    ensures 'u' !in FormatUuid(u) && Strip(FormatUuid(u), {'{', '}'}) == FormatUuid(u)
  {
    var f := FormatUuid(u);
    FormatShape(u);
    HexStringAvoids(u[..8]);
    HexStringAvoids(u[8..12]);
    HexStringAvoids(u[12..16]);
    HexStringAvoids(u[16..20]);
    HexStringAvoids(u[20..]);
    assert f[0] == HexString(u[..8])[0];
    assert f[|f| - 1] == HexString(u[20..])[11];
  }

  /** `int(h, 16)` of the 32 digits of `str(u)` without hyphens is `int(u)`, and turning that
      back into 32 digits gives `u`. */
  lemma HexStringValue(u: Uuid)
    ensures PyInt(HexString(u), 16) == Some(UuidValue(u))
    ensures 0 <= UuidValue(u) < Pow16(32) && NibblesOf(UuidValue(u), 32) == u
  {
    var h := HexString(u);
    HexStringAvoids(u);
    HexDigitRoundTrip(u[0]);
    HexDigitRoundTrip(u[31]);
    assert h[0] !in Whitespace && h[31] !in Whitespace;
    StripNothing(h, Whitespace);
    PyIntStripped(h, 16);
    HexNumeral(u);
    GroupedDigits(h, 16);
    PlainGrouped(h, 16, NumeralValue(h, 16));
    NibblesBound(u);
    NibblesRoundTrip(u);
  }

  /** The digits of `HexString(ns)` read in base 16 are `ns`'s value. */
  lemma {:induction false} HexNumeral(ns: seq<Nibble>)
    ensures AllDigitsOf(HexString(ns), 16) && NumeralValue(HexString(ns), 16) == NibblesValue(ns)
    decreases |ns|
  {
    forall i | 0 <= i < |ns| ensures IsHexDigit(HexString(ns)[i]) {
      HexDigitRoundTrip(ns[i]);
    }
    if ns != [] {
      var k := |ns| - 1;
      HexNumeral(ns[..k]);
      assert HexString(ns)[..k] == HexString(ns[..k]);
      HexDigitRoundTrip(ns[k]);
    }
  }

  lemma {:induction false} NibblesBound(ns: seq<Nibble>)
    ensures NibblesValue(ns) < Pow16(|ns|)
    decreases |ns|
  {
    if ns != [] {
      NibblesBound(ns[..|ns| - 1]);
    }
  }

  /** Value and digits are inverse at a fixed width. */
  lemma {:induction false} NibblesRoundTrip(ns: seq<Nibble>)
    ensures NibblesOf(NibblesValue(ns), |ns|) == ns
    decreases |ns|
  {
    if ns != [] {
      var k := |ns| - 1;
      var v := NibblesValue(ns);
      assert v / 16 == NibblesValue(ns[..k]) && v % 16 == ns[k];
      NibblesRoundTrip(ns[..k]);
      assert ns == ns[..k] + [ns[k]];
    }
  }
}

=== FILE: wrappers.dfy ===
/** Option and Result, plus the Python exceptions the modelled code can raise. */
module Wrappers {

  datatype Option<+T> = None | Some(value: T)

  datatype Result<+T, +E> = Ok(value: T) | Err(error: E)

  /** The exceptions that escape the modelled operations, named after Python's. */
  datatype Fault =
    | KeyError(key: string)        // `d[k]` on a missing key
    | ValueError                   // `int(s)` / `UUID(s)` on a malformed string
    | TypeError                    // `int(v)` on a value that has no integer form
    | AttributeError               // `UUID(v)` on a value that is not a string
    | NameError(name: string)      // a name that was never imported
    | Unmodelled                   // a branch whose arithmetic is outside this model
}
